=== FILE: README.md ===
# Jonesy theme client script: a verified model

The Jonesy Ghost theme runs one client-side script, `assets/js/index.js`. This
project models the parts of that script that keep state or compute values,
and proves what they do:

- **Incremental post loader** (`InfiniteLoader`): a "Load more" trigger
  fetches the next page of posts. Each fetch gets up to three retries with
  linear back-off. The new posts are appended to the article list, given a
  class made from their primary tag, filtered by the chosen post type,
  handed to Isotope, cached and announced. `LoaderSpec` describes the loader
  as a state machine over events:
  - the trigger being activated;
  - a fetch settling;
  - a back-off elapsing;
  - the development re-run timer firing.

  `Loader.InfiniteLoader` is the object itself. Its fields are updated in
  place, and each method is proved to perform exactly one `LoaderSpec.Step`.
- **Post-type filter** (`initPostFilter`): the drop-down list box. It covers
  `handleFilterSelect`, the list box keys and restoring the stored choice
  (`PostFilter`).
- **Rate limiters** (`RateLimit`):
  - the per-minute `RateLimiter` over `sessionStorage`;
  - the related-panel limiter, which counts attempts per time window.
- **Small helpers**:
  - J/K article navigation and list-box focus movement (`Navigation`);
  - footnote extraction and reference rewriting (`Footnotes`);
  - the weather word and its icon (`Weather`);
  - the testimonial shuffle and rotation (`Testimonials`);
  - `sanitizeText`, tag-class normalisation and the Mastodon instance clean-up (`Sanitize`);
  - the price toggle and the related-card stack (`Widgets`).

Supporting modules:

- `Base`: `Option`, `RemoveAt`, `Min` and `Max`.
- `Browser`: the `Post` record, `localStorage` as a map, and Isotope as a log
  of its `appended`, `arrange` and `layout` calls.
- `JsText`: the JavaScript string operations used, namely `trim`,
  `toLowerCase` and `split`.
- `Decimal`: `toString` and `parseInt` on integers.

Things outside the program's own logic are given to the model as inputs:

- The network fetch is an oracle. It either fails or yields the page's posts
  and its next link.
- The wall clock is a `nowMs` parameter.
- `Math.random` is the sequence of indices it would have drawn.
- Timers are events. The delays they were set for are recorded.
- Whether the page runs on `localhost` is a configuration flag.

## Model

| member | source | states |
|---|---|---|
| LoaderSpec.Init | assets/js/index.js:2406-2423 | The loader starts idle and enabled, with `_loadedPages` at 1 and no run in flight. |
| LoaderSpec.FilterOf | assets/js/index.js:2446 | `getItem('selectedPostType') \|\| 'all'` is never empty, and it is the stored value whenever that value is non-empty. |
| LoaderSpec.ShowNoMore | assets/js/index.js:2619-2628 | `_showNoMorePosts` disables the trigger and adds the one announcement "No more posts available". The loading flag, the cursor, the page counter, the appended posts, the pending runs and the fetches are kept. |
| LoaderSpec.Finish | assets/js/index.js:2467-2471 | The `finally` block leaves the loading flag set exactly when it was set and the trigger is disabled. |
| LoaderSpec.Throw | assets/js/index.js:2455-2466 | The `catch` block adds the error announcement and then runs `finally`. On localhost it also arms one re-run timer. The cursor, the page counter and the appended posts are kept. |
| LoaderSpec.NoPage | assets/js/index.js:2488-2491 | A run that finds no next page ends disabled with two "No more posts" announcements, one from `loadNextPage` and one from the handler. The loading flag stays as it was, because `finally` leaves it set on a disabled trigger. The cursor, the page counter and the appended posts are kept. |
| LoaderSpec.Gate | assets/js/index.js:2485 | The filtered-out test can block a fetch only after the first page, for a filter other than `all`, once `_hasMoreFilteredPosts` is false. Otherwise the gate is exactly a non-empty next `href`. |
| LoaderSpec.StartRun | assets/js/index.js:2439-2447 | After an activation the loading flag is always set; a run that finds no page leaves it set because the trigger is disabled. While a run is flagged, activation changes nothing. The page counter and the appended posts are untouched. |
| LoaderSpec.Settle | assets/js/index.js:2509-2539 | `_loadedPages` rises by one exactly when the fetch brought a page with posts. Appended posts are only added to. |
| LoaderSpec.Accept | assets/js/index.js:2449-2471 | Handling an accepted page keeps `_nextDom`, `_loadedPages` and the pending runs, and only adds appended posts. |
| LoaderSpec.Process | assets/js/index.js:2543-2596 | `_processNewPosts` throws only when the `map` over the batch throws. It only adds appended posts and leaves `_nextDom`, `_loadedPages` and the pending runs alone. |
| LoaderSpec.Publish | assets/js/index.js:2569-2596 | Publishing announces exactly one message and appends nothing. `_hasMoreFilteredPosts` is cleared exactly when a filter other than `all` matches no processed post. |
| LoaderSpec.Retry | assets/js/index.js:2484-2500 | After a back-off the run fetches the same link again when the gate holds, and otherwise ends with the trigger disabled and no fetch. |
| LoaderSpec.Step | assets/js/index.js:2439-2541 | Only a settled fetch can move `_loadedPages`, and by one. No event removes an appended post. |
| LoaderSpec.HasMatch | assets/js/index.js:2550-2556 | The filter pre-check can hold only for a filter in tag-class form: a filter that `_sanitizeTagName` could never produce matches no post. |
| LoaderSpec.ProcessPost | assets/js/index.js:2598-2605 | A post with a primary tag gains exactly the class `_sanitizeTagName(tag)`. The call throws exactly when that class is empty. A post without a tag is returned unchanged. |
| LoaderSpec.ProcessAll | assets/js/index.js:2563-2567 | `newPosts.map` processes at most the whole batch, and all of it when nothing throws. |
| LoaderSpec.ProcessAllPrefix | assets/js/index.js:2563-2567 | Every post appended is the processed form of the post at the same position, and none of them threw. |
| LoaderSpec.ProcessAllStopsAtThrow | assets/js/index.js:2563-2567 | When the map throws, it stops at the first post whose processing throws. |
| LoaderSpec.ProcessAllAppend | assets/js/index.js:2563-2567 | Processing `xs + ys` is processing `xs`, then processing `ys` unless `xs` threw. |
| LoaderSpec.ProcessAllSnoc | assets/js/index.js:2563-2567 | One more post extends the processed prefix by its processed form, or ends the batch if it throws. |
| LoaderSpec.ProcessAllStopsAfterPrefix | assets/js/index.js:2563-2567 | Once a prefix has thrown, the rest of the batch is never processed. |
| LoaderSpec.ProcessPostThrowsOnBlankTag | assets/js/index.js:2598-2605 | `_processPost` throws exactly on a primary tag that trims to nothing. |
| LoaderSpec.ProcessAllWithoutBlankTags | assets/js/index.js:2563-2567 | A batch with no blank primary tag is processed without throwing. |
| LoaderSpec.ProcessAllThrowsIffBlank | assets/js/index.js:2563-2567 | A batch throws if and only if one of its primary tags is blank. |
| LoaderSpec.ProcessAllKeepsMatch | assets/js/index.js:2550-2554 | If the pre-filter at 2550-2554 found a post whose tag matches, then a post carrying the filter class survives processing. |
| LoaderSpec.PublishFrame | assets/js/index.js:2569-2596 | Publishing leaves the run state alone. It caches only under the current page number and only adds to the page. It clears `_hasMoreFilteredPosts` exactly when no processed post has the filter class. |
| LoaderSpec.ProcessFrame | assets/js/index.js:2543-2596 | `_processNewPosts` leaves the run state alone and only adds to the page. It never clears `_hasMoreFilteredPosts`, because line 2579 cannot be reached. |
| LoaderSpec.TakePage | assets/js/index.js:2523-2526 | A successful `loadNextPage` moves `_nextDom` to the fetched page, raises `_loadedPages` by one and retires its run. |
| LoaderSpec.InitInv | assets/js/index.js:2406-2423 | The constructed loader satisfies the loader invariant. |
| LoaderSpec.StartRunInv | assets/js/index.js:2439-2447 | An activation preserves the invariant. |
| LoaderSpec.FinishInv | assets/js/index.js:2455-2471 | The `catch` and `finally` blocks preserve the invariant. |
| LoaderSpec.AcceptInv | assets/js/index.js:2449-2450 | Processing an accepted page preserves the invariant. |
| LoaderSpec.SettleLoadedInv | assets/js/index.js:2517-2526 | A settled fetch with posts preserves the invariant. |
| LoaderSpec.SettleInv | assets/js/index.js:2509-2539 | Every settled fetch preserves the invariant: success, empty page, retry or rethrow. |
| LoaderSpec.RetryInv | assets/js/index.js:2533-2536 | The end of a back-off preserves the invariant. |
| LoaderSpec.StepInv | assets/js/index.js:2439-2541 | Every event preserves the invariant. |
| LoaderSpec.RunInv | assets/js/index.js:2439-2541 | Every sequence of events preserves the invariant. |
| LoaderSpec.ReachableInv | assets/js/index.js:2439-2443 | From the constructed loader, under any events, the invariant holds. Away from `localhost` at most one `loadNextPage` run is in flight, and `_hasMoreFilteredPosts` stays true. |
| LoaderSpec.ActivateWhileLoadingIsNoop | assets/js/index.js:2440 | While the loading flag is set, activating the trigger changes nothing. |
| LoaderSpec.DisabledIsFinal | assets/js/index.js:2467-2470 | Away from `localhost`, once the trigger is disabled no event changes anything. |
| LoaderSpec.StartRunFetchesIffGate | assets/js/index.js:2485-2491 | A new run fetches the next link exactly when the gate holds: a non-empty `href`, and not (`_loadedPages > 1`, a non-`all` filter and `!_hasMoreFilteredPosts`). Otherwise it fetches nothing, disables the trigger and announces "No more posts available" twice. |
| LoaderSpec.EmptyPageDisables | assets/js/index.js:2517-2521 | A page without posts disables the trigger with two announcements. It leaves `_loadedPages`, `_nextDom` and the article list as they were. |
| LoaderSpec.AcceptFrame | assets/js/index.js:2449-2471 | Handling an accepted page keeps the cursor, the page counter and the pending runs, and only adds to the page. |
| LoaderSpec.FilteredOutPageIsDropped | assets/js/index.js:2550-2559 | If no post's normalised tag equals a non-`all` filter, the batch is dropped: nothing is appended, arranged or cached, and the trigger is disabled. The page still counts as loaded. |
| LoaderSpec.PageAppended | assets/js/index.js:2563-2595 | A page that passes the filter and has no blank tag is handled in full:<br>• it is appended in fetch order with its tag classes;<br>• Isotope gets `appended`, then `arrange('.'+filter)` when filtering, then `layout`;<br>• it is cached under the new `_loadedPages`;<br>• "N new posts loaded" is announced;<br>• the flag is cleared. |
| LoaderSpec.BlankTagAbortsBatch | assets/js/index.js:2563-2567 | A blank primary tag aborts the batch. The posts before it stay appended, Isotope and the cache are untouched, and the error is announced. |
| LoaderSpec.RunAppend | assets/js/index.js:2439-2541 | Running two event sequences one after the other is the same as running their concatenation. |
| LoaderSpec.FailAndWait | assets/js/index.js:2528-2536 | `n` failed attempts, each followed by its back-off, are `2n` events. |
| LoaderSpec.Delays | assets/js/index.js:2533-2535 | The back-off before retry `k+1` is `_retryDelay * (k+1)`. |
| LoaderSpec.FailRound | assets/js/index.js:2528-2536 | One failure followed by its back-off re-fetches the same link with the retry count raised by one. |
| LoaderSpec.FailedAttempts | assets/js/index.js:2528-2536 | `n` failed rounds fetch the link `n` more times, wait the linear delays and raise the retry count by `n`. Nothing else changes. |
| LoaderSpec.RetriesExhausted | assets/js/index.js:2531-2539 | A run whose every attempt fails:<br>• fetches the link exactly 4 times;<br>• waits 1000, 2000 and 3000 ms;<br>• announces the error once;<br>• clears the flag and appends nothing;<br>• leaves `_loadedPages` as it was;<br>• schedules a re-run exactly on `localhost`. |
| LoaderSpec.RetriesExhaustedKeepsGate | assets/js/index.js:2528-2539 | The failed run leaves `_nextDom`, `_loadedPages`, `_hasMoreFilteredPosts` and the trigger's `disabled` class unchanged. |
| LoaderSpec.LocalhostTwoRuns | assets/js/index.js:2459-2466 | On `localhost`, a user activation during the re-run delay, followed by the re-run timer, leaves two runs in flight. |
| LoaderSpec.StepPageCounter | assets/js/index.js:2517-2526 | `_loadedPages` rises by exactly one, and `_nextDom` moves, on a settled fetch with at least one post. No other event changes either. |
| LoaderSpec.StepOnlyAdds | assets/js/index.js:2439-2596 | No event removes an appended post, an Isotope call, an announcement, a fetch, a wait or a cached page. |
| LoaderSpec.StartRunOnlyAdds | assets/js/index.js:2439-2491 | An activation only adds. |
| LoaderSpec.RetryOnlyAdds | assets/js/index.js:2484-2500 | A retry only adds. |
| LoaderSpec.SettleOnlyAdds | assets/js/index.js:2509-2539 | A settled fetch only adds. |
| LoaderSpec.ThrowOnlyAdds | assets/js/index.js:2455-2466 | The `catch` block only adds. |
| Loader.AnyTagMatches | assets/js/index.js:2551-2556 | The loop finds a post whose normalised primary tag equals the filter exactly when one exists. |
| Loader.AnyHasClass | assets/js/index.js:2577-2578 | The loop finds a processed post carrying the filter class exactly when one exists. |
| Loader.InfiniteLoader.constructor | assets/js/index.js:2406-2423 | The object starts in `LoaderSpec.Init` over the first page's next link, and it satisfies the invariant. |
| Loader.InfiniteLoader.ShowNoMorePosts | assets/js/index.js:2619-2628 | `_showNoMorePosts` disables the trigger and announces "No more posts available". Nothing else changes. |
| Loader.InfiniteLoader.Finally | assets/js/index.js:2467-2471 | The object makes the `LoaderSpec.Finish` change. |
| Loader.InfiniteLoader.Catch | assets/js/index.js:2455-2466 | The object announces the error, counts a re-run timer on `localhost`, then runs `finally`. |
| Loader.InfiniteLoader.EndWithoutPage | assets/js/index.js:2488-2491 | A run that yields no page shows "no more posts" twice, then runs `finally`. |
| Loader.InfiniteLoader.ProcessNewPosts | assets/js/index.js:2543-2596 | The object makes exactly the change `LoaderSpec.Process` describes. |
| Loader.InfiniteLoader.AppendAll | assets/js/index.js:2563-2567 | The loop appends the processed prefix that `LoaderSpec.ProcessAll` gives, and reports whether a post threw. Nothing else changes. |
| Loader.InfiniteLoader.PublishBatch | assets/js/index.js:2569-2595 | The object makes exactly the change `LoaderSpec.Publish` describes. |
| Loader.InfiniteLoader.LoadMoreHandler | assets/js/index.js:2439-2447 | A click performs one `Activate` step and keeps the invariant. |
| Loader.InfiniteLoader.KeyDown | assets/js/index.js:2476-2481 | Enter and Space perform an `Activate` step. Any other key changes nothing. |
| Loader.InfiniteLoader.FetchSettled | assets/js/index.js:2500-2541 | A settled fetch performs one `FetchSettled` step and keeps the invariant. |
| Loader.InfiniteLoader.SettleRun | assets/js/index.js:2509-2539 | The object makes exactly the change `LoaderSpec.Settle` describes. |
| Loader.InfiniteLoader.AcceptPage | assets/js/index.js:2449-2471 | The object makes exactly the change `LoaderSpec.Accept` describes. |
| Loader.InfiniteLoader.BackoffElapsed | assets/js/index.js:2533-2536 | The end of a back-off performs one `BackoffElapsed` step and keeps the invariant. |
| Loader.InfiniteLoader.DevTimerFires | assets/js/index.js:2462-2465 | The re-run timer performs one `DevTimerFires` step and keeps the invariant. |
| PostFilter.OptionValues | assets/js/index.js:141-150 | One option per configured type, in order, holding that type's id. |
| PostFilter.LabelOfConfigured | assets/js/index.js:840 | `types.find` yields a label exactly for the configured ids, and each id yields its own label. |
| PostFilter.ArrangeSelector | assets/js/index.js:857-863 | The arrange selector is `*` for `all` and `.` followed by the id otherwise. |
| PostFilter.ArrangeSelectorShows | assets/js/index.js:857-863 | After arranging, Isotope shows every post for `all`. For any other id it shows exactly the posts carrying that id as a class. |
| PostFilter.FilterSelector.constructor | assets/js/index.js:834-864 | Only the `all` option is selected, the button reads "All Posts", and it is neither active nor expanded. |
| PostFilter.FilterSelector.HandleFilterSelect | assets/js/index.js:834-864 | Exactly the option whose value equals the id is `aria-selected`. With a known id:<br>• the button shows its label;<br>• `filter-active` is set iff the id is not `all`;<br>• the drop-down closes;<br>• "Showing <label>" is announced;<br>• `selectedPostType` holds the id;<br>• Isotope gets `arrange('*')` or `arrange('.'+id)`.<br>With an unknown id it throws after the options are updated. |
| PostFilter.FilterSelector.ClickOption | assets/js/index.js:872-876 | A click on an option shows that option's type. |
| PostFilter.FilterSelector.ToggleButton | assets/js/index.js:867-870 | A click on the button flips `aria-expanded` and changes nothing else. |
| PostFilter.FilterSelector.ClickOutside | assets/js/index.js:879-883 | A click outside closes the drop-down. |
| PostFilter.FilterSelector.KeyDown | assets/js/index.js:886-921 | The keys act as follows:<br>• Escape closes an open drop-down and focuses the button;<br>• Enter and Space on an option show that option's type, announce "Showing …" and call `arrange`, as a click does;<br>• Up and Down on an open drop-down move the focus to `Navigation.ListboxNext`, which is always a valid option;<br>• any other key, and Enter or Space away from an option, leaves the selection, the storage, Isotope, the button text, the announcements and the active flag unchanged;<br>• the open state changes only on Escape or a chosen option. |
| PostFilter.FilterSelector.SelectIfKnown | assets/js/index.js:834-864 | The handler guarded by a known-type check: a known type is shown, and an unknown type changes nothing. |
| PostFilter.FilterSelector.RestoreSavedAsWritten | assets/js/index.js:936-940 | The restore throws exactly when the stored value is non-empty and not a configured type. It then leaves every option deselected and the button, announcements, storage and Isotope unchanged. A stored configured type is shown again, announced and arranged. A missing or empty value changes nothing. |
| PostFilter.FilterSelector.RestoreSaved | assets/js/index.js:936-940 | A stored configured type is shown again. Anything else leaves the page unchanged. |
| PostFilter.StaleValueIsUnknown | assets/js/index.js:937-940 | A value such as `videos`, which no configured type has, is unknown to the label lookup. |
| RateLimit.GetKey | assets/js/index.js:43-47 | The key starts with `rateLimit_`. |
| RateLimit.KeyMinute | assets/js/index.js:71 | A key without `_` has no third piece, so its minute is NaN. |
| RateLimit.KeyParts | assets/js/index.js:43-47 | Splitting a key on `_` gives back the prefix, the action and the minute, provided the action has no `_`. |
| RateLimit.GetKeyMinute | assets/js/index.js:43-47 | `parseInt(key.split('_')[2])` recovers the minute the key was made in. |
| RateLimit.Stale | assets/js/index.js:72-73 | A key without `_` is never stale, since its minute is NaN and `now - NaN > 5` is false. |
| RateLimit.StaleStaysStale | assets/js/index.js:73 | A key that is stale at one minute is stale at every later minute. |
| RateLimit.StaleKeyIff | assets/js/index.js:66-77 | A key is stale at minute `now` exactly when it is more than 5 minutes older than `now`. |
| RateLimit.NextCount | assets/js/index.js:52-53 | A missing or empty stored value reads as `'0'` and counts as 1. |
| RateLimit.Allows | assets/js/index.js:56 | A NaN count is never allowed. A first call, counted 1, is allowed exactly when the limit is at least 1. |
| RateLimit.NextCountOfAbsent | assets/js/index.js:52-53 | A missing count starts at 1. |
| RateLimit.NextCountOfCount | assets/js/index.js:52-53 | A stored count `n` becomes `n + 1`. |
| RateLimit.CallsCountUp | assets/js/index.js:49-57 | The first call stores 1, and a stored `n` becomes `n + 1`. A call is allowed exactly when its count is at most the limit. |
| RateLimit.NaNSticks | assets/js/index.js:49-57 | A stored `NaN` stays `NaN` and is never allowed. |
| RateLimit.CountText | assets/js/index.js:55 | `count.toString()` of `NaN` is `"NaN"`. |
| RateLimit.Increment | assets/js/index.js:49-57 | `increment` stores the next count under the current minute's key and returns `count <= limit`. |
| RateLimit.KeepFresh | assets/js/index.js:66-77 | The intended clean-up keeps at most the keys it was given. |
| RateLimit.KeepFreshMembers | assets/js/index.js:66-77 | The intended clean-up keeps exactly the keys that are not stale. |
| RateLimit.RemoveIfStale | assets/js/index.js:69-75 | One step of the scan removes the `i`-th key exactly when it is stale. |
| RateLimit.ScanFrom | assets/js/index.js:68-75 | The written scan never lengthens the key list, and the keys before the scan index stay as they are. |
| RateLimit.CleanupAsWritten | assets/js/index.js:66-77 | The forward-by-index scan leaves the keys given by `ScanFrom`, which skips the key after each one removed, each with its old value. |
| RateLimit.ScanFromKeepsFresh | assets/js/index.js:68-75 | The written scan never removes a key that is not stale. |
| RateLimit.ScanFromWithin | assets/js/index.js:68-75 | The written scan leaves only keys that were already stored. |
| RateLimit.CleanupAsWrittenSkipsStaleKey | assets/js/index.js:66-77 | With two stale keys side by side, the written loop keeps the second. The intended clean-up keeps neither. |
| RateLimit.KeepFreshStep | assets/js/index.js:66-77 | One more input key handled extends the corrected scan's result by that key if fresh. |
| RateLimit.Cleanup | assets/js/index.js:66-77 | The corrected clean-up leaves exactly the non-stale keys, in order, with their values. |
| RateLimit.CheckLimit | assets/js/index.js:59-63 | The call runs the written clean-up, then counts the call under the current minute's key: storage holds the entries the scan kept, in the scan's order, with that key set to the new count and appended last when the scan did not keep it. For an action without `_`, the call is allowed exactly when the current minute's stored count plus one is within the limit. |
| RateLimit.PanelCheck | assets/js/index.js:1257-1270 | The window resets after `timeWindowMs`. The call is granted exactly when the attempts in the window are below `maxOpenAttempts`, and only a granted call counts. |
| RateLimit.GrantsWithinWindow | assets/js/index.js:1257-1270 | Within one window, at most `maxOpenAttempts` (10) calls are granted: exactly `min(calls, 10 - attempts)`. |
| RateLimit.PanelResetsAfterWindow | assets/js/index.js:1259-1262 | Once the window has elapsed, the next call is granted and starts a new window. |
| RateLimit.PanelRateLimiter.constructor | assets/js/index.js:1253-1255 | The limiter starts with no attempts in a window starting now. |
| RateLimit.PanelRateLimiter.CheckLimit | assets/js/index.js:1257-1270 | The object makes the `PanelCheck` change and returns its verdict. |
| Navigation.NextArticleIndex | assets/js/index.js:1826-1837 | From a valid article index the next index is valid too, and differs from the current one by at most one. |
| Navigation.NextArticleIndexInRange | assets/js/index.js:1826-1837 | J moves to `current + 1` and K to `current - 1`, each clamped to `[0, len-1]`. Other keys stay. |
| Navigation.ArticleKeysIgnoreCase | assets/js/index.js:1829 | `J` and `K` act like `j` and `k`. The Kelvin sign lower-cases to `k` and acts as K. |
| Navigation.ForwardThenBack | assets/js/index.js:1829-1837 | J then K returns to an article that is not the last one. |
| Navigation.ArticleAnnouncement | assets/js/index.js:1846-1852 | The announcement starts with the heading text, or with `Article` when the heading is missing or empty. |
| Navigation.ArticleNavigator.constructor | assets/js/index.js:1799-1802 | Navigation starts at the first article with nothing announced. |
| Navigation.ArticleNavigator.Refresh | assets/js/index.js:1811-1817 | Refreshing the article list keeps the current index. |
| Navigation.ArticleNavigator.HandleKey | assets/js/index.js:1825-1856 | A key event behaves as follows:<br>• in a text field it does nothing;<br>• if the clamped index moves, the index is set and "title. Article n of len" is announced;<br>• an index that does not move announces nothing;<br>• a stale index past the end throws. |
| Navigation.ListboxNext | assets/js/index.js:911-915 | From a focused option, or from none (`-1`), the arrow keys always land on a valid option. |
| Navigation.ListboxNextInRange | assets/js/index.js:911-917 | The next focused option is always a valid index. |
| Navigation.ListboxNextIsModular | assets/js/index.js:911-915 | Up is `(current - 1) mod n` and Down is `(current + 1) mod n`. |
| Navigation.ListboxUpDownInverse | assets/js/index.js:911-915 | Up then Down, or Down then Up, returns to the same option. |
| Navigation.ListboxFromNowhere | assets/js/index.js:908-915 | With no option focused, Up goes to the last option and Down to the first. |
| Footnotes.ParseFootnote | assets/js/index.js:501-510 | A match of `^\[\[(\d+)\]\]\s*(.+)$` on the trimmed text has a non-empty digit number and non-empty content. The content does not start with white space and has no line terminator. |
| Footnotes.ParseFootnoteRoundTrip | assets/js/index.js:501-510 | Trimmed text `[[digits]]`, then white space, then content is parsed back to exactly that number and content. |
| Footnotes.ParseAll | assets/js/index.js:505-507 | Every paragraph is matched on its own. |
| Footnotes.NotesOf | assets/js/index.js:505-517 | The `footnotes` object has at most one entry per paragraph. |
| Footnotes.NotesOfDomain | assets/js/index.js:505-517 | A number is a footnote exactly when some paragraph matches with that number. Every such number is digits. |
| Footnotes.NotesOfLast | assets/js/index.js:511-514 | A number defined twice keeps the content of its last definition. |
| Footnotes.CollectFootnotes | assets/js/index.js:505-517 | The first pass collects exactly those footnotes, and hides exactly the paragraphs that match. |
| Footnotes.MatchRefAt | assets/js/index.js:502 | A match of `\[\[(\d+)\]\]` is `[[`, a non-empty run of digits, and `]]`. |
| Footnotes.RewriteRefs | assets/js/index.js:534-539 | The global replace never shortens the HTML: a reference `[[n]]` is either kept or replaced by a longer `<sup>` element. |
| Footnotes.RewriteRefsWithoutNotes | assets/js/index.js:534-539 | With no footnotes, rewriting changes nothing. |
| Footnotes.RewriteRefsWithoutOpening | assets/js/index.js:533 | HTML without `[[` is left untouched. |
| Footnotes.RewriteRefAtFront | assets/js/index.js:534-539 | A reference to a known footnote becomes its `<sup>`. A reference `[[n]]` with no footnote `n` is kept verbatim. |
| Footnotes.RewriteParagraphs | assets/js/index.js:531-541 | The second pass rewrites each paragraph's HTML independently. |
| Weather.FirstBucket | assets/js/index.js:1063-1065 | A word that the lookup returns is the word of some entry of `weatherMap`. |
| Weather.FirstBucketIsFirst | assets/js/index.js:1062-1065 | The lookup returns the word of the first entry, in map order, whose codes include the code. |
| Weather.FirstBucketOfUnlisted | assets/js/index.js:1062-1065 | A code in no entry finds nothing. |
| Weather.OneWordWeather | assets/js/index.js:1062-1067 | The word is always `cloudy` or one of the map's words. |
| Weather.OneWordWeatherOfListed | assets/js/index.js:1051-1067 | A listed code yields the word of its first entry. |
| Weather.OneWordWeatherOfUnlisted | assets/js/index.js:1066 | An unlisted code yields `cloudy`. |
| Weather.IconFor | assets/js/index.js:1070 | The icon key is the condition when `WEATHER_ICONS` has it, and `cloudy` otherwise. |
| Weather.RainShowsCloudIcon | assets/js/index.js:1057 | Every rain code is shown with the cloudy icon, because `WEATHER_ICONS` has `rainy` and not `rain`. |
| Weather.ThunderstormShowsCloudIcon | assets/js/index.js:1059 | Every thunderstorm code is shown with the cloudy icon. |
| Weather.IntendedIconFor | assets/js/index.js:292 | The corrected lookup maps `rain` to the `rainy` icon and agrees with the written lookup elsewhere. |
| Weather.IntendedIconOfListed | assets/js/index.js:1051-1070 | With the corrected lookup, only `cloudy` and `thunderstorm` codes get the cloudy icon, and rain gets `rainy`. |
| Testimonials.Range | assets/js/index.js:951 | The initial indices are `0 .. n-1` in order. |
| Testimonials.Swap | assets/js/index.js:958 | The destructuring swap exchanges two positions and keeps the rest. |
| Testimonials.Shuffled | assets/js/index.js:955-961 | Fisher–Yates keeps the length and only reorders the elements, as a multiset. |
| Testimonials.ShuffledPermutes | assets/js/index.js:955-961 | Whatever the random draws, Fisher–Yates only reorders the array. |
| Testimonials.ShuffledFromKeepsAbove | assets/js/index.js:956-959 | Later steps never touch a position already settled. |
| Testimonials.ShuffledLast | assets/js/index.js:956-959 | The last position receives the element of the first draw and keeps it. |
| Testimonials.Shuffle | assets/js/index.js:955-961 | The in-place loop computes the specified shuffle of the array. |
| Testimonials.ShuffledPermutationOfRange | assets/js/index.js:955-961 | Shuffling a permutation of `0..n-1` gives a permutation of `0..n-1`. |
| Testimonials.RoundShowsEachOnce | assets/js/index.js:1013-1032 | In a permutation of the indices, every testimonial appears exactly once and every entry is a valid index. |
| Testimonials.Rotator.constructor | assets/js/index.js:950-964 | `indices` is the shuffled range of the 16 testimonials, and `currentIndex` is 0. |
| Testimonials.Rotator.Shown | assets/js/index.js:1013 | The testimonial shown is always a valid index. |
| Testimonials.Rotator.Advance | assets/js/index.js:1029-1032 | `currentIndex` becomes `(currentIndex+1) % n`. `indices` is reshuffled exactly on wrap, and it stays a permutation. |
| Sanitize.Take | assets/js/index.js:475 | `slice(0, maxLength)` gives the prefix of the text that is `maxLength` long, or the whole text when it is shorter. |
| Sanitize.RemoveFirstScheme | assets/js/index.js:476 | The non-global replace of the dangerous-scheme pattern never lengthens the text. |
| Sanitize.SanitizeText | assets/js/index.js:470-478 | The result is no longer than `maxLength` and no longer than the text. |
| Sanitize.RemoveFirstSymbol | assets/js/index.js:477 | The non-global replace removes exactly one symbol when there is one. |
| Sanitize.RemoveFirstSymbolAt | assets/js/index.js:477 | The symbol that is removed is the leftmost one. The text before it and the text after it are kept, in order. |
| Sanitize.RemoveFirstSymbolCount | assets/js/index.js:477 | The non-global replace lowers the symbol count by at most one. |
| Sanitize.SanitizeTextSymbolCount | assets/js/index.js:474-477 | After `sanitizeText`, the symbol count of the truncated text is lowered by one at most, so symbols can survive. |
| Sanitize.SanitizeTextOfCleanText | assets/js/index.js:470-478 | Short text with no symbol and no dangerous scheme passes unchanged. |
| Sanitize.ReplaceFirstAt | assets/js/index.js:476-477 | A replace without the `g` flag whose leftmost match starts at `p` cuts out exactly that match and keeps the text before and after it. |
| Sanitize.ReplaceFirstOfNoMatch | assets/js/index.js:476-477 | A replace without the `g` flag leaves text in which the expression matches nowhere unchanged. |
| Sanitize.RemoveFirstSchemeOfNoScheme | assets/js/index.js:476 | Text with no dangerous scheme passes the scheme replace unchanged. |
| Sanitize.RemoveFirstSchemeLeavesRepeat | assets/js/index.js:476 | Of `javascript:javascript:x`, only the first scheme is removed. |
| Sanitize.RemoveFirstSchemeKeepsSymbols | assets/js/index.js:476 | Removing a scheme never removes a symbol. |
| Sanitize.ReplaceNonTagChars | assets/js/index.js:2654 | Each character outside `[a-z0-9-]` becomes `-` and the others stay, so the result is a tag class. |
| Sanitize.SanitizeTagName | assets/js/index.js:2650-2655 | The output contains only `[a-z0-9-]`. |
| Sanitize.SanitizeTagNameLength | assets/js/index.js:2650-2655 | The output is as long as the trimmed input, plus one for each `İ`, whose lower case takes two code units. |
| Sanitize.SanitizeTagNameOfTagClass | assets/js/index.js:2650-2655 | A string that is already a tag class is a fixed point. |
| Sanitize.SanitizeTagNameIdempotent | assets/js/index.js:2650-2655 | Normalising twice gives the same result as normalising once. |
| Sanitize.InitialTagClass | assets/js/index.js:2371-2374 | The class given at page load is also a tag class. |
| Sanitize.InitialTagClassOfCleanLabel | assets/js/index.js:2371-2374 | For a short label free of symbols and colons, the page-load class equals `_sanitizeTagName` of it. |
| Sanitize.InitialTagClassCanDiffer | assets/js/index.js:2371-2374 | A label `(id` gets class `id` at page load, because `sanitizeText` drops the parenthesis. Loaded posts with the same label get `-id` (line 2601). |
| Sanitize.StripScheme | assets/js/index.js:1979 | The result is a suffix of the input. It equals the input exactly when the input starts with neither `https://` nor `http://`. |
| Sanitize.StripSchemeOfUrl | assets/js/index.js:1979 | A leading `https://` or `http://` is removed and the rest is kept. |
| Sanitize.StripTrailingSlash | assets/js/index.js:1980 | The result is a prefix of the input, one shorter exactly when the input ends in `/`. |
| Sanitize.RemoveSymbols | assets/js/index.js:1981 | The global replace removes every symbol and nothing else. |
| Sanitize.CleanInstance | assets/js/index.js:1978-1981 | The cleaned instance is no longer than the input and contains no symbol. |
| Sanitize.CleanInstanceOfBareHost | assets/js/index.js:1978-1981 | A plain host name with no scheme, symbol or trailing slash is unchanged. |
| Sanitize.CleanInstanceOfUrl | assets/js/index.js:1978-1981 | `https://host/` becomes `host`. |
| Sanitize.CleanInstanceCanKeepScheme | assets/js/index.js:1978-1981 | The scheme is stripped before the symbols are removed, so `(https://host` keeps `https://`. |
| Widgets.PriceToggle.constructor | assets/js/index.js:2046-2053 | Every button starts with `aria-checked` false. |
| Widgets.PriceToggle.Click | assets/js/index.js:2055-2078 | A button whose `data-price` is not `yearly` or `monthly` changes nothing. Otherwise:<br>• exactly that button is active and checked;<br>• `data-active-price` is its price;<br>• every yearly element is shown exactly when yearly was picked, and every monthly element otherwise;<br>• the settled state is kept. |
| Widgets.PriceToggle.KeyDown | assets/js/index.js:2081-2086 | Enter and Space do what a click does: on a price button they select it, record its price and display the matching prices, and on any other button they change nothing. Other keys change nothing. The settled state is kept. |
| Widgets.InitialZ | assets/js/index.js:1406-1410 | Only the first three cards get an initial `z-index`. |
| Widgets.InitialStack | assets/js/index.js:1406-1410 | Card `i` starts with `InitialZ(i)`. |
| Widgets.SwapWithFirst | assets/js/index.js:1412-1425 | A click keeps the number of cards. |
| Widgets.SwapWithFirstPermutes | assets/js/index.js:1412-1425 | A click only exchanges the clicked card's `z-index` with the first card's. |
| Widgets.SwapWithFirstTwice | assets/js/index.js:1412-1425 | Clicking the same card twice restores the stack. |
| Widgets.FirstClickLifts | assets/js/index.js:1406-1425 | On a fresh stack, a click brings the clicked card to the top. |
| Widgets.SecondClickSinks | assets/js/index.js:1412-1425 | On three cards, clicking the third and then the second card leaves the second card at the bottom. |
| Widgets.CardStack.constructor | assets/js/index.js:1404-1410 | The stack starts with the initial `z-index` values. |
| Widgets.CardStack.Click | assets/js/index.js:1412-1425 | The in-place swap computes `SwapWithFirst`. |
| Widgets.TopIndex | assets/js/index.js:1419 | The index of the card holding `z-index` 3, or 0 when no card does. |
| Widgets.BringToFront | assets/js/index.js:1412-1425 | The corrected click keeps the number of cards. |
| Widgets.BringToFrontLifts | assets/js/index.js:1412-1425 | With the corrected click, every click brings the clicked card to the top and only exchanges values. |
| Decimal.NatToString | assets/js/index.js:55 | `toString` of a count is a non-empty run of digits with no leading zero. |
| Decimal.ParseInt | assets/js/index.js:52 | `parseInt` of empty text is `NaN`, and text starting with a digit parses to a non-negative number. |
| Decimal.ParseIntOfNatToString | assets/js/index.js:52-55 | `parseInt(n.toString())` gives back `n`. |
| Decimal.ParseIntOfIntToString | assets/js/index.js:52-55 | `parseInt(n.toString())` gives back `n` for negative numbers too. |
| Decimal.ParseIntOfLetters | assets/js/index.js:52 | `parseInt` of text that starts with a letter is `NaN`. |
| JsText.TrimStartIsSuffix | assets/js/index.js:506 | `trimStart` drops only leading white space. |
| JsText.TrimOfTrimmed | assets/js/index.js:2652 | Trimming is idempotent on trimmed text. |
| JsText.SplitAfterPiece | assets/js/index.js:71 | `split` yields the piece before a separator, then the split of the rest. |
| Browser.Shown | assets/js/index.js:857-863 | Isotope shows all the items for `*`. For `.class` it shows exactly the items that carry the class, and never more items than it was given. A single item is shown exactly when it carries the class. |
| Browser.ShownAppend | assets/js/index.js:857-863 | Filtering a concatenation filters each part and joins the results in order, so the shown items keep the order of the input. |

## Left out

- `fetch`, `DOMParser` and `response.text()` are not modelled; a fetch is an
  oracle outcome, either a failure or the parsed posts and the next link's
  `href`.
- Building the URL with the `t` cache-busting parameter on `localhost`
  (2495-2498) is not modelled; the URL fetched is recorded as the `href`.
- Console logging, the trigger's text, its `aria-*` attributes and cursor
  style, and the removal of announcement nodes after one second are not
  modelled; announcements are recorded as their message strings.
- Timers are events, and their delays are recorded values; real time is not
  modelled.
- `InfiniteLoader` without a `read-more-trigger` element is not modelled.
  In that case the handler is never installed and the loader never acts.
- `_currentFilter` (2413) is never read, so it is not modelled. The filter
  always comes from `localStorage`.
- `LoaderSpec.ProcessAll` models only one way for `_processPost` to throw:
  `classList.add` rejecting an empty class. Whitespace inside a class
  cannot arise, because the replace turns it into `-`.
- The Isotope masonry layout is not modelled; Isotope is a log of its calls,
  and `Browser.Shown` reads only the `arrange` selector.
- `RateLimit.CheckLimit`: the `windowMs` parameter (59) is never read by the
  source, so it is not modelled.
- `RateLimit.CheckLimit`: `getKey` (45) and `cleanup` (66) each read
  `Date.now()`. The model gives both reads the same `nowMs`, so a call that
  crosses a minute boundary between the two reads is not modelled.
- `RateLimit.SessionStorage`: the Web Storage standard leaves the order of
  `key(i)` to the browser. The model fixes one order: a new key goes last,
  and removing a key shifts the later keys down one place.
  `RateLimit.CleanupAsWritten`, and the first finding below, rest on that
  order.
- `Decimal.ParseInt` reads decimal digits only. JavaScript's `parseInt`
  without a radix reads text starting with `0x` or `0X` as hexadecimal, so
  `parseInt("0x1C9C380")` is 30000000 where the model gives 0. Such text
  reaches the rate limiter only through a key whose action contains `_`
  (excluded from the second `ensures` of `RateLimit.CheckLimit`) or through
  storage written by other code.
- `RateLimit.CheckLimit`: its second `ensures` is stated only for actions
  without `_`. An action containing `_` makes `split('_')[2]` read the wrong
  piece.
- The rate limiter's `Date.now()` is a `nowMs` parameter.
- `Testimonials`: `Math.random` is replaced by the draws `js[i] <= i`.
  Fetching and rendering the testimonial HTML (`sanitizeHTML`) is not
  modelled.
- `JsText.ToLower` lower-cases the ASCII capitals, `İ` and the Kelvin sign.
  Every other character passes unchanged, so no Unicode case tables are
  modelled. The results the model compares against ASCII strings are
  unaffected.
- `JsText`: a `char` stands for one UTF-16 code unit, which holds only for
  text within the Basic Multilingual Plane. For a character outside it,
  `Sanitize.Take` counts one where `slice` counts two, and a surrogate pair
  that `slice` would cut in half is not modelled.
- `JsText.IsSpace` covers the ECMAScript white space and line terminators.
  It is what `trim` and `\s` use.
- `Sanitize.SanitizeText`: `div.textContent = text` followed by reading it
  back is the identity on strings, so it is left out.
- `Widgets.CardStack.Click`: `stack.querySelector('.panel-article-card:first-child')`
  (1419) is taken to be the stack's first card. That holds only when the
  stack's first child element is a card; otherwise the selector gives `null`
  and the swap at 1423 throws, which the model does not cover.
- `Navigation.ArticleNavigator.HandleKey`: scrolling and focus are not
  modelled.
- `Navigation.ArticleNavigator.HandleKey`: the position is read from a stored
  title list that `Refresh` replaces, standing in for `updateArticleIndices`.
- `PostFilter.FilterSelector.KeyDown`: `focus()` and `preventDefault` are
  returned as a `FocusMove` rather than performed.
- The drop-down's positioning (`positionDropdown`) is not modelled.
- `Weather`: the fetch, the temperature rounding and the SVG markup are not
  modelled. Only the code-to-word mapping and the icon key are.
- Other parts of the script are not part of this model:
  - the carousel and sidenote geometry, the Knicks counter and `isValidUrl`;
  - `sanitizeHTML`, `InputValidator` and the share builders;
  - clipboard and `trustedTypes`.

  They depend on floating-point layout, dates, the URL and HTML parsers or
  browser APIs.

## Findings

| source | as written | input that shows it | evidently intended | confidence | as-written member | corrected member |
|---|---|---|---|---|---|---|
| assets/js/index.js:68-75 | `cleanup` removes keys while scanning forward by index, so the key after each removed one is skipped | two adjacent stale keys `rateLimit_a_0`, `rateLimit_b_0` at minute 6: the second survives | every key more than 5 minutes old is removed | high, not executed | RateLimit.CleanupAsWrittenSkipsStaleKey | RateLimit.Cleanup |
| assets/js/index.js:840-841 | `handleFilterSelect` dereferences `undefined.label` for an id not in `FILTER_CONFIG.types`; a stale stored value reaches it at 937-940 | `selectedPostType` = `videos` in `localStorage`: the restore throws after clearing every option's selection | unknown stored values are ignored | high, not executed | PostFilter.FilterSelector.RestoreSavedAsWritten | PostFilter.FilterSelector.RestoreSaved |
| assets/js/index.js:1057 | `getOneWordWeather` returns `rain`, but `WEATHER_ICONS` has the key `rainy` (292), so rain shows the cloudy icon (1070) | code 61 | rain shows the `rainy` icon | high, not executed | Weather.RainShowsCloudIcon | Weather.IntendedIconOfListed |
| assets/js/index.js:1417-1424 | a clicked card swaps `z-index` with the first card even when the first card is no longer on top | three cards: click the third, then the second, and the second card ends at the bottom | the clicked card comes to the front | medium, not executed | Widgets.SecondClickSinks | Widgets.BringToFrontLifts |

=== FILE: base.dfy ===
/** Small shared vocabulary: an optional value (a DOM lookup that may find
    nothing, a storage key that may be absent, a `parseInt` that may be NaN). */
module Base {

  datatype Option<+T> = None | Some(value: T)

  /** `xs` with the element at index `i` taken out. */
  function RemoveAt<T>(xs: seq<T>, i: nat): (r: seq<T>)
    requires i < |xs|
    ensures |r| == |xs| - 1
    ensures forall k :: 0 <= k < i ==> r[k] == xs[k]
    ensures forall k :: i <= k < |r| ==> r[k] == xs[k + 1]
  {
    xs[..i] + xs[i + 1..]
  }

  function Min(a: int, b: int): int { if a <= b then a else b }
  function Max(a: int, b: int): int { if a >= b then a else b }
}

=== FILE: browser.dfy ===
/** The browser-side collaborators the core talks to, reduced to what it
    observes: a post element, `localStorage`, and the Isotope layout engine as a
    recorder of the calls it receives. */
module Browser {
  import opened Base

  /** A `.post` element: its class list and the text of its `.primary-tag`
      child (None when the post has no such child). */
  datatype Post = Post(classes: set<string>, primaryTag: Option<string>)

  /** One call made on the Isotope instance. `Arrange` carries the `filter`
      selector: `*` or `.` followed by a class name. */
  datatype IsoCall = Appended(items: seq<Post>) | Arrange(filter: string) | Layout

  /** Whether Isotope shows `p` under an arrange selector: always for `*`,
      and for `.class` when the post carries the class. */
  predicate Keeps(p: Post, selector: string)
  {
    selector == "*" || (|selector| >= 1 && selector[0] == '.' && selector[1..] in p.classes)
  }

  /** The items Isotope shows for an arrange selector: all of them for `*`,
      those carrying the class for `.class`. */
  function Shown(items: seq<Post>, selector: string): (r: seq<Post>)
    ensures |r| <= |items|
    ensures selector == "*" ==> r == items
    ensures forall p :: p in r <==> p in items && Keeps(p, selector)
    ensures |items| == 1 ==> r == if Keeps(items[0], selector) then items else []
  {
    if selector == "*" then items
    else if items == [] then []
    else
      var rest := Shown(items[1..], selector);
      assert items == [items[0]] + items[1..];
      if Keeps(items[0], selector) then [items[0]] + rest else rest
  }

  /** Filtering a concatenation filters each part and keeps them in order, so
      the shown items appear in the order of the input. */
  lemma {:induction false} ShownAppend(a: seq<Post>, b: seq<Post>, selector: string)
    ensures Shown(a + b, selector) == Shown(a, selector) + Shown(b, selector)
  {
    if a == [] {
      assert a + b == b;
    } else if selector != "*" {
      assert (a + b)[1..] == a[1..] + b;
      ShownAppend(a[1..], b, selector);
    }
  }

  /** `window.localStorage`: string keys to string values. */
  class LocalStorage {
    var items: map<string, string>

    constructor (initial: map<string, string>)
      ensures items == initial
    {
      items := initial;
    }

    /** `getItem(key)`; None stands for `null`. */
    function GetItem(key: string): (r: Option<string>)
      reads this
      ensures r.Some? <==> key in items
      ensures r.Some? ==> r.value == items[key]
    {
      if key in items then Some(items[key]) else None
    }

    method SetItem(key: string, value: string)
      modifies this
      ensures items == old(items)[key := value]
    {
      items := items[key := value];
    }
  }

  /** The Isotope instance, seen only through the calls made on it. */
  class Isotope {
    var calls: seq<IsoCall>

    constructor ()
      ensures calls == []
    {
      calls := [];
    }

    method Appended(items: seq<Post>)
      modifies this
      ensures calls == old(calls) + [IsoCall.Appended(items)]
    {
      calls := calls + [IsoCall.Appended(items)];
    }

    method Arrange(filter: string)
      modifies this
      ensures calls == old(calls) + [IsoCall.Arrange(filter)]
    {
      calls := calls + [IsoCall.Arrange(filter)];
    }

    method Layout()
      modifies this
      ensures calls == old(calls) + [IsoCall.Layout]
    {
      calls := calls + [IsoCall.Layout];
    }
  }
}

=== FILE: decimal.dfy ===
/** Decimal text of non-negative integers, as written by `Number.prototype.toString`
    and read back by `parseInt`. */
module Decimal {
  import opened Base
  import opened JsText

  predicate IsDigit(c: char) { '0' <= c <= '9' }

  predicate AllDigits(s: string) { forall i :: 0 <= i < |s| ==> IsDigit(s[i]) }

  function DigitChar(d: nat): (c: char)
    requires d < 10
    ensures IsDigit(c) && c as int - '0' as int == d
  {
    ('0' as int + d) as char
  }

  /** `n.toString()` for a non-negative integer `n`: shortest decimal form. */
  function NatToString(n: nat): (s: string)
    ensures |s| >= 1 && AllDigits(s)
    ensures s[0] == '0' ==> n == 0
    decreases n
  {
    if n < 10 then [DigitChar(n)] else NatToString(n / 10) + [DigitChar(n % 10)]
  }

  /** Value of a run of decimal digits. */
  function DigitsValue(s: string): nat
    requires AllDigits(s)
  {
    if s == [] then 0 else DigitsValue(s[..|s| - 1]) * 10 + (s[|s| - 1] as int - '0' as int)
  }

  /** Length of the longest prefix of `s` made of decimal digits. */
  function DigitPrefixLength(s: string): (k: nat)
    ensures k <= |s| && AllDigits(s[..k])
    ensures k < |s| ==> !IsDigit(s[k])
  {
    if s == [] || !IsDigit(s[0]) then 0
    else
      var k := 1 + DigitPrefixLength(s[1..]);
      assert s[..k] == [s[0]] + s[1..][..k - 1];
      k
  }

  /** `n.toString()` for any integer `n`. */
  function IntToString(n: int): (s: string)
    ensures n >= 0 ==> s == NatToString(n)
    ensures n < 0 ==> s == "-" + NatToString(-n)
  {
    if n >= 0 then NatToString(n) else "-" + NatToString(-n)
  }

  /** `parseInt(s)` with no radix, for decimal text: leading white space is
      skipped, one `+` or `-` sign is read, then the longest run of digits;
      None (NaN) when that run is empty. */
  function ParseInt(s: string): (r: Option<int>)
    ensures s == [] ==> r.None?
    ensures s != [] && IsDigit(s[0]) ==> r.Some? && r.value >= 0
  {
    var t := TrimStart(s);
    var signed := t != [] && (t[0] == '-' || t[0] == '+');
    var u := if signed then t[1..] else t;
    var k := DigitPrefixLength(u);
    if k == 0 then None
    else
      var v: int := DigitsValue(u[..k]);
      Some(if signed && t[0] == '-' then -v else v)
  }

  lemma {:induction false} DigitsValueOfNatToString(n: nat)
    ensures DigitsValue(NatToString(n)) == n
    decreases n
  {
    if n >= 10 {
      DigitsValueOfNatToString(n / 10);
      var s := NatToString(n);
      assert s[..|s| - 1] == NatToString(n / 10);
    }
  }

  lemma {:induction false} DigitPrefixOfDigits(s: string)
    requires AllDigits(s)
    ensures DigitPrefixLength(s) == |s|
  {
    if s != [] {
      DigitPrefixOfDigits(s[1..]);
    }
  }

  /** Writing a count with `toString` and reading it back with `parseInt`
      gives the count back. */
  lemma {:induction false} ParseIntOfNatToString(n: nat)
    ensures ParseInt(NatToString(n)) == Some(n)
  {
    var s := NatToString(n);
    assert TrimStart(s) == s;
    DigitPrefixOfDigits(s);
    assert s[..|s|] == s;
    DigitsValueOfNatToString(n);
  }

  /** Text that starts with a letter is not a number. */
  lemma {:induction false} ParseIntOfLetters(s: string)
    requires s != [] && ('A' <= s[0] <= 'Z' || 'a' <= s[0] <= 'z')
    ensures ParseInt(s) == None
  {
    assert !IsSpace(s[0]);
    assert TrimStart(s) == s;
    assert DigitPrefixLength(s) == 0;
  }

  /** The same round trip for any integer, negative ones included. */
  lemma {:induction false} ParseIntOfIntToString(n: int)
    ensures ParseInt(IntToString(n)) == Some(n)
  {
    if n >= 0 {
      ParseIntOfNatToString(n);
    } else {
      var d := NatToString(-n);
      var s := "-" + d;
      assert TrimStart(s) == s;
      assert s[1..] == d;
      DigitPrefixOfDigits(d);
      assert d[..|d|] == d;
      DigitsValueOfNatToString(-n);
    }
  }
}

=== FILE: footnotes.dfy ===
/** Sidenotes: a paragraph of the form `[[n]] text` is a footnote, and every
    `[[n]]` elsewhere that names a known footnote becomes a superscript
    reference to it. */
module Footnotes {
  import opened Base
  import opened Decimal
  import opened JsText

  predicate NoLineTerminator(s: string)
  {
    forall i :: 0 <= i < |s| ==> !IsLineTerminator(s[i])
  }

  /** A footnote paragraph's number and content. */
  datatype Note = Note(number: string, content: string)

  /** Matching `^\[\[(\d+)\]\]\s*(.+)$` against the trimmed text of a
      paragraph: `[[`, a run of ASCII digits, `]]`, optional white space, then
      at least one character and no line terminator up to the end. */
  function ParseFootnote(text: string): (r: Option<Note>)
    ensures r.Some? ==> |r.value.number| > 0 && AllDigits(r.value.number)
    ensures r.Some? ==> r.value.content != [] && !IsSpace(r.value.content[0]) && NoLineTerminator(r.value.content)
  {
    var t := Trim(text);
    if |t| < 2 || t[0] != '[' || t[1] != '[' then None else ParseNumber(t[2..])
  }

  /** The rest of the match after the opening `[[`. */
  function ParseNumber(rest: string): (r: Option<Note>)
    ensures r.Some? ==> |r.value.number| > 0 && AllDigits(r.value.number)
    ensures r.Some? ==> r.value.content != [] && !IsSpace(r.value.content[0]) && NoLineTerminator(r.value.content)
  {
    var k := DigitPrefixLength(rest);
    if k == 0 || |rest| < k + 2 || rest[k] != ']' || rest[k + 1] != ']' then None
    else ParseContent(rest[..k], rest[k + 2..])
  }

  /** The rest of the match after `]]`: `\s*(.+)$`. */
  function ParseContent(number: string, tail: string): (r: Option<Note>)
    ensures r.Some? ==> r.value.number == number
    ensures r.Some? ==> r.value.content != [] && !IsSpace(r.value.content[0]) && NoLineTerminator(r.value.content)
  {
    var content := TrimStart(tail);
    if content == [] || !NoLineTerminator(content) then None
    else Some(Note(number, content))
  }

  lemma {:induction false} TrimStartOfGap(gap: string, s: string)
    requires forall i :: 0 <= i < |gap| ==> IsSpace(gap[i])
    requires s != [] && !IsSpace(s[0])
    ensures TrimStart(gap + s) == s
  {
    if gap != [] {
      assert (gap + s)[0] == gap[0] && IsSpace(gap[0]);
      assert (gap + s)[1..] == gap[1..] + s;
      TrimStartOfGap(gap[1..], s);
    }
  }

  lemma {:induction false} DigitPrefixOfPrefix(digits: string, s: string)
    requires AllDigits(digits)
    requires s == [] || !IsDigit(s[0])
    ensures DigitPrefixLength(digits + s) == |digits|
  {
    if digits != [] {
      assert (digits + s)[1..] == digits[1..] + s;
      DigitPrefixOfPrefix(digits[1..], s);
    }
  }

  lemma {:induction false} ParseContentOfGap(number: string, gap: string, content: string)
    requires forall i :: 0 <= i < |gap| ==> IsSpace(gap[i])
    requires content != [] && !IsSpace(content[0]) && NoLineTerminator(content)
    ensures ParseContent(number, gap + content) == Some(Note(number, content))
  {
    TrimStartOfGap(gap, content);
  }

  lemma {:induction false} ParseNumberOfDigits(rest: string, number: string, tail: string)
    requires |number| > 0 && AllDigits(number)
    requires rest == number + "]]" + tail
    ensures ParseNumber(rest) == ParseContent(number, tail)
  {
    assert rest == number + ("]]" + tail);
    DigitPrefixOfPrefix(number, "]]" + tail);
    assert rest[..|number|] == number;
    assert rest[|number| + 2..] == tail;
  }

  /** A trimmed paragraph that opens with `[[` is read from the third
      character on. */
  lemma {:induction false} ParseFootnoteOfOpening(text: string, rest: string)
    requires rest != [] && !IsSpace(rest[|rest| - 1])
    requires text == "[[" + rest
    ensures ParseFootnote(text) == ParseNumber(rest)
  {
    assert text[2..] == rest;
    assert text[0] == '[' && text[1] == '[' && text[|text| - 1] == rest[|rest| - 1];
    TrimOfTrimmed(text);
  }

  /** Writing a footnote paragraph and reading it back gives the number and
      the content, whatever white space separates them. */
  lemma {:induction false} ParseFootnoteRoundTrip(text: string, number: string, gap: string, content: string)
    requires |number| > 0 && AllDigits(number)
    requires forall i :: 0 <= i < |gap| ==> IsSpace(gap[i])
    requires content != [] && !IsSpace(content[0]) && !IsSpace(content[|content| - 1])
    requires NoLineTerminator(content)
    requires text == "[[" + number + "]]" + gap + content
    ensures ParseFootnote(text) == Some(Note(number, content))
  {
    var tail := gap + content;
    var rest := number + "]]" + tail;
    assert text == "[[" + rest;
    assert rest[|rest| - 1] == content[|content| - 1];
    ParseFootnoteOfOpening(text, rest);
    ParseNumberOfDigits(rest, number, tail);
    ParseContentOfGap(number, gap, content);
  }

  /** The footnotes found by the first pass, one entry per paragraph. */
  function ParseAll(paragraphs: seq<string>): (found: seq<Option<Note>>)
    ensures |found| == |paragraphs|
    ensures forall i :: 0 <= i < |paragraphs| ==> found[i] == ParseFootnote(paragraphs[i])
  {
    seq(|paragraphs|, i requires 0 <= i < |paragraphs| => ParseFootnote(paragraphs[i]))
  }

  /** Whether a found entry is a footnote numbered `k`. */
  predicate Numbered(m: Option<Note>, k: string)
  {
    m.Some? && m.value.number == k
  }

  /** The `footnotes` object after storing the found entries in order: a
      later footnote with the same number replaces an earlier one. */
  function NotesFrom(found: seq<Option<Note>>): (notes: map<string, string>)
    ensures |notes| <= |found|
  {
    if found == [] then map[]
    else
      var notes := NotesFrom(found[..|found| - 1]);
      match found[|found| - 1]
      case Some(n) => notes[n.number := n.content]
      case None => notes
  }

  /** The `footnotes` object after the first pass over the trimmed texts of
      the paragraphs, in document order. */
  function NotesOf(paragraphs: seq<string>): (notes: map<string, string>)
    ensures |notes| <= |paragraphs|
  {
    NotesFrom(ParseAll(paragraphs))
  }

  lemma {:induction false} NotesFromDomain(found: seq<Option<Note>>, k: string)
    ensures k in NotesFrom(found) <==> exists i :: 0 <= i < |found| && Numbered(found[i], k)
  {
    if found != [] {
      var init := found[..|found| - 1];
      NotesFromDomain(init, k);
      if k in NotesFrom(init) {
        var i :| 0 <= i < |init| && Numbered(init[i], k);
        assert found[i] == init[i];
      }
      if i :| 0 <= i < |found| && Numbered(found[i], k) {
        if i < |init| {
          assert Numbered(init[i], k);
        }
      }
    }
  }

  lemma {:induction false} NotesFromLast(found: seq<Option<Note>>, i: nat, k: string, content: string)
    requires i < |found| && found[i] == Some(Note(k, content))
    requires forall j :: i < j < |found| ==> !Numbered(found[j], k)
    ensures k in NotesFrom(found) && NotesFrom(found)[k] == content
  {
    var init := found[..|found| - 1];
    if i < |init| {
      assert !Numbered(found[|found| - 1], k);
      forall j | i < j < |init| ensures !Numbered(init[j], k) {
        assert init[j] == found[j];
      }
      NotesFromLast(init, i, k, content);
    }
  }

  lemma {:induction false} NotesFromStep(found: seq<Option<Note>>, i: nat)
    requires i < |found|
    ensures found[i].Some? ==> NotesFrom(found[..i + 1]) == NotesFrom(found[..i])[found[i].value.number := found[i].value.content]
    ensures found[i].None? ==> NotesFrom(found[..i + 1]) == NotesFrom(found[..i])
  {
    assert found[..i + 1][..i] == found[..i];
  }

  /** A number has a note exactly when some paragraph is a footnote with that
      number, and every stored number is a run of digits. */
  lemma {:induction false} NotesOfDomain(paragraphs: seq<string>, k: string)
    ensures k in NotesOf(paragraphs) <==> exists i :: 0 <= i < |paragraphs| && Numbered(ParseFootnote(paragraphs[i]), k)
    ensures k in NotesOf(paragraphs) ==> |k| > 0 && AllDigits(k)
  {
    var found := ParseAll(paragraphs);
    NotesFromDomain(found, k);
    if k in NotesOf(paragraphs) {
      var i :| 0 <= i < |found| && Numbered(found[i], k);
      assert found[i] == ParseFootnote(paragraphs[i]);
    }
  }

  /** The note kept for a number is the content of the last footnote with
      that number. */
  lemma {:induction false} NotesOfLast(paragraphs: seq<string>, i: nat, k: string, content: string)
    requires i < |paragraphs| && ParseFootnote(paragraphs[i]) == Some(Note(k, content))
    requires forall j :: i < j < |paragraphs| ==> !Numbered(ParseFootnote(paragraphs[j]), k)
    ensures k in NotesOf(paragraphs) && NotesOf(paragraphs)[k] == content
  {
    NotesFromLast(ParseAll(paragraphs), i, k, content);
  }

  /** The first pass of `initSidenotes`: every paragraph is read in order, a
      footnote is stored under its number and its paragraph is hidden. */
  method CollectFootnotes(paragraphs: seq<string>) returns (notes: map<string, string>, hidden: seq<bool>)
    ensures notes == NotesOf(paragraphs)
    ensures |hidden| == |paragraphs|
    ensures forall i :: 0 <= i < |paragraphs| ==> hidden[i] == ParseFootnote(paragraphs[i]).Some?
  {
    ghost var found := ParseAll(paragraphs);
    notes := map[];
    hidden := [];
    var i := 0;
    while i < |paragraphs|
      invariant i <= |paragraphs|
      invariant notes == NotesFrom(found[..i])
      invariant |hidden| == i
      invariant forall j :: 0 <= j < i ==> hidden[j] == found[j].Some?
    {
      var m := ParseFootnote(paragraphs[i]);
      assert found[i] == m;
      NotesFromStep(found, i);
      if m.Some? {
        notes := notes[m.value.number := m.value.content];
      }
      ghost var before := hidden;
      hidden := hidden + [m.Some?];
      forall j | 0 <= j < i + 1 ensures hidden[j] == found[j].Some? {
        if j < i { assert hidden[j] == before[j]; }
      }
      i := i + 1;
    }
    assert found[..i] == found;
    forall j | 0 <= j < |paragraphs| ensures hidden[j] == ParseFootnote(paragraphs[j]).Some? {
      assert found[j] == ParseFootnote(paragraphs[j]);
    }
  }

  /** A match of `/\[\[(\d+)\]\]/` at the very start of `s`: the digits and
      the length of the match. */
  function MatchRefAt(s: string): (r: Option<(string, nat)>)
    ensures r.Some? ==> r.value.1 == |r.value.0| + 4 <= |s|
    ensures r.Some? ==> |r.value.0| > 0 && AllDigits(r.value.0)
    ensures r.Some? ==> s[0] == '[' && s[1] == '[' && s[2..r.value.1 - 2] == r.value.0
    ensures r.Some? ==> s[r.value.1 - 2] == ']' && s[r.value.1 - 1] == ']'
  {
    if |s| < 2 || s[0] != '[' || s[1] != '[' then None
    else
      var k := DigitPrefixLength(s[2..]);
      if k == 0 || |s| < k + 4 || s[k + 2] != ']' || s[k + 3] != ']' then None
      else
        assert s[2..][..k] == s[2..k + 2];
        Some((s[2..k + 2], k + 4))
  }

  /** The superscript that replaces a reference to a known footnote. */
  function SupFor(number: string): string
  {
    "<sup class=\"footnote-ref\" id=\"ref-" + number + "\">" + number + "</sup>"
  }

  /** `html.replace(referenceRegex, ...)`: the global regular expression is
      tried at each position from left to right; a match whose number has a
      note becomes its superscript, any other match is kept as it was, and
      scanning resumes after the match. */
  function RewriteRefs(html: string, notes: map<string, string>): (r: string)
    ensures |r| >= |html|
    decreases |html|
  {
    if html == [] then []
    else match MatchRefAt(html)
      case Some((n, len)) =>
        (if n in notes then SupFor(n) else html[..len]) + RewriteRefs(html[len..], notes)
      case None => [html[0]] + RewriteRefs(html[1..], notes)
  }

  /** With no footnotes every paragraph comes out as it went in. */
  lemma {:induction false} RewriteRefsWithoutNotes(html: string)
    ensures RewriteRefs(html, map[]) == html
    decreases |html|
  {
    if html != [] {
      match MatchRefAt(html)
      case Some((n, len)) =>
        RewriteRefsWithoutNotes(html[len..]);
        assert html[..len] + html[len..] == html;
      case None =>
        RewriteRefsWithoutNotes(html[1..]);
        assert [html[0]] + html[1..] == html;
    }
  }

  /** Whether `s.includes('[[')`. */
  predicate HasOpening(s: string)
  {
    exists i :: 0 <= i < |s| - 1 && s[i] == '[' && s[i + 1] == '['
  }

  /** Text without `[[` has no reference to rewrite, so skipping it changes
      nothing. */
  lemma {:induction false} RewriteRefsWithoutOpening(html: string, notes: map<string, string>)
    requires !HasOpening(html)
    ensures RewriteRefs(html, notes) == html
    decreases |html|
  {
    if html != [] {
      assert MatchRefAt(html).None? by {
        if |html| >= 2 && html[0] == '[' && html[1] == '[' {
          assert HasOpening(html) by { assert html[0] == '[' && html[1] == '['; }
        }
      }
      assert !HasOpening(html[1..]) by {
        forall i | 0 <= i < |html| - 2 ensures html[1..][i] != '[' || html[1..][i + 1] != '[' {
          assert html[1..][i] == html[i + 1] && html[1..][i + 1] == html[i + 2];
        }
      }
      RewriteRefsWithoutOpening(html[1..], notes);
      assert [html[0]] + html[1..] == html;
    }
  }

  lemma {:induction false} MatchRefAtFront(html: string, number: string, rest: string)
    requires |number| > 0 && AllDigits(number)
    requires html == "[[" + number + "]]" + rest
    ensures MatchRefAt(html) == Some((number, |number| + 4))
    ensures html[|number| + 4..] == rest
  {
    var tail := number + "]]" + rest;
    assert html[0] == '[' && html[1] == '[' && html[2..] == tail by {
      assert html == "[[" + tail;
    }
    assert DigitPrefixLength(tail) == |number| by {
      assert tail == number + ("]]" + rest);
      DigitPrefixOfPrefix(number, "]]" + rest);
    }
    assert tail[..|number|] == number && tail[|number|] == ']' && tail[|number| + 1] == ']';
    assert html[2..|number| + 2] == number;
    assert html[|number| + 4..] == rest;
  }

  /** A reference at the front of the text becomes a superscript exactly when
      its number has a note; otherwise it is kept as written. Either way the
      rest of the text is rewritten on its own. */
  lemma {:induction false} RewriteRefAtFront(html: string, number: string, rest: string, notes: map<string, string>)
    requires |number| > 0 && AllDigits(number)
    requires html == "[[" + number + "]]" + rest
    ensures number in notes ==> RewriteRefs(html, notes) == SupFor(number) + RewriteRefs(rest, notes)
    ensures number !in notes ==> RewriteRefs(html, notes) == html[..|number| + 4] + RewriteRefs(rest, notes)
  {
    MatchRefAtFront(html, number, rest);
  }

  /** The second pass of `initSidenotes`, run only when at least one footnote
      was found: each paragraph's markup has its references rewritten, a
      paragraph without `[[` being left alone. */
  method RewriteParagraphs(htmls: seq<string>, notes: map<string, string>) returns (out: seq<string>)
    ensures |out| == |htmls|
    ensures forall i :: 0 <= i < |htmls| ==> out[i] == RewriteRefs(htmls[i], notes)
  {
    if |notes| == 0 {
      assert notes == map[];
      forall i | 0 <= i < |htmls| ensures RewriteRefs(htmls[i], notes) == htmls[i] {
        RewriteRefsWithoutNotes(htmls[i]);
      }
      return htmls;
    }
    out := [];
    var i := 0;
    while i < |htmls|
      invariant i <= |htmls| && |out| == i
      invariant forall j :: 0 <= j < i ==> out[j] == RewriteRefs(htmls[j], notes)
    {
      var text := htmls[i];
      if HasOpening(text) {
        text := RewriteRefs(text, notes);
      } else {
        RewriteRefsWithoutOpening(text, notes);
      }
      out := out + [text];
      i := i + 1;
    }
  }
}

=== FILE: jstext.dfy ===
/** The few JavaScript string primitives the core relies on: `trim`, the
    white-space class `\s`, `toLowerCase`, `startsWith` and `split`. A `char`
    here stands for one UTF-16 code unit of a string made of BMP characters. */
module JsText {

  /** ECMAScript WhiteSpace and LineTerminator code points: what `trim()` strips
      and what the regular-expression class `\s` matches. */
  predicate IsSpace(c: char)
  {
    c == '\t' || c == '\n' || c == '\U{B}' || c == '\U{C}' || c == '\r' || c == ' '
    || c == '\U{A0}' || c == '\U{1680}' || ('\U{2000}' <= c <= '\U{200A}')
    || c == '\U{2028}' || c == '\U{2029}' || c == '\U{202F}' || c == '\U{205F}'
    || c == '\U{3000}' || c == '\U{FEFF}'
  }

  /** The code points `.` refuses to match (LineTerminator). */
  predicate IsLineTerminator(c: char)
  {
    c == '\n' || c == '\r' || c == '\U{2028}' || c == '\U{2029}'
  }

  function TrimStart(s: string): (r: string)
    ensures |r| <= |s|
    ensures forall i :: 0 <= i < |s| - |r| ==> IsSpace(s[i])
    ensures r == [] || !IsSpace(r[0])
  {
    if s != [] && IsSpace(s[0]) then TrimStart(s[1..]) else s
  }

  /** What `TrimStart` keeps is a suffix of its input. */
  lemma {:induction false} TrimStartIsSuffix(s: string)
    ensures TrimStart(s) == s[|s| - |TrimStart(s)|..]
  {
    if s != [] && IsSpace(s[0]) {
      TrimStartIsSuffix(s[1..]);
    }
  }

  function TrimEnd(s: string): (r: string)
    ensures |r| <= |s| && r == s[..|r|]
    ensures forall i :: |r| <= i < |s| ==> IsSpace(s[i])
    ensures r == [] || !IsSpace(r[|r| - 1])
  {
    if s != [] && IsSpace(s[|s| - 1]) then TrimEnd(s[..|s| - 1]) else s
  }

  /** `String.prototype.trim`. */
  function Trim(s: string): (r: string)
    ensures r == [] || (!IsSpace(r[0]) && !IsSpace(r[|r| - 1]))
  {
    TrimEnd(TrimStart(s))
  }

  /** A string with no white space at either end is its own trim. */
  lemma {:induction false} TrimOfTrimmed(s: string)
    requires s == [] || (!IsSpace(s[0]) && !IsSpace(s[|s| - 1]))
    ensures Trim(s) == s
  {
  }

  /** `toLowerCase` of one character: ASCII capitals become small letters;
      KELVIN SIGN (U+212A) becomes `k`; LATIN CAPITAL I WITH DOT ABOVE (U+0130)
      becomes `i` followed by COMBINING DOT ABOVE (U+0307), two code units. Every
      other character is kept: its true lower case is non-ASCII whenever it is
      non-ASCII, which is all that the callers below distinguish. */
  function LowerChar(c: char): (r: string)
    ensures 1 <= |r| <= 2
  {
    if 'A' <= c <= 'Z' then [(c as int + 32) as char]
    else if c == '\U{212A}' then ['k']
    else if c == '\U{130}' then ['i', '\U{307}']
    else [c]
  }

  function ToLower(s: string): (r: string)
    ensures |r| >= |s|
  {
    if s == [] then [] else LowerChar(s[0]) + ToLower(s[1..])
  }

  predicate StartsWith(s: string, prefix: string)
  {
    |prefix| <= |s| && s[..|prefix|] == prefix
  }

  /** `s.split(sep)` for a one-character separator: the pieces between
      separators, empty pieces included. */
  function Split(s: string, sep: char): (parts: seq<string>)
    ensures |parts| >= 1
  {
    if s == [] then [[]]
    else if s[0] == sep then [[]] + Split(s[1..], sep)
    else
      var rest := Split(s[1..], sep);
      [[s[0]] + rest[0]] + rest[1..]
  }

  /** A piece with no separator in it comes out of `split` whole. */
  lemma {:induction false} SplitAfterPiece(a: string, sep: char, b: string)
    requires sep !in a
    ensures Split(a + [sep] + b, sep) == [a] + Split(b, sep)
  {
    if a != [] {
      assert a[0] != sep && (a + [sep] + b)[0] == a[0];
      assert (a + [sep] + b)[1..] == a[1..] + [sep] + b;
      SplitAfterPiece(a[1..], sep, b);
      assert [a[0]] + a[1..] == a;
    } else {
      assert (a + [sep] + b)[1..] == b;
    }
  }

  lemma {:induction false} SplitOfPiece(a: string, sep: char)
    requires sep !in a
    ensures Split(a, sep) == [a]
  {
    if a != [] {
      assert a[0] != sep;
      SplitOfPiece(a[1..], sep);
      assert [a[0]] + a[1..] == a;
    }
  }
}

=== FILE: loader.dfy ===
/** The `InfiniteLoader` object itself: its fields, the page it writes to
    and the Isotope instance it drives, updated in place by one method per
    event. Each method is proved to make exactly the change `LoaderSpec.Step`
    describes, so every property proved there holds of the object. */
module Loader {
  import opened Base
  import opened Browser
  import opened LoaderSpec
  import Decimal

  /** The `localStorage` key holding the selected post type. */
  const FilterKey: string := "selectedPostType"

  /** `newPosts.filter(...)` over the primary tags, asked whether it found
      anything. */
  method AnyTagMatches(posts: seq<Post>, filter: string) returns (found: bool)
    ensures found == HasMatch(posts, filter)
  {
    found := false;
    var k := 0;
    while k < |posts| && !found
      invariant k <= |posts|
      invariant found <==> exists j :: 0 <= j < k && TagMatches(posts[j], filter)
    {
      found := TagMatches(posts[k], filter);
      k := k + 1;
    }
  }

  /** `processedPosts.filter(post => post.classList.contains(filter))`, asked
      whether it found anything. */
  method AnyHasClass(posts: seq<Post>, filter: string) returns (found: bool)
    ensures found == HasClass(posts, filter)
  {
    var k := 0;
    while k < |posts|
      invariant k <= |posts|
      invariant forall j :: 0 <= j < k ==> filter !in posts[j].classes
    {
      if filter in posts[k].classes {
        return true;
      }
      k := k + 1;
    }
    return false;
  }

  class InfiniteLoader {
    const iso: Isotope
    const storage: LocalStorage
    const cfg: Config

    var loadingFlag: bool
    var disabled: bool
    var nextHref: Option<string>
    var loadedPages: nat
    var cached: map<nat, seq<Post>>
    var hasMoreFiltered: bool
    var appended: seq<Post>
    var announcements: seq<string>
    var navRefreshes: nat

    // The runs suspended at an `await`, the re-run timers set, and what
    // was asked of the network and of the clock.
    var pending: seq<Chain>
    var devTimers: nat
    var fetches: seq<string>
    var waits: seq<nat>

    /** The object and the page it has written, as a `LoaderSpec.State`. */
    function Abs(): State
      reads this, iso
    {
      State(loadingFlag, disabled, nextHref, loadedPages, cached, hasMoreFiltered,
            appended, iso.calls, announcements, navRefreshes, pending, devTimers, fetches, waits)
    }

    /** Every state the loader reaches satisfies `LoaderSpec.Inv`. */
    ghost predicate Valid()
      reads this, iso
    {
      Inv(Abs(), cfg)
    }

    /** The constructor, over the first page: `_loadedPages` is 1, nothing is
        cached, nothing is loading, and the next link is the first page's. */
    constructor (iso: Isotope, storage: LocalStorage, cfg: Config, firstNext: Option<string>)
      ensures this.iso == iso && this.storage == storage && this.cfg == cfg
      ensures Abs() == Init(firstNext).(isoCalls := iso.calls)
      ensures Valid()
    {
      this.iso := iso;
      this.storage := storage;
      this.cfg := cfg;
      loadingFlag := false;
      disabled := false;
      nextHref := firstNext;
      loadedPages := 1;
      cached := map[];
      hasMoreFiltered := true;
      appended := [];
      announcements := [];
      navRefreshes := 0;
      pending := [];
      devTimers := 0;
      fetches := [];
      waits := [];
    }

    /** `_showNoMorePosts`. */
    method ShowNoMorePosts()
      modifies this
      ensures Abs() == ShowNoMore(old(Abs()))
    {
      disabled := true;
      announcements := announcements + [NoMoreMessage];
    }

    /** The handler's `finally`. */
    method Finally()
      modifies this
      ensures Abs() == Finish(old(Abs()))
    {
      if !disabled {
        loadingFlag := false;
      }
    }

    /** The handler's `catch`, then its `finally`. */
    method Catch()
      modifies this
      ensures Abs() == Throw(old(Abs()), cfg)
    {
      announcements := announcements + [ErrorMessage];
      if cfg.isLocalhost {
        devTimers := devTimers + 1;
      }
      Finally();
    }

    /** A run ending without a page: `_showNoMorePosts` in `loadNextPage`,
        again in the handler, then `finally`. */
    method EndWithoutPage()
      modifies this
      ensures Abs() == NoPage(old(Abs()))
    {
      ShowNoMorePosts();
      ShowNoMorePosts();
      Finally();
    }

    /** `_processNewPosts(newPosts, currentFilter)`; `threw` tells whether
        `_processPost` threw. */
    method ProcessNewPosts(posts: seq<Post>, filter: string) returns (threw: bool)
      modifies this, iso
      ensures (Abs(), threw) == Process(old(Abs()), cfg, posts, filter)
    {
      if posts == [] {
        ShowNoMorePosts();
        return false;
      }
      if filter != "all" {
        var found := AnyTagMatches(posts, filter);
        if !found {
          ShowNoMorePosts();
          return false;
        }
      }
      var processed;
      processed, threw := AppendAll(posts);
      if !threw {
        PublishBatch(processed, filter);
      }
    }

    /** `newPosts.map(...)`: each post is processed and appended to the
        article list in turn, until one throws. */
    method AppendAll(posts: seq<Post>) returns (processed: seq<Post>, threw: bool)
      modifies this
      ensures (processed, threw) == ProcessAll(posts)
      ensures Abs() == old(Abs()).(appended := old(appended) + processed)
    {
      processed := [];
      var k := 0;
      while k < |posts|
        invariant k <= |posts|
        invariant ProcessAll(posts[..k]) == (processed, false)
        invariant Abs() == old(Abs()).(appended := old(appended) + processed)
      {
        var r := ProcessPost(posts[k]);
        ProcessAllSnoc(posts, k);
        if r.1 {
          ProcessAllStopsAfterPrefix(posts, k + 1);
          return processed, true;
        }
        appended := appended + [r.0];
        processed := processed + [r.0];
        k := k + 1;
      }
      assert posts[..k] == posts;
      return processed, false;
    }

    /** The end of `_processNewPosts` once every post is appended. */
    method PublishBatch(processed: seq<Post>, filter: string)
      modifies this, iso
      ensures Abs() == Publish(old(Abs()), cfg, processed, filter)
    {
      iso.Appended(processed);
      if filter != "all" {
        iso.Arrange("." + filter);
        var found := AnyHasClass(processed, filter);
        if !found {
          hasMoreFiltered := false;
          ShowNoMorePosts();
          return;
        }
      }
      iso.Layout();
      if cfg.hasNavigation {
        navRefreshes := navRefreshes + 1;
      }
      cached := cached[loadedPages := processed];
      announcements := announcements + [Decimal.NatToString(|processed|) + " new posts loaded"];
    }

    /** `loadMoreHandler` up to its first `await`: a click on the trigger. */
    method LoadMoreHandler()
      requires Valid()
      modifies this
      ensures Valid()
      ensures Abs() == Step(old(Abs()), cfg, Activate, old(storage.GetItem(FilterKey)))
    {
      ghost var s := Abs();
      StartRunInv(s, cfg, storage.GetItem(FilterKey));
      if loadingFlag {
        return;
      }
      loadingFlag := true;
      var selectedType := FilterOf(storage.GetItem(FilterKey));
      var currentFilter := FilterOf(storage.GetItem(FilterKey));
      if nextHref.None? || nextHref.value == ""
         || (loadedPages > 1 && currentFilter != "all" && !hasMoreFiltered) {
        EndWithoutPage();
        return;
      }
      fetches := fetches + [nextHref.value];
      pending := pending + [Chain(selectedType, 0, Fetching)];
    }

    /** The trigger's `keydown` listener: Enter and Space run the handler,
        any other key does nothing. */
    method KeyDown(key: string)
      requires Valid()
      modifies this
      ensures Valid()
      ensures key == "Enter" || key == " " ==> Abs() == Step(old(Abs()), cfg, Activate, old(storage.GetItem(FilterKey)))
      ensures key != "Enter" && key != " " ==> Abs() == old(Abs())
    {
      if key == "Enter" || key == " " {
        LoadMoreHandler();
      }
    }

    /** The fetch that suspended run `i` waits for settles with `outcome`:
        `loadNextPage` and the handler resume. */
    method FetchSettled(i: nat, outcome: Outcome)
      requires Valid()
      modifies this, iso
      ensures Valid()
      ensures Abs() == Step(old(Abs()), cfg, Event.FetchSettled(i, outcome), old(storage.GetItem(FilterKey)))
    {
      if i >= |pending| || pending[i].phase != Fetching {
        return;
      }
      SettleInv(Abs(), cfg, i, outcome);
      SettleRun(i, outcome);
    }

    /** `loadNextPage`'s `catch` or the rest of its `try`, then the rest of
        the handler. */
    method SettleRun(i: nat, outcome: Outcome)
      requires i < |pending|
      modifies this, iso
      ensures Abs() == Settle(old(Abs()), cfg, i, outcome)
    {
      var c := pending[i];
      match outcome
      case Failed =>
        if c.retry < MaxRetries {
          pending := pending[i := c.(phase := Waiting)];
          waits := waits + [RetryDelay * (c.retry + 1)];
        } else {
          pending := RemoveAt(pending, i);
          Catch();
        }
      case Loaded(posts, next) =>
        if posts == [] {
          pending := RemoveAt(pending, i);
          EndWithoutPage();
        } else {
          pending := RemoveAt(pending, i);
          nextHref := next;
          loadedPages := loadedPages + 1;
          assert Abs() == TakePage(old(Abs()), i, next);
          AcceptPage(posts, c.selectedType);
        }
    }

    /** The handler with a page in hand: `_processNewPosts`, then `catch` if
        it threw, and `finally`. */
    method AcceptPage(posts: seq<Post>, filter: string)
      modifies this, iso
      ensures Abs() == Accept(old(Abs()), cfg, posts, filter)
    {
      var threw := ProcessNewPosts(posts, filter);
      if threw {
        Catch();
      } else {
        Finally();
      }
    }

    /** The back-off of run `i` elapses: `loadNextPage(retryCount + 1)` reads
        the filter, tests the gate and fetches again. */
    method BackoffElapsed(i: nat)
      requires Valid()
      modifies this
      ensures Valid()
      ensures Abs() == Step(old(Abs()), cfg, Event.BackoffElapsed(i), old(storage.GetItem(FilterKey)))
    {
      if i >= |pending| || pending[i].phase != Waiting {
        return;
      }
      RetryInv(Abs(), cfg, i, storage.GetItem(FilterKey));
      var c := pending[i];
      var currentFilter := FilterOf(storage.GetItem(FilterKey));
      if nextHref.None? || nextHref.value == ""
         || (loadedPages > 1 && currentFilter != "all" && !hasMoreFiltered) {
        pending := RemoveAt(pending, i);
        EndWithoutPage();
        return;
      }
      fetches := fetches + [nextHref.value];
      pending := pending[i := Chain(c.selectedType, c.retry + 1, Fetching)];
    }

    /** The development re-run timer fires: the flag is cleared and the
        handler runs again. */
    method DevTimerFires()
      requires Valid()
      modifies this
      ensures Valid()
      ensures Abs() == Step(old(Abs()), cfg, Event.DevTimerFires, old(storage.GetItem(FilterKey)))
    {
      if devTimers == 0 {
        return;
      }
      devTimers := devTimers - 1;
      loadingFlag := false;
      StartRunInv(Abs(), cfg, storage.GetItem(FilterKey));
      LoadMoreHandler();
    }
  }
}

=== FILE: loaderspec.dfy ===
/** The infinite post loader as a state machine over the events that drive
    it: the user activating the "Load More" trigger, a fetch settling, a retry
    back-off elapsing and the development re-run timer firing. Between two
    events a `loadMoreHandler` run is suspended at an `await`; such a run is
    a `Chain` in `pending`. The network is an oracle: each settled fetch
    brings an `Outcome`. */
module LoaderSpec {
  import opened Base
  import opened Browser
  import Decimal
  import JsText
  import Sanitize

  const MaxRetries: nat := 3
  const RetryDelay: nat := 1000
  const NoMoreMessage: string := "No more posts available"
  const ErrorMessage: string := "Error loading more posts. Retrying..."

  /** Whether the page runs on `localhost`/`127.0.0.1`, and whether an
      article-navigation refresh callback was registered. */
  datatype Config = Config(isLocalhost: bool, hasNavigation: bool)

  /** What a fetch of the next page brings: an error (a rejected fetch, a
      status that is not OK, a body that cannot be read), or the `.post`
      elements of the parsed page and the `href` of its `link[rel="next"]`
      (None when the page has no such link). */
  datatype Outcome = Failed | Loaded(posts: seq<Post>, next: Option<string>)

  /** A suspended `loadMoreHandler` run: the filter it read when it started,
      the `retryCount` of its current `loadNextPage` call, and whether it
      waits for a fetch or for the back-off before the next attempt. */
  datatype Phase = Fetching | Waiting
  datatype Chain = Chain(selectedType: string, retry: nat, phase: Phase)

  datatype Event = Activate | FetchSettled(chain: nat, outcome: Outcome) | BackoffElapsed(chain: nat) | DevTimerFires

  /** The loader's fields and what it has done to the page so far:
      - `loadingFlag`, `disabled` (the trigger's `disabled` class), the
        `href` of the next link in `_nextDom`, `_loadedPages`,
        `_cachedPosts` and `_hasMoreFilteredPosts`;
      - the posts appended to the article list, the Isotope calls, the
        announcements, the navigation refreshes;
      - the suspended runs, the pending development timers, the URLs fetched
        and the back-off delays waited for. */
  datatype State = State(
    loadingFlag: bool,
    disabled: bool,
    nextHref: Option<string>,
    loadedPages: nat,
    cached: map<nat, seq<Post>>,
    hasMoreFiltered: bool,
    appended: seq<Post>,
    isoCalls: seq<IsoCall>,
    announcements: seq<string>,
    navRefreshes: nat,
    pending: seq<Chain>,
    devTimers: nat,
    fetches: seq<string>,
    waits: seq<nat>)

  /** The loader as constructed over the first page. */
  function Init(firstNext: Option<string>): (s: State)
    ensures !s.loadingFlag && !s.disabled && s.loadedPages == 1 && s.pending == []
  {
    State(false, false, firstNext, 1, map[], true, [], [], [], 0, [], 0, [], [])
  }

  /** `localStorage.getItem('selectedPostType') || 'all'`. */
  function FilterOf(stored: Option<string>): (f: string)
    ensures f != ""
    ensures stored.Some? && stored.value != "" ==> f == stored.value
  {
    if stored.None? || stored.value == "" then "all" else stored.value
  }

  /** The test at the top of `loadNextPage`: there is a next link with a
      non-empty `href`, and the filtered-out condition does not hold. */
  predicate Gate(s: State, filter: string)
    ensures filter == "all" || s.loadedPages <= 1 || s.hasMoreFiltered ==>
      (Gate(s, filter) <==> s.nextHref.Some? && s.nextHref.value != "")
  {
    s.nextHref.Some? && s.nextHref.value != ""
    && !(s.loadedPages > 1 && filter != "all" && !s.hasMoreFiltered)
  }

  /** `_showNoMorePosts`. */
  function ShowNoMore(s: State): (r: State)
    ensures r.disabled && r.announcements == s.announcements + [NoMoreMessage]
    ensures r.loadingFlag == s.loadingFlag && r.loadedPages == s.loadedPages && r.nextHref == s.nextHref
    ensures r.appended == s.appended && r.pending == s.pending && r.fetches == s.fetches
  {
    s.(disabled := true, announcements := s.announcements + [NoMoreMessage])
  }

  /** The handler's `finally`: the flag is cleared unless the trigger has been
      disabled. */
  function Finish(s: State): (r: State)
    ensures r.loadingFlag == (s.loadingFlag && s.disabled)
  {
    if s.disabled then s else s.(loadingFlag := false)
  }

  /** The handler's `catch` and `finally`: the error is announced and, on
      `localhost`, a re-run is scheduled. */
  function Throw(s: State, cfg: Config): (r: State)
    ensures r.announcements == s.announcements + [ErrorMessage]
    ensures r.loadingFlag == (s.loadingFlag && s.disabled) && r.disabled == s.disabled
    ensures r.devTimers == s.devTimers + (if cfg.isLocalhost then 1 else 0)
    ensures r.loadedPages == s.loadedPages && r.nextHref == s.nextHref && r.appended == s.appended
  {
    Finish(s.(announcements := s.announcements + [ErrorMessage],
              devTimers := if cfg.isLocalhost then s.devTimers + 1 else s.devTimers))
  }

  /** The end of a run whose `loadNextPage` returned null: `_showNoMorePosts`
      inside `loadNextPage`, again in the handler, then `finally`. */
  function NoPage(s: State): (r: State)
    ensures r.disabled && r.loadingFlag == s.loadingFlag
    ensures r.announcements == s.announcements + [NoMoreMessage, NoMoreMessage]
    ensures r.loadedPages == s.loadedPages && r.nextHref == s.nextHref && r.appended == s.appended
  {
    Finish(ShowNoMore(ShowNoMore(s)))
  }

  /** `_processPost`: the post gets the class made from its primary tag; an
      empty class makes `classList.add` throw. */
  function ProcessPost(p: Post): (r: (Post, bool))
    ensures !r.1 ==> r.0.primaryTag == p.primaryTag
    ensures !r.1 && p.primaryTag.Some? ==> r.0.classes == p.classes + {Sanitize.SanitizeTagName(p.primaryTag.value)}
    ensures p.primaryTag.None? ==> r == (p, false)
    ensures r.1 <==> p.primaryTag.Some? && Sanitize.SanitizeTagName(p.primaryTag.value) == ""
  {
    match p.primaryTag
    case None => (p, false)
    case Some(t) =>
      var c := Sanitize.SanitizeTagName(t);
      if c == "" then (p, true) else (p.(classes := p.classes + {c}), false)
  }

  /** `newPosts.map(...)` with `_processPost` and `appendChild`: the posts
      processed before one throws, and whether one threw. */
  function ProcessAll(posts: seq<Post>): (r: (seq<Post>, bool))
    ensures |r.0| <= |posts|
    ensures !r.1 ==> |r.0| == |posts|
  {
    if posts == [] then ([], false)
    else
      var first := ProcessPost(posts[0]);
      if first.1 then ([], true)
      else
        var rest := ProcessAll(posts[1..]);
        ([first.0] + rest.0, rest.1)
  }

  /** The processed posts are the first posts of the batch, each processed
      without throwing. */
  lemma {:induction false} ProcessAllPrefix(posts: seq<Post>)
    ensures forall k :: 0 <= k < |ProcessAll(posts).0| ==> ProcessAll(posts).0[k] == ProcessPost(posts[k]).0 && !ProcessPost(posts[k]).1
  {
    if posts != [] && !ProcessPost(posts[0]).1 {
      var r := ProcessAll(posts);
      var rest := ProcessAll(posts[1..]);
      assert r.0 == [ProcessPost(posts[0]).0] + rest.0;
      forall k | 1 <= k < |r.0| ensures r.0[k] == ProcessPost(posts[k]).0 && !ProcessPost(posts[k]).1 {
        assert r.0[k] == rest.0[k - 1] && posts[k] == posts[1..][k - 1] by {
          ProcessAllPrefix(posts[1..]);
        }
        ProcessAllPrefix(posts[1..]);
      }
    }
  }

  /** When a post throws, it is the one right after the processed ones. */
  lemma {:induction false} ProcessAllStopsAtThrow(posts: seq<Post>)
    ensures ProcessAll(posts).1 ==> |ProcessAll(posts).0| < |posts| && ProcessPost(posts[|ProcessAll(posts).0|]).1
  {
    if posts != [] && !ProcessPost(posts[0]).1 && ProcessAll(posts[1..]).1 {
      ProcessAllStopsAtThrow(posts[1..]);
      assert posts[1..][|ProcessAll(posts[1..]).0|] == posts[|ProcessAll(posts).0|];
    }
  }

  /** Processing two batches one after the other is processing their
      concatenation: the second is processed only when the first did not
      throw. */
  lemma {:induction false} ProcessAllAppend(xs: seq<Post>, ys: seq<Post>)
    ensures ProcessAll(xs + ys)
      == if ProcessAll(xs).1 then ProcessAll(xs) else (ProcessAll(xs).0 + ProcessAll(ys).0, ProcessAll(ys).1)
    decreases |xs|
  {
    if xs == [] {
      var c := ProcessAll(ys);
      assert xs + ys == ys && [] + c.0 == c.0 && (c.0, c.1) == c;
    } else {
      var zs := xs + ys;
      assert zs[0] == xs[0] && zs[1..] == xs[1..] + ys;
      var p := ProcessPost(xs[0]);
      if !p.1 {
        ProcessAllAppend(xs[1..], ys);
        var b := ProcessAll(xs[1..]);
        var c := ProcessAll(ys);
        var z := ProcessAll(xs[1..] + ys);
        assert ProcessAll(zs) == ([p.0] + z.0, z.1);
        assert ProcessAll(xs) == ([p.0] + b.0, b.1);
        if !b.1 {
          assert z == (b.0 + c.0, c.1);
          assert [p.0] + (b.0 + c.0) == ([p.0] + b.0) + c.0;
        }
      }
    }
  }

  /** Processing one more post after a prefix that did not throw. */
  lemma {:induction false} ProcessAllSnoc(posts: seq<Post>, k: nat)
    requires k < |posts| && !ProcessAll(posts[..k]).1
    ensures var p := ProcessPost(posts[k]);
      ProcessAll(posts[..k + 1]) == if p.1 then (ProcessAll(posts[..k]).0, true) else (ProcessAll(posts[..k]).0 + [p.0], false)
  {
    var p := ProcessPost(posts[k]);
    ProcessAllAppend(posts[..k], [posts[k]]);
    assert posts[..k] + [posts[k]] == posts[..k + 1];
    assert [posts[k]][1..] == [];
    assert ProcessAll([posts[k]]) == if p.1 then ([], true) else ([p.0] + [], false);
    assert [p.0] + [] == [p.0] && ProcessAll(posts[..k]).0 + [] == ProcessAll(posts[..k]).0;
  }

  /** Once a prefix throws, the posts after it are never processed. */
  lemma {:induction false} ProcessAllStopsAfterPrefix(posts: seq<Post>, k: nat)
    requires k <= |posts| && ProcessAll(posts[..k]).1
    ensures ProcessAll(posts) == ProcessAll(posts[..k])
  {
    ProcessAllAppend(posts[..k], posts[k..]);
    assert posts[..k] + posts[k..] == posts;
  }

  /** Whether some post's normalised primary tag is `filter`: the gate of
      `_processNewPosts`. */
  predicate HasMatch(posts: seq<Post>, filter: string)
    ensures HasMatch(posts, filter) ==> Sanitize.IsTagClass(filter)
  {
    exists k :: 0 <= k < |posts| && TagMatches(posts[k], filter)
  }

  /** The post has a primary tag whose normalised form is `filter`. */
  predicate TagMatches(p: Post, filter: string)
  {
    p.primaryTag.Some? && Sanitize.SanitizeTagName(p.primaryTag.value) == filter
  }

  /** Whether some processed post carries `filter` as a class. */
  predicate HasClass(posts: seq<Post>, filter: string)
  {
    exists k :: 0 <= k < |posts| && filter in posts[k].classes
  }

  /** `_processNewPosts(posts, filter)`: the new state and whether it
      threw. Posts processed before one throws stay
      appended. */
  function Process(s: State, cfg: Config, posts: seq<Post>, filter: string): (r: (State, bool))
    ensures r.1 ==> ProcessAll(posts).1
    ensures s.appended <= r.0.appended
    ensures r.0.loadedPages == s.loadedPages && r.0.nextHref == s.nextHref && r.0.pending == s.pending
  {
    if posts == [] || (filter != "all" && !HasMatch(posts, filter)) then (ShowNoMore(s), false)
    else
      var batch := ProcessAll(posts);
      var s1 := s.(appended := s.appended + batch.0);
      if batch.1 then (s1, true) else (Publish(s1, cfg, batch.0, filter), false)
  }

  /** The rest of `_processNewPosts` once the whole batch is appended:
      Isotope learns of it and, when filtering, arranges; then either the
      filter finds nothing (and the loader gives up on filtered posts), or
      the layout and navigation are refreshed, the batch cached and its size
      announced. */
  function Publish(s: State, cfg: Config, processed: seq<Post>, filter: string): (r: State)
    ensures r.appended == s.appended && r.loadedPages == s.loadedPages && r.pending == s.pending
    ensures |r.announcements| == |s.announcements| + 1
    ensures r.hasMoreFiltered == (s.hasMoreFiltered && (filter == "all" || HasClass(processed, filter)))
  {
    var s2 := s.(isoCalls := s.isoCalls + [IsoCall.Appended(processed)]);
    var s3 := if filter != "all" then s2.(isoCalls := s2.isoCalls + [IsoCall.Arrange("." + filter)]) else s2;
    if filter != "all" && !HasClass(processed, filter) then ShowNoMore(s3.(hasMoreFiltered := false))
    else
      s3.(isoCalls := s3.isoCalls + [IsoCall.Layout],
          navRefreshes := if cfg.hasNavigation then s3.navRefreshes + 1 else s3.navRefreshes,
          cached := s3.cached[s3.loadedPages := processed],
          announcements := s3.announcements + [Decimal.NatToString(|processed|) + " new posts loaded"])
  }

  /** A new run: unless one is flagged as running, the flag is set, the
      filter is read and the first `loadNextPage` attempt is made. */
  function StartRun(s: State, stored: Option<string>): (r: State)
    ensures r.loadingFlag
    ensures s.loadingFlag ==> r == s
    ensures r.loadedPages == s.loadedPages && r.appended == s.appended
  {
    if s.loadingFlag then s
    else
      var f := FilterOf(stored);
      var s1 := s.(loadingFlag := true);
      if !Gate(s1, f) then NoPage(s1)
      else s1.(fetches := s1.fetches + [s1.nextHref.value], pending := s1.pending + [Chain(f, 0, Fetching)])
  }

  /** The settling of the fetch run `i` waits for. */
  function Settle(s: State, cfg: Config, i: nat, outcome: Outcome): (r: State)
    requires i < |s.pending|
    ensures r.loadedPages == s.loadedPages + (if outcome.Loaded? && outcome.posts != [] then 1 else 0)
    ensures s.appended <= r.appended
  {
    var c := s.pending[i];
    match outcome
    case Failed =>
      if c.retry < MaxRetries then
        s.(pending := s.pending[i := c.(phase := Waiting)], waits := s.waits + [RetryDelay * (c.retry + 1)])
      else Throw(s.(pending := RemoveAt(s.pending, i)), cfg)
    case Loaded(posts, next) =>
      if posts == [] then NoPage(s.(pending := RemoveAt(s.pending, i)))
      else Accept(TakePage(s, i, next), cfg, posts, c.selectedType)
  }

  /** The end of a successful `loadNextPage`: its run no longer waits, the
      fetched page becomes `_nextDom` and `_loadedPages` is incremented. */
  function TakePage(s: State, i: nat, next: Option<string>): (r: State)
    requires i < |s.pending|
    ensures r.loadedPages == s.loadedPages + 1 && r.nextHref == next && |r.pending| == |s.pending| - 1
  {
    s.(pending := RemoveAt(s.pending, i), nextHref := next, loadedPages := s.loadedPages + 1)
  }

  /** A run's end once its page has been taken: the batch is processed and
      the run ends through the handler's `catch` when that throws. */
  function Accept(s: State, cfg: Config, posts: seq<Post>, filter: string): (r: State)
    ensures r.loadedPages == s.loadedPages && r.nextHref == s.nextHref && r.pending == s.pending
    ensures s.appended <= r.appended
  {
    var r := Process(s, cfg, posts, filter);
    if r.1 then Throw(r.0, cfg) else Finish(r.0)
  }

  /** The end of run `i`'s back-off: `loadNextPage(retryCount + 1)` reads the
      filter again and tests the gate again. */
  function Retry(s: State, i: nat, stored: Option<string>): (r: State)
    requires i < |s.pending|
    ensures Gate(s, FilterOf(stored)) ==> |r.pending| == |s.pending| && r.fetches == s.fetches + [s.nextHref.value]
    ensures !Gate(s, FilterOf(stored)) ==> |r.pending| == |s.pending| - 1 && r.disabled && r.fetches == s.fetches
    ensures r.loadedPages == s.loadedPages && r.appended == s.appended
  {
    var c := s.pending[i];
    if !Gate(s, FilterOf(stored)) then NoPage(s.(pending := RemoveAt(s.pending, i)))
    else s.(fetches := s.fetches + [s.nextHref.value], pending := s.pending[i := Chain(c.selectedType, c.retry + 1, Fetching)])
  }

  /** One event, with `stored` the value of `selectedPostType` in
      `localStorage` when it happens. An event that names no suspended run in
      the right phase, or a timer that is not pending, changes nothing. */
  function Step(s: State, cfg: Config, e: Event, stored: Option<string>): (r: State)
    ensures r.loadedPages == s.loadedPages || (e.FetchSettled? && r.loadedPages == s.loadedPages + 1)
    ensures s.appended <= r.appended
  {
    match e
    case Activate => StartRun(s, stored)
    case FetchSettled(i, outcome) =>
      if i < |s.pending| && s.pending[i].phase == Fetching then Settle(s, cfg, i, outcome) else s
    case BackoffElapsed(i) =>
      if i < |s.pending| && s.pending[i].phase == Waiting then Retry(s, i, stored) else s
    case DevTimerFires =>
      if s.devTimers == 0 then s else StartRun(s.(devTimers := s.devTimers - 1, loadingFlag := false), stored)
  }

  /** A sequence of events, each with the stored filter value of its time. */
  function Run(s: State, cfg: Config, trace: seq<(Event, Option<string>)>): State
    decreases |trace|
  {
    if trace == [] then s else Run(Step(s, cfg, trace[0].0, trace[0].1), cfg, trace[1..])
  }

  /** A primary tag that trims to nothing is exactly what makes
      `_processPost` throw. */
  lemma {:induction false} ProcessPostThrowsOnBlankTag(p: Post)
    ensures ProcessPost(p).1 <==> p.primaryTag.Some? && JsText.Trim(p.primaryTag.value) == ""
  {
    if p.primaryTag.Some? {
      Sanitize.SanitizeTagNameLength(p.primaryTag.value);
    }
  }

  /** A batch without blank primary tags is processed in full. */
  lemma {:induction false} ProcessAllWithoutBlankTags(posts: seq<Post>)
    requires forall k :: 0 <= k < |posts| && posts[k].primaryTag.Some? ==> JsText.Trim(posts[k].primaryTag.value) != ""
    ensures !ProcessAll(posts).1
  {
    ProcessAllStopsAtThrow(posts);
    if ProcessAll(posts).1 {
      ProcessPostThrowsOnBlankTag(posts[|ProcessAll(posts).0|]);
    }
  }

  /** A post whose tag matched the filter carries the filter as a class once
      the batch has been processed, so the check after `arrange` always finds
      one. */
  lemma {:induction false} ProcessAllKeepsMatch(posts: seq<Post>, filter: string)
    requires HasMatch(posts, filter) && !ProcessAll(posts).1
    ensures HasClass(ProcessAll(posts).0, filter)
  {
    var k :| 0 <= k < |posts| && TagMatches(posts[k], filter);
    ProcessAllPrefix(posts);
    assert filter in ProcessAll(posts).0[k].classes;
  }

  /** Two states agree on everything that steers the runs. */
  predicate SameRunState(a: State, b: State)
  {
    a.loadingFlag == b.loadingFlag && a.nextHref == b.nextHref && a.loadedPages == b.loadedPages
    && a.pending == b.pending && a.devTimers == b.devTimers && a.fetches == b.fetches && a.waits == b.waits
  }

  /** Publishing a batch leaves the runs alone, only adds to the page and
      caches under the current page number; it gives up on filtered posts
      only when no processed post carries the filter class. */
  lemma {:induction false} PublishFrame(s: State, cfg: Config, processed: seq<Post>, filter: string)
    ensures var r := Publish(s, cfg, processed, filter);
      SameRunState(r, s) && r.appended == s.appended
      && (r.hasMoreFiltered <==> s.hasMoreFiltered && (filter == "all" || HasClass(processed, filter)))
      && s.cached.Keys <= r.cached.Keys <= s.cached.Keys + {s.loadedPages}
      && s.announcements <= r.announcements && s.isoCalls <= r.isoCalls
  {
  }

  /** `_processNewPosts` leaves the runs alone, only adds to the page,
      caches under the current page number, and never clears
      `_hasMoreFilteredPosts`. */
  lemma {:induction false} ProcessFrame(s: State, cfg: Config, posts: seq<Post>, filter: string)
    ensures var r := Process(s, cfg, posts, filter).0;
      SameRunState(r, s) && r.hasMoreFiltered == s.hasMoreFiltered
      && s.cached.Keys <= r.cached.Keys <= s.cached.Keys + {s.loadedPages}
      && s.appended <= r.appended && s.announcements <= r.announcements && s.isoCalls <= r.isoCalls
  {
    if posts != [] && (filter == "all" || HasMatch(posts, filter)) {
      var batch := ProcessAll(posts);
      var s1 := s.(appended := s.appended + batch.0);
      if !batch.1 {
        PublishFrame(s1, cfg, batch.0, filter);
        if filter != "all" {
          ProcessAllKeepsMatch(posts, filter);
        }
      }
    }
  }

  /** What every state reached from `Init` satisfies:
      - `_hasMoreFilteredPosts` is still true;
      - every cached batch is filed under a page loaded after the first;
      - a run has made at most `MaxRetries` retries, and one waiting for a
        back-off has fewer;
      - away from `localhost` no re-run timer is pending, at most one run is
        in flight, a run in flight has the flag set and the trigger enabled,
        and a disabled trigger keeps the flag set with no run in flight. */
  predicate Inv(s: State, cfg: Config)
  {
    s.hasMoreFiltered && s.loadedPages >= 1
    && (forall k :: k in s.cached ==> 2 <= k <= s.loadedPages)
    && (forall k :: 0 <= k < |s.pending| ==>
          s.pending[k].retry <= MaxRetries && (s.pending[k].phase == Waiting ==> s.pending[k].retry < MaxRetries))
    && (!cfg.isLocalhost ==>
          s.devTimers == 0 && |s.pending| <= 1
          && (s.pending != [] ==> s.loadingFlag && !s.disabled)
          && (s.disabled ==> s.loadingFlag && s.pending == []))
  }

  lemma {:induction false} InitInv(firstNext: Option<string>, cfg: Config)
    ensures Inv(Init(firstNext), cfg)
  {
  }

  lemma {:induction false} StartRunInv(s: State, cfg: Config, stored: Option<string>)
    requires Inv(s, cfg)
    ensures Inv(StartRun(s, stored), cfg)
  {
  }

  /** The end of a run keeps the invariant, provided no other run is in
      flight away from `localhost`. */
  lemma {:induction false} FinishInv(u: State, cfg: Config)
    requires Inv(u, cfg) && (!cfg.isLocalhost ==> u.pending == [])
    ensures Inv(Finish(u), cfg) && Inv(Throw(u, cfg), cfg)
  {
  }

  lemma {:induction false} AcceptInv(s: State, cfg: Config, posts: seq<Post>, filter: string)
    requires Inv(s, cfg) && s.loadedPages >= 2 && (!cfg.isLocalhost ==> s.pending == [] && s.loadingFlag)
    ensures Inv(Accept(s, cfg, posts, filter), cfg)
  {
    var u := Process(s, cfg, posts, filter).0;
    ProcessFrame(s, cfg, posts, filter);
    assert Inv(u, cfg) by {
      forall k | k in u.cached ensures 2 <= k <= u.loadedPages {
        assert k in s.cached.Keys + {s.loadedPages};
      }
    }
    FinishInv(u, cfg);
  }

  lemma {:induction false} SettleLoadedInv(s: State, cfg: Config, i: nat, posts: seq<Post>, next: Option<string>)
    requires Inv(s, cfg) && i < |s.pending| && posts != []
    ensures Inv(Settle(s, cfg, i, Loaded(posts, next)), cfg)
  {
    var s2 := TakePage(s, i, next);
    assert Inv(s2, cfg);
    AcceptInv(s2, cfg, posts, s.pending[i].selectedType);
  }

  lemma {:induction false} SettleInv(s: State, cfg: Config, i: nat, outcome: Outcome)
    requires Inv(s, cfg) && i < |s.pending| && s.pending[i].phase == Fetching
    ensures Inv(Settle(s, cfg, i, outcome), cfg)
  {
    if outcome.Loaded? && outcome.posts != [] {
      SettleLoadedInv(s, cfg, i, outcome.posts, outcome.next);
    }
  }

  lemma {:induction false} RetryInv(s: State, cfg: Config, i: nat, stored: Option<string>)
    requires Inv(s, cfg) && i < |s.pending| && s.pending[i].phase == Waiting
    ensures Inv(Retry(s, i, stored), cfg)
  {
  }

  /** Every event keeps the invariant. */
  lemma {:induction false} StepInv(s: State, cfg: Config, e: Event, stored: Option<string>)
    requires Inv(s, cfg)
    ensures Inv(Step(s, cfg, e, stored), cfg)
  {
    match e
    case Activate => StartRunInv(s, cfg, stored);
    case FetchSettled(i, outcome) =>
      if i < |s.pending| && s.pending[i].phase == Fetching {
        SettleInv(s, cfg, i, outcome);
      }
    case BackoffElapsed(i) =>
      if i < |s.pending| && s.pending[i].phase == Waiting {
        RetryInv(s, cfg, i, stored);
      }
    case DevTimerFires =>
      if s.devTimers > 0 {
        StartRunInv(s.(devTimers := s.devTimers - 1, loadingFlag := false), cfg, stored);
      }
  }

  lemma {:induction false} RunInv(s: State, cfg: Config, trace: seq<(Event, Option<string>)>)
    requires Inv(s, cfg)
    ensures Inv(Run(s, cfg, trace), cfg)
    decreases |trace|
  {
    if trace != [] {
      StepInv(s, cfg, trace[0].0, trace[0].1);
      RunInv(Step(s, cfg, trace[0].0, trace[0].1), cfg, trace[1..]);
    }
  }

  /** Whatever the events, a loader started over the first page keeps the
      invariant: in particular, away from `localhost` it never has two runs
      in flight. */
  lemma {:induction false} ReachableInv(firstNext: Option<string>, cfg: Config, trace: seq<(Event, Option<string>)>)
    ensures Inv(Run(Init(firstNext), cfg, trace), cfg)
    ensures !cfg.isLocalhost ==> |Run(Init(firstNext), cfg, trace).pending| <= 1
  {
    InitInv(firstNext, cfg);
    RunInv(Init(firstNext), cfg, trace);
  }

  /** While a run is flagged, activating the trigger does nothing. */
  lemma {:induction false} ActivateWhileLoadingIsNoop(s: State, cfg: Config, stored: Option<string>)
    requires s.loadingFlag
    ensures Step(s, cfg, Activate, stored) == s
  {
  }

  /** Away from `localhost`, once the trigger is disabled no event changes
      anything any more. */
  lemma {:induction false} DisabledIsFinal(s: State, cfg: Config, e: Event, stored: Option<string>)
    requires Inv(s, cfg) && !cfg.isLocalhost && s.disabled
    ensures Step(s, cfg, e, stored) == s
  {
  }

  /** A new run fetches exactly when the gate is open; with the gate closed
      it disables the trigger, announces twice that there is nothing more,
      and leaves the flag set. */
  lemma {:induction false} StartRunFetchesIffGate(s: State, stored: Option<string>)
    requires !s.loadingFlag
    ensures var t := StartRun(s, stored);
      t.loadingFlag
      && (Gate(s, FilterOf(stored)) ==>
            t.fetches == s.fetches + [s.nextHref.value] && t.pending == s.pending + [Chain(FilterOf(stored), 0, Fetching)]
            && t.disabled == s.disabled && t.announcements == s.announcements)
      && (!Gate(s, FilterOf(stored)) ==>
            t.fetches == s.fetches && t.pending == s.pending && t.disabled
            && t.announcements == s.announcements + [NoMoreMessage, NoMoreMessage])
  {
  }

  /** A page without posts disables the trigger with two announcements and
      leaves the page counter and the next link as they were. */
  lemma {:induction false} EmptyPageDisables(s: State, cfg: Config, i: nat, next: Option<string>)
    requires i < |s.pending|
    ensures var t := Settle(s, cfg, i, Loaded([], next));
      t.disabled && t.announcements == s.announcements + [NoMoreMessage, NoMoreMessage]
      && t.loadedPages == s.loadedPages && t.nextHref == s.nextHref && t.appended == s.appended
      && t.pending == RemoveAt(s.pending, i) && t.loadingFlag == s.loadingFlag && t.fetches == s.fetches
  {
  }

  /** Taking a page moves nothing back: the run's counters and queues are
      those `TakePage` left, and the page only grows. */
  lemma {:induction false} AcceptFrame(s: State, cfg: Config, posts: seq<Post>, filter: string)
    ensures var t := Accept(s, cfg, posts, filter);
      t.nextHref == s.nextHref && t.loadedPages == s.loadedPages && t.pending == s.pending
      && t.fetches == s.fetches && t.waits == s.waits && s.cached.Keys <= t.cached.Keys
      && s.appended <= t.appended && s.announcements <= t.announcements && s.isoCalls <= t.isoCalls
  {
    ProcessFrame(s, cfg, posts, filter);
  }

  /** A page whose posts all miss the filter the run started with is dropped:
      nothing is appended, arranged or cached, the trigger is disabled, and
      yet the page counts as loaded and the next link moves on. */
  lemma {:induction false} FilteredOutPageIsDropped(s: State, cfg: Config, i: nat, posts: seq<Post>, next: Option<string>)
    requires i < |s.pending| && posts != []
    requires s.pending[i].selectedType != "all" && !HasMatch(posts, s.pending[i].selectedType)
    ensures var t := Settle(s, cfg, i, Loaded(posts, next));
      t.appended == s.appended && t.isoCalls == s.isoCalls && t.cached == s.cached
      && t.disabled && t.announcements == s.announcements + [NoMoreMessage]
      && t.loadedPages == s.loadedPages + 1 && t.nextHref == next && t.loadingFlag == s.loadingFlag
  {
  }

  /** `_processPost` throws on some post of a batch exactly when one of its
      primary tags is blank. */
  lemma {:induction false} ProcessAllThrowsIffBlank(posts: seq<Post>)
    ensures ProcessAll(posts).1 <==>
      exists k :: 0 <= k < |posts| && posts[k].primaryTag.Some? && JsText.Trim(posts[k].primaryTag.value) == ""
  {
    if exists k :: 0 <= k < |posts| && posts[k].primaryTag.Some? && JsText.Trim(posts[k].primaryTag.value) == "" {
      var k :| 0 <= k < |posts| && posts[k].primaryTag.Some? && JsText.Trim(posts[k].primaryTag.value) == "";
      if !ProcessAll(posts).1 {
        ProcessAllPrefix(posts);
        ProcessPostThrowsOnBlankTag(posts[k]);
        assert false;
      }
    } else {
      ProcessAllWithoutBlankTags(posts);
    }
  }

  /** A page whose posts pass the filter and have no blank tag is appended in
      order, each post with its tag class, handed to Isotope, cached under its
      page number and announced with its size; the run ends with the flag
      cleared. */
  lemma {:induction false} PageAppended(s: State, cfg: Config, i: nat, posts: seq<Post>, next: Option<string>)
    requires i < |s.pending| && posts != [] && !s.disabled
    requires s.pending[i].selectedType == "all" || HasMatch(posts, s.pending[i].selectedType)
    requires forall k :: 0 <= k < |posts| && posts[k].primaryTag.Some? ==> JsText.Trim(posts[k].primaryTag.value) != ""
    ensures var t := Settle(s, cfg, i, Loaded(posts, next));
      var batch := ProcessAll(posts).0;
      var f := s.pending[i].selectedType;
      |batch| == |posts|
      && (forall k :: 0 <= k < |posts| ==> batch[k] == ProcessPost(posts[k]).0)
      && t.appended == s.appended + batch
      && t.isoCalls == s.isoCalls + [IsoCall.Appended(batch)] + (if f != "all" then [IsoCall.Arrange("." + f)] else []) + [IsoCall.Layout]
      && t.cached == s.cached[s.loadedPages + 1 := batch]
      && t.announcements == s.announcements + [Decimal.NatToString(|posts|) + " new posts loaded"]
      && !t.loadingFlag && !t.disabled && t.loadedPages == s.loadedPages + 1 && t.nextHref == next
  {
    ProcessAllWithoutBlankTags(posts);
    ProcessAllPrefix(posts);
    var f := s.pending[i].selectedType;
    if f != "all" {
      ProcessAllKeepsMatch(posts, f);
    }
  }

  /** A blank primary tag aborts the batch: the posts before it stay
      appended but Isotope never learns of them, nothing is cached, the
      error is announced, and the page still counts as loaded. */
  lemma {:induction false} BlankTagAbortsBatch(s: State, cfg: Config, i: nat, posts: seq<Post>, next: Option<string>, k: nat)
    requires i < |s.pending| && k < |posts|
    requires s.pending[i].selectedType == "all" || HasMatch(posts, s.pending[i].selectedType)
    requires posts[k].primaryTag.Some? && JsText.Trim(posts[k].primaryTag.value) == ""
    ensures var t := Settle(s, cfg, i, Loaded(posts, next));
      var batch := ProcessAll(posts).0;
      |batch| <= k
      && t.appended == s.appended + batch && t.isoCalls == s.isoCalls && t.cached == s.cached
      && t.announcements == s.announcements + [ErrorMessage]
      && t.loadedPages == s.loadedPages + 1 && t.nextHref == next
  {
    ProcessAllThrowsIffBlank(posts);
    ProcessAllPrefix(posts);
    ProcessPostThrowsOnBlankTag(posts[k]);
  }

  /** Running two traces one after the other is running their
      concatenation. */
  lemma {:induction false} RunAppend(s: State, cfg: Config, a: seq<(Event, Option<string>)>, b: seq<(Event, Option<string>)>)
    ensures Run(s, cfg, a + b) == Run(Run(s, cfg, a), cfg, b)
    decreases |a|
  {
    if a != [] {
      assert (a + b)[0] == a[0] && (a + b)[1..] == a[1..] + b;
      RunAppend(Step(s, cfg, a[0].0, a[0].1), cfg, a[1..], b);
    } else {
      assert a + b == b;
    }
  }

  /** `n` rounds of the single run's fetch failing and its back-off
      elapsing. */
  function FailAndWait(n: nat, stored: Option<string>): (t: seq<(Event, Option<string>)>)
    ensures |t| == 2 * n
  {
    if n == 0 then [] else [(FetchSettled(0, Failed), stored), (BackoffElapsed(0), stored)] + FailAndWait(n - 1, stored)
  }

  /** The back-off delays of retries `r + 1, ..., r + n`. */
  function Delays(r: nat, n: nat): (d: seq<nat>)
    ensures |d| == n && forall k :: 0 <= k < n ==> d[k] == RetryDelay * (r + k + 1)
  {
    seq(n, k requires 0 <= k < n => RetryDelay * (r + k + 1))
  }

  /** The state after one failed attempt of run `r` and its back-off. */
  function Retried(s: State, f: string, r: nat): State
    requires s.nextHref.Some?
  {
    s.(pending := [Chain(f, r + 1, Fetching)], fetches := s.fetches + [s.nextHref.value], waits := s.waits + [RetryDelay * (r + 1)])
  }

  /** One failed attempt of the only run, followed by its back-off with the
      gate still open. */
  lemma {:induction false} FailRound(s: State, cfg: Config, stored: Option<string>, f: string, r: nat, rest: seq<(Event, Option<string>)>)
    requires s.pending == [Chain(f, r, Fetching)] && r < MaxRetries && Gate(s, FilterOf(stored))
    ensures Run(s, cfg, [(FetchSettled(0, Failed), stored), (BackoffElapsed(0), stored)] + rest) == Run(Retried(s, f, r), cfg, rest)
  {
    var trace := [(FetchSettled(0, Failed), stored), (BackoffElapsed(0), stored)] + rest;
    var s1 := Step(s, cfg, FetchSettled(0, Failed), stored);
    assert s1 == s.(pending := [Chain(f, r, Waiting)], waits := s.waits + [RetryDelay * (r + 1)]);
    assert Step(s1, cfg, BackoffElapsed(0), stored) == Retried(s, f, r);
    assert trace[1..][1..] == rest;
  }

  /** Failed attempts of the only run while its gate stays open: each one
      waits `RetryDelay` times the attempt number and fetches the same next
      link again; nothing else changes. */
  lemma {:induction false} FailedAttempts(s: State, cfg: Config, n: nat, stored: Option<string>, f: string, r: nat)
    requires s.pending == [Chain(f, r, Fetching)] && r + n <= MaxRetries && Gate(s, FilterOf(stored))
    ensures Run(s, cfg, FailAndWait(n, stored))
      == s.(pending := [Chain(f, r + n, Fetching)],
            fetches := s.fetches + seq(n, k => s.nextHref.value),
            waits := s.waits + Delays(r, n))
    decreases n
  {
    if n == 0 {
      assert s.fetches + seq(0, k => s.nextHref.value) == s.fetches;
      assert s.waits + Delays(r, 0) == s.waits;
    } else {
      FailRound(s, cfg, stored, f, r, FailAndWait(n - 1, stored));
      var s2 := Retried(s, f, r);
      FailedAttempts(s2, cfg, n - 1, stored, f, r + 1);
      assert s2.fetches + seq(n - 1, k => s2.nextHref.value) == s.fetches + seq(n, k => s.nextHref.value);
      assert s2.waits + Delays(r + 1, n - 1) == s.waits + Delays(r, n);
    }
  }

  /** The trace of a run whose every attempt fails: the user activates the
      trigger, and the first fetch and its three retries all fail. */
  function ExhaustingTrace(stored: Option<string>): seq<(Event, Option<string>)>
  {
    [(Activate, stored)] + FailAndWait(MaxRetries, stored) + [(FetchSettled(0, Failed), stored)]
  }

  /** A run whose every attempt fails fetches the next link four times,
      waits 1, 2 and 3 seconds in between, then announces the error once and
      clears the flag; on `localhost` it also schedules a re-run. Nothing is
      appended and the page counter stays. */
  lemma {:induction false} RetriesExhausted(s: State, cfg: Config, stored: Option<string>)
    requires !s.loadingFlag && !s.disabled && s.pending == [] && Gate(s, FilterOf(stored))
    ensures var t := Run(s, cfg, ExhaustingTrace(stored));
      t.fetches == s.fetches + [s.nextHref.value, s.nextHref.value, s.nextHref.value, s.nextHref.value]
      && t.waits == s.waits + [1000, 2000, 3000]
      && t.announcements == s.announcements + [ErrorMessage]
      && !t.loadingFlag && t.pending == [] && t.appended == s.appended && t.loadedPages == s.loadedPages
      && t.devTimers == (if cfg.isLocalhost then s.devTimers + 1 else s.devTimers)
  {
    var f := FilterOf(stored);
    var s1 := Step(s, cfg, Activate, stored);
    assert s1 == s.(loadingFlag := true, fetches := s.fetches + [s.nextHref.value], pending := [Chain(f, 0, Fetching)]);
    var fw := FailAndWait(MaxRetries, stored);
    var last: seq<(Event, Option<string>)> := [(FetchSettled(0, Failed), stored)];
    assert ExhaustingTrace(stored) == [(Activate, stored)] + (fw + last);
    RunAppend(s, cfg, [(Activate, stored)], fw + last);
    assert Run(s, cfg, [(Activate, stored)]) == s1;
    RunAppend(s1, cfg, fw, last);
    FailedAttempts(s1, cfg, MaxRetries, stored, f, 0);
    var s2 := Run(s1, cfg, fw);
    assert Delays(0, 3) == [1000, 2000, 3000];
    assert seq(3, k => s.nextHref.value) == [s.nextHref.value, s.nextHref.value, s.nextHref.value];
    assert Run(s2, cfg, last) == Step(s2, cfg, FetchSettled(0, Failed), stored);
  }

  /** On `localhost` a user activation during the re-run delay starts a run,
      and the re-run timer then starts a second one beside it: two runs are
      in flight. */
  lemma {:induction false} LocalhostTwoRuns(s: State, cfg: Config, stored: Option<string>)
    requires cfg.isLocalhost && !s.loadingFlag && !s.disabled && s.pending == [] && Gate(s, FilterOf(stored))
    ensures var t := Run(s, cfg, ExhaustingTrace(stored) + [(Activate, stored), (DevTimerFires, stored)]);
      t.pending == [Chain(FilterOf(stored), 0, Fetching), Chain(FilterOf(stored), 0, Fetching)]
  {
    RetriesExhausted(s, cfg, stored);
    RetriesExhaustedKeepsGate(s, cfg, stored);
    var t0 := Run(s, cfg, ExhaustingTrace(stored));
    RunAppend(s, cfg, ExhaustingTrace(stored), [(Activate, stored), (DevTimerFires, stored)]);
    var t1 := Step(t0, cfg, Activate, stored);
    assert t1.pending == [Chain(FilterOf(stored), 0, Fetching)] && t1.devTimers > 0;
    assert Gate(t1.(devTimers := t1.devTimers - 1, loadingFlag := false), FilterOf(stored));
    var t2 := Step(t1, cfg, DevTimerFires, stored);
    assert [(Activate, stored), (DevTimerFires, stored)][1..] == [(DevTimerFires, stored)];
    assert Run(t1, cfg, [(DevTimerFires, stored)]) == t2;
  }

  /** The failed run leaves the next link and the filter state alone. */
  lemma {:induction false} RetriesExhaustedKeepsGate(s: State, cfg: Config, stored: Option<string>)
    requires !s.loadingFlag && !s.disabled && s.pending == [] && Gate(s, FilterOf(stored))
    ensures var t := Run(s, cfg, ExhaustingTrace(stored));
      t.nextHref == s.nextHref && t.loadedPages == s.loadedPages && t.hasMoreFiltered == s.hasMoreFiltered
      && t.disabled == s.disabled
  {
    var f := FilterOf(stored);
    var s1 := Step(s, cfg, Activate, stored);
    var fw := FailAndWait(MaxRetries, stored);
    var last: seq<(Event, Option<string>)> := [(FetchSettled(0, Failed), stored)];
    assert ExhaustingTrace(stored) == [(Activate, stored)] + (fw + last);
    RunAppend(s, cfg, [(Activate, stored)], fw + last);
    assert Run(s, cfg, [(Activate, stored)]) == s1;
    RunAppend(s1, cfg, fw, last);
    FailedAttempts(s1, cfg, MaxRetries, stored, f, 0);
    assert Run(Run(s1, cfg, fw), cfg, last) == Step(Run(s1, cfg, fw), cfg, FetchSettled(0, Failed), stored);
  }

  /** Whether event `e` settles a fetch with a non-empty page. */
  predicate TakesPage(s: State, e: Event)
  {
    e.FetchSettled? && e.chain < |s.pending| && s.pending[e.chain].phase == Fetching
    && e.outcome.Loaded? && e.outcome.posts != []
  }

  /** `_loadedPages` counts the non-empty pages fetched, and `_nextDom` moves
      to each of them; no other event touches either. */
  lemma {:induction false} StepPageCounter(s: State, cfg: Config, e: Event, stored: Option<string>)
    ensures var t := Step(s, cfg, e, stored);
      t.loadedPages == (if TakesPage(s, e) then s.loadedPages + 1 else s.loadedPages)
      && t.nextHref == (if TakesPage(s, e) then e.outcome.next else s.nextHref)
  {
    if TakesPage(s, e) {
      AcceptFrame(TakePage(s, e.chain, e.outcome.next), cfg, e.outcome.posts, s.pending[e.chain].selectedType);
    }
  }

  /** The page only grows: no event takes back an appended post, an Isotope
      call, an announcement, a fetch, a wait or a cached page. */
  lemma {:induction false} StepOnlyAdds(s: State, cfg: Config, e: Event, stored: Option<string>)
    ensures OnlyAdds(s, Step(s, cfg, e, stored))
  {
    match e
    case Activate => StartRunOnlyAdds(s, stored);
    case FetchSettled(i, outcome) =>
      if i < |s.pending| && s.pending[i].phase == Fetching {
        SettleOnlyAdds(s, cfg, i, outcome);
      }
    case BackoffElapsed(i) =>
      if i < |s.pending| && s.pending[i].phase == Waiting {
        RetryOnlyAdds(s, i, stored);
      }
    case DevTimerFires =>
      if s.devTimers > 0 {
        StartRunOnlyAdds(s.(devTimers := s.devTimers - 1, loadingFlag := false), stored);
      }
  }

  /** `t` extends everything `s` has put on the page or recorded. */
  predicate OnlyAdds(s: State, t: State)
  {
    s.appended <= t.appended && s.isoCalls <= t.isoCalls && s.announcements <= t.announcements
    && s.fetches <= t.fetches && s.waits <= t.waits && s.cached.Keys <= t.cached.Keys
  }

  lemma {:induction false} StartRunOnlyAdds(s: State, stored: Option<string>)
    ensures OnlyAdds(s, StartRun(s, stored))
  {
  }

  lemma {:induction false} RetryOnlyAdds(s: State, i: nat, stored: Option<string>)
    requires i < |s.pending|
    ensures OnlyAdds(s, Retry(s, i, stored))
  {
  }

  lemma {:induction false} SettleOnlyAdds(s: State, cfg: Config, i: nat, outcome: Outcome)
    requires i < |s.pending|
    ensures OnlyAdds(s, Settle(s, cfg, i, outcome))
  {
    match outcome
    case Failed =>
      if s.pending[i].retry >= MaxRetries {
        ThrowOnlyAdds(s.(pending := RemoveAt(s.pending, i)), cfg);
      }
    case Loaded(posts, next) =>
      if posts != [] {
        AcceptFrame(TakePage(s, i, next), cfg, posts, s.pending[i].selectedType);
      }
  }

  lemma {:induction false} ThrowOnlyAdds(s: State, cfg: Config)
    ensures OnlyAdds(s, Throw(s, cfg))
  {
  }
}

=== FILE: navigation.dfy ===
/** Keyboard navigation: J/K moves between the articles of the page, and the
    arrow keys move the focus round the options of the post-type list box. */
module Navigation {
  import opened Base
  import opened Decimal
  import opened JsText

  // ---------------------------------------------------------------- J/K

  /** The index J/K asks for: `j` one further, clamped to the last article;
      `k` one back, clamped to the first; any other key stays. The key is
      compared after `toLowerCase`. */
  function NextArticleIndex(key: string, current: int, count: nat): (next: int)
    ensures 0 <= current < count ==> 0 <= next < count && current - 1 <= next <= current + 1
  {
    var k := ToLower(key);
    if k == "j" then Min(current + 1, count - 1)
    else if k == "k" then Max(current - 1, 0)
    else current
  }

  /** The status message read out after a move: the heading text (or
      `Article` when there is no heading or it is empty) and the position. */
  function ArticleAnnouncement(title: Option<string>, index: nat, count: nat): (msg: string)
    ensures title.Some? && title.value != "" ==> |msg| > |title.value| && msg[..|title.value|] == title.value
    ensures title.None? || title.value == "" ==> |msg| > 7 && msg[..7] == "Article"
  {
    var t := if title.None? || title.value == "" then "Article" else title.value;
    t + ". Article " + NatToString(index + 1) + " of " + NatToString(count)
  }

  /** From an article in range, J/K stays in range and moves by at most one:
      forward exactly when the key is J and this is not the last article,
      back exactly when the key is K and this is not the first. */
  lemma {:induction false} NextArticleIndexInRange(key: string, current: int, count: nat)
    requires 0 <= current < count
    ensures 0 <= NextArticleIndex(key, current, count) < count
    ensures NextArticleIndex(key, current, count) == current + 1
      <==> ToLower(key) == "j" && current < count - 1
    ensures NextArticleIndex(key, current, count) == current - 1
      <==> ToLower(key) == "k" && current > 0
    ensures NextArticleIndex(key, current, count) == current
      <==> !(ToLower(key) == "j" && current < count - 1) && !(ToLower(key) == "k" && current > 0)
  {
  }

  /** Both cases of each letter are heard: J and j move forward, K and k
      back; so does KELVIN SIGN, which `toLowerCase` turns into `k`. */
  lemma {:induction false} ArticleKeysIgnoreCase(current: int, count: nat)
    ensures NextArticleIndex("J", current, count) == NextArticleIndex("j", current, count) == Min(current + 1, count - 1)
    ensures NextArticleIndex("K", current, count) == NextArticleIndex("k", current, count) == Max(current - 1, 0)
    ensures NextArticleIndex("\U{212A}", current, count) == Max(current - 1, 0)
  {
    assert ToLower("\U{212A}") == "k" by { assert ToLower("\U{212A}") == LowerChar('\U{212A}') + ToLower([]); }
    assert ToLower("J") == "j" by { assert ToLower("J") == LowerChar('J') + ToLower([]); }
    assert ToLower("j") == "j" by { assert ToLower("j") == LowerChar('j') + ToLower([]); }
    assert ToLower("K") == "k" by { assert ToLower("K") == LowerChar('K') + ToLower([]); }
    assert ToLower("k") == "k" by { assert ToLower("k") == LowerChar('k') + ToLower([]); }
  }

  /** J then K comes back to the starting article unless it was the last. */
  lemma {:induction false} ForwardThenBack(current: int, count: nat)
    requires 0 <= current < count - 1
    ensures NextArticleIndex("k", NextArticleIndex("j", current, count), count) == current
  {
    ArticleKeysIgnoreCase(current, count);
    ArticleKeysIgnoreCase(current + 1, count);
  }

  /** The article navigation set up by `initArticleNavigation`: the list of
      articles (each known by the text of its `h2`, if any), the index of the
      current one, and the status messages announced so far. */
  class ArticleNavigator {
    var titles: seq<Option<string>>
    var current: int
    var announcements: seq<string>

    /** Only built when the page has at least one article. */
    constructor (titles0: seq<Option<string>>)
      requires |titles0| > 0
      ensures titles == titles0 && current == 0 && announcements == []
    {
      titles := titles0;
      current := 0;
      announcements := [];
    }

    /** `updateArticleIndices()`: take the fresh list of articles; the current
      index is kept as it is. */
    method Refresh(newTitles: seq<Option<string>>)
      modifies this
      ensures titles == newTitles && current == old(current) && announcements == old(announcements)
    {
      titles := newTitles;
    }

    /** `handleKeyNavigation(e)`. Keys typed into an input or a text area are
        ignored. When the index changes it is stored, and, when an article sits
        at the new index, its position is announced. No article there (the
        list changed under a stored index) leaves the store done and stops
        with `threw`, as the dereference of `undefined` does. */
    method HandleKey(key: string, inTextField: bool) returns (threw: bool)
      modifies this
      ensures titles == old(titles)
      ensures var next := NextArticleIndex(key, old(current), |old(titles)|);
        if inTextField || next == old(current) then
          current == old(current) && announcements == old(announcements) && !threw
        else if 0 <= next < |titles| then
          current == next && !threw
          && announcements == old(announcements) + [ArticleAnnouncement(titles[next], next, |titles|)]
        else
          current == next && announcements == old(announcements) && threw
    {
      threw := false;
      if inTextField {
        return;
      }
      var next := NextArticleIndex(key, current, |titles|);
      if next != current {
        current := next;
        if !(0 <= next < |titles|) {
          threw := true;
          return;
        }
        announcements := announcements + [ArticleAnnouncement(titles[next], next, |titles|)];
      }
    }
  }

  // ---------------------------------------------------------------- list box

  /** The option the arrow keys move the focus to, given the index of the
      focused option among `count` options (-1 when no option has focus):
      Up goes one back and wraps from the first (or from none) to the last;
      Down goes one forward and wraps from the last to the first. */
  function ListboxNext(up: bool, current: int, count: nat): (next: int)
    ensures count > 0 && -1 <= current < count ==> 0 <= next < count
  {
    if up then (if current > 0 then current - 1 else count - 1)
    else (if current < count - 1 then current + 1 else 0)
  }

  /** From a focused option or from none, the target is always an option. */
  lemma {:induction false} ListboxNextInRange(up: bool, current: int, count: nat)
    requires count > 0 && -1 <= current < count
    ensures 0 <= ListboxNext(up, current, count) < count
  {
  }

  /** Within the options the movement is cyclic: one step of arithmetic
      modulo the number of options. */
  lemma {:induction false} ListboxNextIsModular(up: bool, current: int, count: nat)
    requires 0 <= current < count
    ensures ListboxNext(up, current, count) == if up then (current - 1 + count) % count else (current + 1) % count
  {
    if up {
      if current > 0 {
        assert current - 1 + count == (current - 1) + 1 * count;
      } else {
        assert current - 1 + count == count - 1;
      }
    } else if current < count - 1 {
      assert (current + 1) % count == current + 1;
    } else {
      assert current + 1 == count;
    }
  }

  /** Up and Down undo each other. */
  lemma {:induction false} ListboxUpDownInverse(current: int, count: nat)
    requires 0 <= current < count
    ensures ListboxNext(false, ListboxNext(true, current, count), count) == current
    ensures ListboxNext(true, ListboxNext(false, current, count), count) == current
  {
  }

  /** With no option focused, Up lands on the last option and Down on the
      first. */
  lemma {:induction false} ListboxFromNowhere(count: nat)
    requires count > 0
    ensures ListboxNext(true, -1, count) == count - 1
    ensures ListboxNext(false, -1, count) == 0
  {
  }
}

=== FILE: postfilter.dfy ===
/** The post-type filter: a drop-down list box of post types whose choice is
    shown on the button, remembered in `localStorage` under
    `selectedPostType` and handed to Isotope as an arrange selector. */
module PostFilter {
  import opened Base
  import opened Browser
  import Navigation

  datatype FilterType = FilterType(id: string, caption: string)

  /** `FILTER_CONFIG.types`, in order; one list option is made per entry. */
  const FilterTypes: seq<FilterType> := [
    FilterType("all", "All Posts"),
    FilterType("article", "Articles"),
    FilterType("bookmarks", "Bookmarks"),
    FilterType("notes", "Notes"),
    FilterType("quotes", "Quotes")
  ]

  /** The `localStorage` key of the chosen type. */
  const SelectedKey: string := "selectedPostType"

  /** The `data-value` of each option, in list order. */
  function OptionValues(): (ids: seq<string>)
    ensures |ids| == |FilterTypes| && forall k :: 0 <= k < |ids| ==> ids[k] == FilterTypes[k].id
  {
    seq(|FilterTypes|, k requires 0 <= k < |FilterTypes| => FilterTypes[k].id)
  }

  /** `FILTER_CONFIG.types.find(t => t.id === typeId)`, reduced to the label
      the handler reads from it. */
  function LabelOf(typeId: string): (r: Option<string>)
  {
    if typeId == "all" then Some("All Posts")
    else if typeId == "article" then Some("Articles")
    else if typeId == "bookmarks" then Some("Bookmarks")
    else if typeId == "notes" then Some("Notes")
    else if typeId == "quotes" then Some("Quotes")
    else None
  }

  /** The label lookup finds exactly the configured types, each under its own
      label. */
  lemma {:induction false} LabelOfConfigured(typeId: string)
    ensures LabelOf(typeId).Some? <==> typeId in OptionValues()
    ensures forall k :: 0 <= k < |FilterTypes| && FilterTypes[k].id == typeId ==> LabelOf(typeId) == Some(FilterTypes[k].caption)
  {
    var ids := OptionValues();
    assert ids == ["all", "article", "bookmarks", "notes", "quotes"];
  }

  /** The arrange selector for a type: `*` for `all`, `.` and the type
      otherwise. */
  function ArrangeSelector(typeId: string): (sel: string)
    ensures typeId == "all" ==> sel == "*"
    ensures typeId != "all" ==> |sel| == |typeId| + 1 && sel[0] == '.' && sel[1..] == typeId
  {
    if typeId == "all" then "*" else "." + typeId
  }

  /** After arranging, Isotope shows every post for `all`, and for any other
      type exactly the posts carrying that type as a class. */
  lemma {:induction false} ArrangeSelectorShows(items: seq<Post>, typeId: string)
    ensures typeId == "all" ==> Shown(items, ArrangeSelector(typeId)) == items
    ensures typeId != "all" ==> forall p :: p in Shown(items, ArrangeSelector(typeId)) <==> p in items && typeId in p.classes
  {
    if typeId != "all" && items != [] {
      ArrangeSelectorShows(items[1..], typeId);
      assert forall p :: p in items <==> p == items[0] || p in items[1..];
    }
  }

  /** Where the arrow keys and Escape send the focus. */
  datatype FocusMove = Stay | ToButton | ToOption(index: nat)

  /** The state `initPostFilter` keeps in the page: the `aria-selected` flag
      of each option, the button text, the button's `filter-active` class,
      whether the drop-down is open (`aria-expanded`), the status messages
      announced so far, `localStorage` and the Isotope instance, which may be
      missing. */
  class FilterSelector {
    const selected: array<bool>
    var buttonText: string
    var filterActive: bool
    var expanded: bool
    var announcements: seq<string>
    const storage: LocalStorage
    const iso: Isotope?

    ghost predicate Valid()
    {
      selected.Length == |FilterTypes|
    }

    /** The page shows the known type `typeId` as chosen: its option alone is
        selected, its label is on the button, the button is marked active
        unless the type is `all`, the drop-down is closed and the choice is
        stored. */
    ghost predicate Showing(typeId: string)
      reads this, selected, storage
      requires Valid()
    {
      LabelOf(typeId).Some?
      && (forall k :: 0 <= k < |FilterTypes| ==> selected[k] == (FilterTypes[k].id == typeId))
      && buttonText == LabelOf(typeId).value
      && filterActive == (typeId != "all")
      && !expanded
      && storage.GetItem(SelectedKey) == Some(typeId)
    }

    /** `createFilterDropdown`: the `all` option is selected, the button reads
        `All Posts` and the drop-down is closed. */
    constructor(storage: LocalStorage, iso: Isotope?)
      ensures Valid() && fresh(selected)
      ensures this.storage == storage && this.iso == iso
      ensures forall k :: 0 <= k < |FilterTypes| ==> selected[k] == (k == 0)
      ensures buttonText == "All Posts" && !filterActive && !expanded && announcements == []
    {
      selected := new bool[|FilterTypes|](k => k == 0);
      buttonText := "All Posts";
      filterActive := false;
      expanded := false;
      announcements := [];
      this.storage := storage;
      this.iso := iso;
    }

    /** `handleFilterSelect(typeId)`, as written. Every option's
        `aria-selected` is set first; then the label of `typeId` is read from
        the configuration, which throws (`threw`) when the type is unknown,
        leaving no option selected and nothing else changed. A known type
        sets the button, announces `Showing <label>`, closes the drop-down,
        stores the type and arranges Isotope by it. */
    method HandleFilterSelect(typeId: string) returns (threw: bool)
      requires Valid()
      modifies this, selected, storage, iso
      ensures Valid()
      ensures forall k :: 0 <= k < |FilterTypes| ==> selected[k] == (FilterTypes[k].id == typeId)
      ensures threw <==> LabelOf(typeId).None?
      ensures threw ==> buttonText == old(buttonText) && filterActive == old(filterActive) && expanded == old(expanded)
      ensures threw ==> announcements == old(announcements) && unchanged(storage) && (iso != null ==> unchanged(iso))
      ensures !threw ==> Showing(typeId)
      ensures !threw ==> announcements == old(announcements) + ["Showing " + LabelOf(typeId).value]
      ensures !threw ==> storage.items == old(storage.items)[SelectedKey := typeId]
      ensures !threw && iso != null ==> iso.calls == old(iso.calls) + [IsoCall.Arrange(ArrangeSelector(typeId))]
    {
      var k := 0;
      while k < selected.Length
        invariant k <= selected.Length
        invariant forall i :: 0 <= i < k ==> selected[i] == (FilterTypes[i].id == typeId)
        modifies selected
      {
        selected[k] := FilterTypes[k].id == typeId;
        k := k + 1;
      }
      var found := LabelOf(typeId);
      if found.None? {
        return true;
      }
      buttonText := found.value;
      filterActive := typeId != "all";
      announcements := announcements + ["Showing " + found.value];
      expanded := false;
      storage.SetItem(SelectedKey, typeId);
      if iso != null {
        iso.Arrange(ArrangeSelector(typeId));
      }
      return false;
    }

    /** A click on option `k`: its `data-value` is a configured type, so the
        handler never throws there. */
    method ClickOption(k: nat)
      requires Valid() && k < |FilterTypes|
      modifies this, selected, storage, iso
      ensures Valid() && Showing(FilterTypes[k].id)
      ensures announcements == old(announcements) + ["Showing " + FilterTypes[k].caption]
      ensures iso != null ==> iso.calls == old(iso.calls) + [IsoCall.Arrange(ArrangeSelector(FilterTypes[k].id))]
    {
      LabelOfConfigured(FilterTypes[k].id);
      var threw := HandleFilterSelect(FilterTypes[k].id);
    }

    /** The filter button's click handler: open a closed drop-down, close an
        open one. */
    method ToggleButton()
      modifies this
      ensures expanded == !old(expanded)
      ensures buttonText == old(buttonText) && filterActive == old(filterActive) && announcements == old(announcements)
    {
      expanded := !expanded;
    }

    /** A click anywhere outside the filter closes the drop-down. */
    method ClickOutside()
      modifies this
      ensures !expanded
      ensures buttonText == old(buttonText) && filterActive == old(filterActive) && announcements == old(announcements)
    {
      expanded := false;
    }

    /** The filter's `keydown` handler. `target` is the index of the option
        the event came from (None when it came from elsewhere) and `focused`
        the index of the focused option (-1 when the focus is elsewhere).
        Escape closes an open drop-down and focuses the button; Enter and
        Space choose the target option; the arrow keys move the focus round
        the options of an open drop-down. */
    method KeyDown(key: string, target: Option<nat>, focused: int) returns (move: FocusMove)
      requires Valid() && (target.Some? ==> target.value < |FilterTypes|) && -1 <= focused < |FilterTypes|
      modifies this, selected, storage, iso
      ensures Valid()
      ensures key == "Escape" ==> expanded == false && move == (if old(expanded) then ToButton else Stay)
      ensures (key == "Enter" || key == " ") && target.Some? ==> Showing(FilterTypes[target.value].id) && move == Stay
      ensures (key == "Enter" || key == " ") && target.Some? ==>
        announcements == old(announcements) + ["Showing " + FilterTypes[target.value].caption]
        && (iso != null ==> iso.calls == old(iso.calls) + [IsoCall.Arrange(ArrangeSelector(FilterTypes[target.value].id))])
      ensures (key == "ArrowUp" || key == "ArrowDown") && old(expanded) ==> move == ToOption(Navigation.ListboxNext(key == "ArrowUp", focused, |FilterTypes|))
      ensures move.ToOption? ==> move.index < |FilterTypes|
      ensures key !in {"Enter", " "} || target.None? ==> unchanged(selected, storage) && (iso != null ==> unchanged(iso)) && buttonText == old(buttonText)
      ensures key !in {"Enter", " "} || target.None? ==> announcements == old(announcements) && filterActive == old(filterActive)
      ensures key != "Escape" && (key !in {"Enter", " "} || target.None?) ==> expanded == old(expanded)
    {
      move := Stay;
      if key == "Escape" {
        if expanded {
          expanded := false;
          move := ToButton;
        }
      } else if key == "Enter" || key == " " {
        if target.Some? {
          ClickOption(target.value);
        }
      } else if key == "ArrowUp" || key == "ArrowDown" {
        if expanded {
          var next := Navigation.ListboxNext(key == "ArrowUp", focused, |FilterTypes|);
          Navigation.ListboxNextInRange(key == "ArrowUp", focused, |FilterTypes|);
          move := ToOption(next);
        }
      }
    }

    /** `handleFilterSelect` guarded by a check that the type is configured:
        an unknown type changes nothing. */
    method SelectIfKnown(typeId: string)
      requires Valid()
      modifies this, selected, storage, iso
      ensures Valid()
      ensures LabelOf(typeId).None? ==> unchanged(this, selected, storage) && (iso != null ==> unchanged(iso))
      ensures LabelOf(typeId).Some? ==> Showing(typeId)
      ensures LabelOf(typeId).Some? ==> announcements == old(announcements) + ["Showing " + LabelOf(typeId).value]
      ensures LabelOf(typeId).Some? && iso != null ==> iso.calls == old(iso.calls) + [IsoCall.Arrange(ArrangeSelector(typeId))]
    {
      if LabelOf(typeId).Some? {
        var threw := HandleFilterSelect(typeId);
      }
    }

    /** Restoring the previous choice, as written: a stored non-empty value
        is passed to `handleFilterSelect`. A configured type is shown again;
        a value that is no longer a configured type throws, after every
        option has been deselected; a missing or empty value leaves the page
        as it is. */
    method RestoreSavedAsWritten() returns (threw: bool)
      requires Valid()
      modifies this, selected, storage, iso
      ensures Valid()
      ensures var saved := old(storage.GetItem(SelectedKey));
        threw <==> saved.Some? && saved.value != "" && LabelOf(saved.value).None?
      ensures threw ==> forall k :: 0 <= k < |FilterTypes| ==> !selected[k]
      ensures threw ==> buttonText == old(buttonText) && filterActive == old(filterActive) && expanded == old(expanded)
      ensures threw ==> announcements == old(announcements) && unchanged(storage) && (iso != null ==> unchanged(iso))
      ensures var saved := old(storage.GetItem(SelectedKey));
        saved.Some? && LabelOf(saved.value).Some? ==>
          && Showing(saved.value)
          && announcements == old(announcements) + ["Showing " + LabelOf(saved.value).value]
          && (iso != null ==> iso.calls == old(iso.calls) + [IsoCall.Arrange(ArrangeSelector(saved.value))])
      ensures var saved := old(storage.GetItem(SelectedKey));
        saved.None? || saved.value == "" ==> unchanged(this, selected, storage) && (iso != null ==> unchanged(iso))
    {
      var saved := storage.GetItem(SelectedKey);
      threw := false;
      if saved.Some? && saved.value != "" {
        LabelOfConfigured(saved.value);
        threw := HandleFilterSelect(saved.value);
      }
    }

    /** Restoring the previous choice with unknown values ignored: a stored
        configured type is shown again; anything else leaves the page as it
        is. */
    method RestoreSaved()
      requires Valid()
      modifies this, selected, storage, iso
      ensures Valid()
      ensures old(storage.GetItem(SelectedKey)).Some? && LabelOf(old(storage.GetItem(SelectedKey)).value).Some? ==> Showing(old(storage.GetItem(SelectedKey)).value)
      ensures old(storage.GetItem(SelectedKey)).None? || LabelOf(old(storage.GetItem(SelectedKey)).value).None? ==> unchanged(this, selected, storage) && (iso != null ==> unchanged(iso))
    {
      var saved := storage.GetItem(SelectedKey);
      if saved.Some? && saved.value != "" {
        SelectIfKnown(saved.value);
      }
    }
  }

  /** A stored value that names no configured type, such as one left by an
      earlier version of the page, makes the restore throw. */
  lemma {:induction false} StaleValueIsUnknown()
    ensures LabelOf("videos").None?
    ensures "videos" !in OptionValues()
  {
    LabelOfConfigured("videos");
  }
}

=== FILE: ratelimit.dfy ===
/** The two per-window rate limiters: `RateLimiter`, which counts actions per
    wall-clock minute in `sessionStorage`, and the related-articles panel's own
    counter. The clock is a parameter: `nowMs` stands for `Date.now()`. */
module RateLimit {
  import opened Base
  import opened Decimal
  import opened JsText

  const KeyPrefix: string := "rateLimit_"
  /** Entries more than this many minutes old are dropped by the clean-up. */
  const StaleMinutes: int := 5
  const MsPerMinute: nat := 60000

  predicate Distinct(xs: seq<string>)
  {
    forall i, j :: 0 <= i < j < |xs| ==> xs[i] != xs[j]
  }

  function IndexOf(xs: seq<string>, x: string): (i: nat)
    requires x in xs
    ensures i < |xs| && xs[i] == x && x !in xs[..i]
  {
    if xs[0] == x then 0
    else
      var i := 1 + IndexOf(xs[1..], x);
      assert xs[..i] == [xs[0]] + xs[1..][..i - 1];
      i
  }

  /** `xs` with its first occurrence of `x`, if any, taken out. */
  function Without(xs: seq<string>, x: string): (r: seq<string>)
  {
    if x in xs then RemoveAt(xs, IndexOf(xs, x)) else xs
  }

  /** The entries of `m` whose key is still listed in `ks`. */
  function Restrict(m: map<string, string>, ks: seq<string>): (r: map<string, string>)
    ensures forall k :: k in r <==> k in m && k in ks
    ensures forall k :: k in r ==> r[k] == m[k]
  {
    map k | k in m && k in ks :: m[k]
  }

  lemma {:induction false} RemoveAtDistinct(xs: seq<string>, i: nat)
    requires Distinct(xs) && i < |xs|
    ensures Distinct(RemoveAt(xs, i))
    ensures forall k :: k in RemoveAt(xs, i) <==> k in xs && k != xs[i]
  {
    var r := RemoveAt(xs, i);
    forall k | k in xs && k != xs[i]
      ensures k in r
    {
      var j :| 0 <= j < |xs| && xs[j] == k;
      if j < i { assert r[j] == k; } else { assert r[j - 1] == k; }
    }
  }

  /** In a list without repeats, removing a key removes it at its position. */
  lemma {:induction false} WithoutAt(xs: seq<string>, i: nat)
    requires Distinct(xs) && i < |xs|
    ensures Without(xs, xs[i]) == RemoveAt(xs, i)
  {
  }

  lemma {:induction false} RestrictRemoveAt(m: map<string, string>, ks: seq<string>, i: nat)
    requires Distinct(ks) && i < |ks|
    ensures Restrict(m, RemoveAt(ks, i)) == Restrict(m, ks) - {ks[i]}
  {
    RemoveAtDistinct(ks, i);
  }

  /** `window.sessionStorage`: `keys` is the order in which `key(i)` lists the
      entries (a new key goes last; removing one shifts the later ones down). */
  class SessionStorage {
    var keys: seq<string>
    var values: map<string, string>

    ghost predicate Valid()
      reads this
    {
      Distinct(keys) && forall k :: k in values <==> k in keys
    }

    constructor ()
      ensures Valid() && keys == [] && values == map[]
    {
      keys := [];
      values := map[];
    }

    /** `getItem(key)`; None stands for `null`. */
    function GetItem(key: string): (r: Option<string>)
      reads this
      ensures r.Some? <==> key in values
      ensures r.Some? ==> r.value == values[key]
    {
      if key in values then Some(values[key]) else None
    }

    method SetItem(key: string, value: string)
      requires Valid()
      modifies this
      ensures Valid()
      ensures values == old(values)[key := value]
      ensures keys == if key in old(keys) then old(keys) else old(keys) + [key]
    {
      if key !in keys {
        keys := keys + [key];
      }
      values := values[key := value];
    }

    method RemoveItem(key: string)
      requires Valid()
      modifies this
      ensures Valid()
      ensures values == old(values) - {key}
      ensures keys == Without(old(keys), key)
    {
      if key in keys {
        RemoveAtDistinct(keys, IndexOf(keys, key));
        keys := RemoveAt(keys, IndexOf(keys, key));
      }
      values := values - {key};
    }
  }

  // ---------------------------------------------------------------- keys

  /** `getKey(action)`: the action and the current minute number. */
  function GetKey(action: string, nowMs: nat): (key: string)
    ensures StartsWith(key, KeyPrefix)
  {
    KeyPrefix + action + "_" + NatToString(nowMs / MsPerMinute)
  }

  /** What the clean-up reads from a key: the third `_`-separated part through
      `parseInt`; None when the part is missing or is not a number. */
  function KeyMinute(key: string): (r: Option<int>)
    ensures '_' !in key ==> r.None?
  {
    var parts := Split(key, '_');
    assert '_' !in key ==> parts == [key] by {
      if '_' !in key {
        SplitOfPiece(key, '_');
      }
    }
    if |parts| < 3 then None else ParseInt(parts[2])
  }

  /** The clean-up's test: a rate-limit key whose minute is more than five
      minutes before `now` (a NaN minute never compares greater). */
  predicate Stale(key: string, now: int)
    ensures '_' !in key ==> !Stale(key, now)
  {
    StartsWith(key, KeyPrefix) && KeyMinute(key).Some? && now - KeyMinute(key).value > StaleMinutes
  }

  /** A key that has gone stale stays stale as time moves on. */
  lemma {:induction false} StaleStaysStale(key: string, now: int, later: int)
    requires Stale(key, now) && now <= later
    ensures Stale(key, later)
  {
  }

  lemma {:induction false} DigitsHaveNoUnderscore(d: string)
    requires AllDigits(d)
    ensures '_' !in d
  {
    forall i | 0 <= i < |d|
      ensures d[i] != '_'
    {
      assert IsDigit(d[i]);
    }
  }

  lemma {:induction false} KeyParts(action: string, d: string)
    requires '_' !in action && AllDigits(d)
    ensures Split(KeyPrefix + action + "_" + d, '_') == ["rateLimit", action, d]
  {
    assert KeyPrefix + action + "_" + d == "rateLimit" + ['_'] + (action + ['_'] + d);
    assert '_' !in "rateLimit";
    SplitAfterPiece("rateLimit", '_', action + ['_'] + d);
    SplitAfterPiece(action, '_', d);
    DigitsHaveNoUnderscore(d);
    SplitOfPiece(d, '_');
  }

  /** A key for an action without `_` splits into the prefix, the action and
      the minute, so the clean-up reads back the minute it was made in. */
  lemma {:induction false} GetKeyMinute(action: string, nowMs: nat)
    requires '_' !in action
    ensures KeyMinute(GetKey(action, nowMs)) == Some(nowMs / MsPerMinute)
  {
    var d := NatToString(nowMs / MsPerMinute);
    KeyParts(action, d);
    ParseIntOfNatToString(nowMs / MsPerMinute);
  }

  /** For an action without `_`, a key is stale exactly when its minute lies
      more than five minutes before the current one; in particular the key of
      the current minute never is. */
  lemma {:induction false} StaleKeyIff(action: string, madeMs: nat, now: int)
    requires '_' !in action
    ensures Stale(GetKey(action, madeMs), now) <==> now - madeMs / MsPerMinute > StaleMinutes
  {
    GetKeyMinute(action, madeMs);
  }

  // ---------------------------------------------------------------- counting

  /** `getItem(key) || '0'`: a missing or empty value reads as `"0"`. */
  function StoredText(stored: Option<string>): string
  {
    if stored.None? || stored.value == "" then "0" else stored.value
  }

  /** `parseInt(getItem(key) || '0')` plus one; None is NaN (which `++` keeps). */
  function NextCount(stored: Option<string>): (c: Option<int>)
    ensures stored.None? || stored == Some("") ==> c == Some(1)
  {
    assert ParseInt("0") == Some(0) by {
      assert NatToString(0) == "0";
      ParseIntOfNatToString(0);
    }
    match ParseInt(StoredText(stored))
    case None => None
    case Some(v) => Some(v + 1)
  }

  /** A missing key counts from zero. */
  lemma {:induction false} NextCountOfAbsent()
    ensures NextCount(None) == Some(1)
  {
    assert StoredText(None) == NatToString(0);
    ParseIntOfNatToString(0);
  }

  /** `count.toString()`. */
  function CountText(c: Option<int>): (s: string)
    ensures c.None? ==> s == "NaN"
  {
    match c
    case None => "NaN"
    case Some(v) => IntToString(v)
  }

  /** `count <= limit`; NaN compares false. */
  predicate Allows(c: Option<int>, limit: int)
    ensures c.None? ==> !Allows(c, limit)
    ensures c == Some(1) ==> (Allows(c, limit) <==> limit >= 1)
  {
    c.Some? && c.value <= limit
  }

  /** A stored count is read back and advanced by one. */
  lemma {:induction false} NextCountOfCount(n: nat)
    ensures NextCount(Some(NatToString(n))) == Some(n + 1)
  {
    assert StoredText(Some(NatToString(n))) == NatToString(n);
    ParseIntOfNatToString(n);
  }

  /** The first call of a minute stores 1 and is allowed when the limit is at
      least 1; a call that finds `n` stored stores `n + 1` and is allowed when
      `n + 1` is within the limit. So the call numbered `n` in a minute is
      allowed exactly when `n <= limit`: at most `limit` calls per action per
      minute. */
  lemma {:induction false} CallsCountUp(n: nat, limit: int)
    ensures NextCount(None) == Some(1) && CountText(Some(1)) == NatToString(1)
    ensures Allows(NextCount(None), limit) <==> 1 <= limit
    ensures NextCount(Some(NatToString(n))) == Some(n + 1)
    ensures CountText(Some(n + 1)) == NatToString(n + 1)
    ensures Allows(NextCount(Some(NatToString(n))), limit) <==> n + 1 <= limit
  {
    NextCountOfAbsent();
    NextCountOfCount(n);
  }

  /** A value that does not parse turns the count into NaN, and NaN is stored
      back as `"NaN"`: every later call in that minute is refused. */
  lemma {:induction false} NaNSticks(limit: int)
    ensures NextCount(Some("NaN")) == None
    ensures CountText(None) == "NaN" && !Allows(None, limit)
  {
    var t := "NaN";
    assert StoredText(Some(t)) == t;
    ParseIntOfLetters(t);
  }

  /** `increment(action, limit)`. */
  method Increment(storage: SessionStorage, action: string, limit: int, nowMs: nat) returns (allowed: bool)
    requires storage.Valid()
    modifies storage
    ensures storage.Valid()
    ensures var key := GetKey(action, nowMs);
      var c := NextCount(old(storage.GetItem(key)));
      && storage.values == old(storage.values)[key := CountText(c)]
      && storage.keys == (if key in old(storage.keys) then old(storage.keys) else old(storage.keys) + [key])
      && allowed == Allows(c, limit)
  {
    var key := GetKey(action, nowMs);
    var count := NextCount(storage.GetItem(key));
    storage.SetItem(key, CountText(count));
    allowed := count.Some? && count.value <= limit;
  }

  // ---------------------------------------------------------------- clean-up

  /** The clean-up's test as a value, so that the loops below are proved for
      any test. */
  function StaleAt(now: int): string -> bool
  {
    k => Stale(k, now)
  }

  /** The keys left by the clean-up loop as written: it scans forward by index
      and, after removing the key at `i`, still moves on to `i + 1`, so the key
      that slid down into `i` is never looked at. */
  function ScanFrom(keys: seq<string>, i: nat, stale: string -> bool): (r: seq<string>)
    ensures |r| <= |keys|
    ensures i <= |keys| ==> i <= |r| && r[..i] == keys[..i]
    decreases |keys| - i
  {
    if i >= |keys| then keys
    else if stale(keys[i]) then ScanFrom(RemoveAt(keys, i), i + 1, stale)
    else ScanFrom(keys, i + 1, stale)
  }

  /** The keys a clean-up should leave: every key that is not stale, in order. */
  function KeepFresh(keys: seq<string>, stale: string -> bool): (r: seq<string>)
    ensures |r| <= |keys|
  {
    if keys == [] then []
    else
      var last := keys[|keys| - 1];
      var prefix := keys[..|keys| - 1];
      assert keys == prefix + [last];
      KeepFresh(prefix, stale) + (if stale(last) then [] else [last])
  }

  /** The corrected clean-up keeps exactly the keys that are not stale. */
  lemma {:induction false} KeepFreshMembers(keys: seq<string>, stale: string -> bool)
    ensures forall k :: k in KeepFresh(keys, stale) <==> k in keys && !stale(k)
  {
    if keys != [] {
      var prefix := keys[..|keys| - 1];
      KeepFreshMembers(prefix, stale);
      assert keys == prefix + [keys[|keys| - 1]];
    }
  }

  /** Look at the key at index `i` and remove it when it is stale. */
  method RemoveIfStale(storage: SessionStorage, i: nat, stale: string -> bool, ghost values0: map<string, string>)
    returns (removed: bool)
    requires storage.Valid() && i < |storage.keys|
    requires storage.values == Restrict(values0, storage.keys)
    modifies storage
    ensures storage.Valid()
    ensures storage.values == Restrict(values0, storage.keys)
    ensures removed == stale(old(storage.keys[i]))
    ensures storage.keys == if removed then RemoveAt(old(storage.keys), i) else old(storage.keys)
  {
    var key := storage.keys[i];
    removed := stale(key);
    if removed {
      WithoutAt(storage.keys, i);
      RestrictRemoveAt(values0, storage.keys, i);
      storage.RemoveItem(key);
    }
  }

  /** `cleanup()` as written (see the Findings in the README). */
  method CleanupAsWritten(storage: SessionStorage, nowMs: nat)
    requires storage.Valid()
    modifies storage
    ensures storage.Valid()
    ensures storage.keys == ScanFrom(old(storage.keys), 0, StaleAt(nowMs / MsPerMinute))
    ensures storage.values == Restrict(old(storage.values), storage.keys)
  {
    var stale := StaleAt(nowMs / MsPerMinute);
    ghost var keys0 := storage.keys;
    ghost var values0 := storage.values;
    var i := 0;
    while i < |storage.keys|
      invariant storage.Valid()
      invariant ScanFrom(storage.keys, i, stale) == ScanFrom(keys0, 0, stale)
      invariant storage.values == Restrict(values0, storage.keys)
      decreases |storage.keys| - i
    {
      var gone := RemoveIfStale(storage, i, stale, values0);
      i := i + 1;
    }
  }

  /** The scan as written never drops a key that is not stale: it only ever
      removes the key it is looking at, and only when that key is stale. */
  lemma {:induction false} ScanFromKeepsFresh(keys: seq<string>, i: nat, stale: string -> bool, k: string)
    requires k in keys && !stale(k)
    ensures k in ScanFrom(keys, i, stale)
    decreases |keys| - i
  {
    if i < |keys| {
      if stale(keys[i]) {
        var r := RemoveAt(keys, i);
        var j :| 0 <= j < |keys| && keys[j] == k;
        if j < i { assert r[j] == k; } else { assert r[j - 1] == k; }
        ScanFromKeepsFresh(r, i + 1, stale, k);
      } else {
        ScanFromKeepsFresh(keys, i + 1, stale, k);
      }
    }
  }

  /** Nor does it bring in a key that was not there before. */
  lemma {:induction false} ScanFromWithin(keys: seq<string>, i: nat, stale: string -> bool, k: string)
    requires k in ScanFrom(keys, i, stale)
    ensures k in keys
    decreases |keys| - i
  {
    if i < |keys| {
      if stale(keys[i]) {
        var r := RemoveAt(keys, i);
        ScanFromWithin(r, i + 1, stale, k);
        var j :| 0 <= j < |r| && r[j] == k;
        if j < i { assert keys[j] == k; } else { assert keys[j + 1] == k; }
      } else {
        ScanFromWithin(keys, i + 1, stale, k);
      }
    }
  }

  /** Two stale keys next to each other: the loop as written removes the first
      and leaves the second in place. */
  lemma {:induction false} CleanupAsWrittenSkipsStaleKey(x: string, y: string, madeMs: nat, nowMs: nat)
    requires '_' !in x && '_' !in y
    requires nowMs / MsPerMinute - madeMs / MsPerMinute > StaleMinutes
    ensures var a := GetKey(x, madeMs);
      var b := GetKey(y, madeMs);
      && Stale(b, nowMs / MsPerMinute)
      && ScanFrom([a, b], 0, StaleAt(nowMs / MsPerMinute)) == [b]
      && KeepFresh([a, b], StaleAt(nowMs / MsPerMinute)) == []
  {
    var now := nowMs / MsPerMinute;
    var a := GetKey(x, madeMs);
    var b := GetKey(y, madeMs);
    StaleKeyIff(x, madeMs, now);
    StaleKeyIff(y, madeMs, now);
    assert RemoveAt([a, b], 0) == [b];
    assert ScanFrom([b], 1, StaleAt(now)) == [b];
    assert [a, b][..1] == [a];
  }

  /** One more key of the input seen by the corrected clean-up: `keys` is the
      storage's key list with `j` input keys handled. */
  lemma {:induction false} KeepFreshStep(keys0: seq<string>, j: nat, stale: string -> bool, keys: seq<string>)
    requires j < |keys0|
    requires keys == KeepFresh(keys0[..j], stale) + keys0[j..]
    ensures var i := |KeepFresh(keys0[..j], stale)|;
      && i < |keys| && keys[i] == keys0[j]
      && (stale(keys0[j]) ==> RemoveAt(keys, i) == KeepFresh(keys0[..j + 1], stale) + keys0[j + 1..])
      && (stale(keys0[j]) ==> i == |KeepFresh(keys0[..j + 1], stale)|)
      && (!stale(keys0[j]) ==> keys == KeepFresh(keys0[..j + 1], stale) + keys0[j + 1..])
      && (!stale(keys0[j]) ==> i + 1 == |KeepFresh(keys0[..j + 1], stale)|)
  {
    var p := KeepFresh(keys0[..j], stale);
    assert keys0[..j + 1][..j] == keys0[..j];
    assert keys0[..j + 1] == keys0[..j] + [keys0[j]];
    assert keys0[j..] == [keys0[j]] + keys0[j + 1..];
    assert keys[..|p|] == p;
    assert keys[|p| + 1..] == keys0[j + 1..];
  }

  /** `cleanup()` with the skip removed: the index only advances past a key
      that is kept. Every stale key goes, every other key stays, order kept. */
  method Cleanup(storage: SessionStorage, nowMs: nat)
    requires storage.Valid()
    modifies storage
    ensures storage.Valid()
    ensures storage.keys == KeepFresh(old(storage.keys), StaleAt(nowMs / MsPerMinute))
    ensures storage.values == Restrict(old(storage.values), storage.keys)
  {
    var stale := StaleAt(nowMs / MsPerMinute);
    ghost var keys0 := storage.keys;
    ghost var values0 := storage.values;
    var i := 0;
    ghost var j := 0;
    ghost var kept: seq<string> := [];
    assert keys0[..0] == [];
    while i < |storage.keys|
      invariant storage.Valid()
      invariant j <= |keys0|
      invariant kept == KeepFresh(keys0[..j], stale)
      invariant storage.keys == kept + keys0[j..]
      invariant i == |kept|
      invariant storage.values == Restrict(values0, storage.keys)
      decreases |keys0| - j
    {
      KeepFreshStep(keys0, j, stale, storage.keys);
      var gone := RemoveIfStale(storage, i, stale, values0);
      if !gone {
        i := i + 1;
      }
      j := j + 1;
      kept := KeepFresh(keys0[..j], stale);
    }
    assert keys0[..j] == keys0;
  }

  /** `checkLimit(action, limit)`: clean up with the loop as written, then
      count this call. The window argument of the source is never read. For an
      action without `_` the clean-up never touches the current minute's key,
      so the call is allowed exactly when the count it stores is within the
      limit. */
  method CheckLimit(storage: SessionStorage, action: string, limit: int, nowMs: nat) returns (allowed: bool)
    requires storage.Valid()
    modifies storage
    ensures storage.Valid()
    ensures var key := GetKey(action, nowMs);
      var kept := Restrict(old(storage.values), ScanFrom(old(storage.keys), 0, StaleAt(nowMs / MsPerMinute)));
      var c := NextCount(if key in kept then Some(kept[key]) else None);
      && storage.values == kept[key := CountText(c)]
      && allowed == Allows(c, limit)
    ensures var ks := ScanFrom(old(storage.keys), 0, StaleAt(nowMs / MsPerMinute));
      var key := GetKey(action, nowMs);
      storage.keys == (if key in ks then ks else ks + [key])
    ensures '_' !in action ==>
      allowed == Allows(NextCount(old(storage.GetItem(GetKey(action, nowMs)))), limit)
  {
    CleanupAsWritten(storage, nowMs);
    allowed := Increment(storage, action, limit, nowMs);
    if '_' !in action {
      var key := GetKey(action, nowMs);
      StaleKeyIff(action, nowMs, nowMs / MsPerMinute);
      if key in old(storage.keys) {
        ScanFromKeepsFresh(old(storage.keys), 0, StaleAt(nowMs / MsPerMinute), key);
      }
    }
  }

  // ---------------------------------------------------------------- panel limiter

  const MaxOpenAttempts: int := 10
  const TimeWindowMs: int := 60000

  datatype PanelState = PanelState(attempts: int, lastReset: int)

  /** One `checkLimit()` of the related-articles panel: the state after it and
      whether opening is granted. */
  function PanelCheck(s: PanelState, now: int): (r: (PanelState, bool))
    ensures r.1 <==> (if now - s.lastReset > TimeWindowMs then 0 else s.attempts) < MaxOpenAttempts
    ensures r.0.attempts == (if now - s.lastReset > TimeWindowMs then 0 else s.attempts) + (if r.1 then 1 else 0)
    ensures r.0.lastReset == (if now - s.lastReset > TimeWindowMs then now else s.lastReset)
  {
    var s1 := if now - s.lastReset > TimeWindowMs then PanelState(0, now) else s;
    if s1.attempts >= MaxOpenAttempts then (s1, false)
    else (PanelState(s1.attempts + 1, s1.lastReset), true)
  }

  /** Number of grants over a run of calls at the given times. */
  function Grants(s: PanelState, times: seq<int>): nat
    decreases |times|
  {
    if times == [] then 0
    else
      var r := PanelCheck(s, times[0]);
      (if r.1 then 1 else 0) + Grants(r.0, times[1..])
  }

  /** While no call falls more than a window after the last reset, the calls
      are granted until the count reaches ten, and refused from then on. */
  lemma {:induction false} GrantsWithinWindow(s: PanelState, times: seq<int>)
    requires 0 <= s.attempts <= MaxOpenAttempts
    requires forall k :: 0 <= k < |times| ==> times[k] - s.lastReset <= TimeWindowMs
    ensures Grants(s, times) == Min(|times|, MaxOpenAttempts - s.attempts)
    decreases |times|
  {
    if times != [] {
      var r := PanelCheck(s, times[0]);
      assert r.0.lastReset == s.lastReset;
      assert forall k :: 0 <= k < |times[1..]| ==> times[1..][k] == times[k + 1];
      GrantsWithinWindow(r.0, times[1..]);
    }
  }

  /** Once a window has passed since the last reset the next call is granted
      and opens a new window at that call. */
  lemma {:induction false} PanelResetsAfterWindow(s: PanelState, now: int)
    requires now - s.lastReset > TimeWindowMs
    ensures PanelCheck(s, now) == (PanelState(1, now), true)
  {
  }

  /** The related-articles panel's `rateLimiter` object. */
  class PanelRateLimiter {
    var attempts: int
    var lastReset: int

    constructor (nowMs: int)
      ensures attempts == 0 && lastReset == nowMs
    {
      attempts := 0;
      lastReset := nowMs;
    }

    function State(): PanelState
      reads this
    {
      PanelState(attempts, lastReset)
    }

    method CheckLimit(nowMs: int) returns (granted: bool)
      modifies this
      ensures (State(), granted) == PanelCheck(old(State()), nowMs)
    {
      if nowMs - lastReset > TimeWindowMs {
        attempts := 0;
        lastReset := nowMs;
      }
      if attempts >= MaxOpenAttempts {
        return false;
      }
      attempts := attempts + 1;
      return true;
    }
  }
}

=== FILE: sanitize.dfy ===
/** Text clean-up helpers: `sanitizeText`, the tag-class normalisation of the
    post loader (`_sanitizeTagName`), the class given to posts present at page
    load, and the Mastodon instance clean-up of the share handler. */
module Sanitize {
  import opened JsText

  /** Default `maxLength` of `sanitizeText`; every caller uses it. */
  const DefaultMaxLength: nat := 150

  /** `SECURITY.urlPatterns.symbols`: one of `<>'"` and backquote, braces,
      parentheses, square brackets. */
  predicate IsSymbol(c: char)
  {
    c == '<' || c == '>' || c == '\'' || c == '"' || c == '`'
    || c == '{' || c == '}' || c == '(' || c == ')' || c == '[' || c == ']'
  }

  function CountSymbols(s: string): nat
  {
    if s == [] then 0 else (if IsSymbol(s[0]) then 1 else 0) + CountSymbols(s[1..])
  }

  /** ASCII case folding, as the `i` flag of a non-Unicode regular expression
      applies it to an ASCII pattern (no non-ASCII character folds onto ASCII). */
  function FoldAscii(c: char): char
  {
    if 'A' <= c <= 'Z' then (c as int + 32) as char else c
  }

  /** Does the lower-case ASCII pattern `p` match case-insensitively at the start of `s`? */
  predicate PrefixCI(s: string, p: string)
  {
    |p| <= |s| && forall k :: 0 <= k < |p| ==> FoldAscii(s[k]) == p[k]
  }

  /** The alternatives of `SECURITY.urlPatterns.dangerous`, in source order. */
  const DangerousSchemes: seq<string> :=
    ["javascript:", "data:", "vbscript:", "file:", "blob:", "ftp:", "ws:", "wss:"]

  /** Length of the first alternative of `dangerous` (from index `j` on) that
      matches at the start of `s`; 0 when none does. */
  function SchemeFrom(s: string, j: nat): (n: nat)
    ensures n > 0 ==> exists k :: j <= k < |DangerousSchemes| && n == |DangerousSchemes[k]| && PrefixCI(s, DangerousSchemes[k])
    ensures n == 0 ==> forall k :: j <= k < |DangerousSchemes| ==> !PrefixCI(s, DangerousSchemes[k])
    decreases |DangerousSchemes| - j
  {
    if j >= |DangerousSchemes| then 0
    else if PrefixCI(s, DangerousSchemes[j]) then |DangerousSchemes[j]|
    else SchemeFrom(s, j + 1)
  }

  function SchemeAtStart(s: string): (n: nat)
    ensures n <= |s|
  {
    SchemeFrom(s, 0)
  }

  /** No alternative of `dangerous` matches anywhere in `s`. */
  predicate NoScheme(s: string)
  {
    forall i :: 0 <= i < |s| ==> SchemeAtStart(s[i..]) == 0
  }

  /** A regular expression without the `g` flag, seen from one position:
      the length of the match starting at the first character of its argument,
      0 when there is none. A match never runs past the end of the text. */
  type Matcher = at: string -> nat | forall x :: at(x) <= |x| witness (x: string) => 0

  /** `s.replace(re, '')` for a regular expression without the `g` flag:
      the leftmost match is cut out, and the rest of the text is kept. */
  function ReplaceFirst(s: string, at: Matcher): (r: string)
    ensures |r| <= |s|
  {
    if s == [] then []
    else if at(s) > 0 then s[at(s)..]
    else [s[0]] + ReplaceFirst(s[1..], at)
  }

  /** When the leftmost match starts at `p`, exactly that match is cut out and
      everything before and after it is kept. */
  lemma {:induction false} ReplaceFirstAt(s: string, p: nat, at: Matcher)
    requires p < |s| && at(s[p..]) > 0
    requires forall i :: 0 <= i < p ==> at(s[i..]) == 0
    ensures ReplaceFirst(s, at) == s[..p] + s[p + at(s[p..])..]
  {
    assert s[0..] == s;
    if p > 0 {
      var t := s[1..];
      assert t[p - 1..] == s[p..];
      forall i | 0 <= i < p - 1
        ensures at(t[i..]) == 0
      {
        assert t[i..] == s[i + 1..];
      }
      ReplaceFirstAt(t, p - 1, at);
      assert [s[0]] + t[..p - 1] == s[..p];
    }
  }

  /** Text in which the expression matches nowhere comes back unchanged. */
  lemma {:induction false} ReplaceFirstOfNoMatch(s: string, at: Matcher)
    requires forall i :: 0 <= i < |s| ==> at(s[i..]) == 0
    ensures ReplaceFirst(s, at) == s
  {
    if s != [] {
      assert s[0..] == s;
      forall i | 0 <= i < |s| - 1
        ensures at(s[1..][i..]) == 0
      {
        assert s[1..][i..] == s[i + 1..];
      }
      ReplaceFirstOfNoMatch(s[1..], at);
      assert [s[0]] + s[1..] == s;
    }
  }

  /** `s.replace(dangerous, '')`: only the leftmost dangerous scheme is
      removed. */
  function RemoveFirstScheme(s: string): (r: string)
    ensures |r| <= |s|
  {
    ReplaceFirst(s, SchemeAtStart)
  }

  lemma {:induction false} RemoveFirstSchemeOfNoScheme(s: string)
    requires NoScheme(s)
    ensures RemoveFirstScheme(s) == s
  {
    ReplaceFirstOfNoMatch(s, SchemeAtStart);
  }

  /** A repeated scheme survives: only the first copy is removed. */
  lemma {:induction false} RemoveFirstSchemeLeavesRepeat()
    ensures RemoveFirstScheme("javascript:javascript:x") == "javascript:x"
  {
    var s := "javascript:javascript:x";
    assert PrefixCI(s, DangerousSchemes[0]);
    assert SchemeAtStart(s) == 11;
  }

  /** `s.replace(symbols, '')`: only the first symbol is removed. */
  function RemoveFirstSymbol(s: string): (r: string)
    ensures |r| == |s| - (if CountSymbols(s) > 0 then 1 else 0)
  {
    if s == [] then []
    else if IsSymbol(s[0]) then s[1..]
    else [s[0]] + RemoveFirstSymbol(s[1..])
  }

  /** The symbol removed is the leftmost one: the text before it and the text
      after it are kept, in order. */
  lemma {:induction false} RemoveFirstSymbolAt(s: string, p: nat)
    requires p < |s| && IsSymbol(s[p])
    requires forall i :: 0 <= i < p ==> !IsSymbol(s[i])
    ensures RemoveFirstSymbol(s) == s[..p] + s[p + 1..]
  {
    if p > 0 {
      assert !IsSymbol(s[0]);
      RemoveFirstSymbolAt(s[1..], p - 1);
      assert s[..p] == [s[0]] + s[1..][..p - 1];
      assert s[p + 1..] == s[1..][p..];
    }
  }

  /** `s.slice(0, n)`. */
  function Take(s: string, n: nat): (r: string)
    ensures |r| == if |s| <= n then |s| else n
    ensures r == s[..|r|]
  {
    if |s| <= n then s else s[..n]
  }

  /** `sanitizeText(text, maxLength)`: empty text gives ''; otherwise the text is
      cut to `maxLength` characters, then the first dangerous scheme and then the
      first symbol are removed. */
  function SanitizeText(text: string, maxLength: nat): (r: string)
    ensures |r| <= maxLength && |r| <= |text|
  {
    if text == [] then [] else RemoveFirstSymbol(RemoveFirstScheme(Take(text, maxLength)))
  }

  lemma {:induction false} CountSymbolsAppend(a: string, b: string)
    ensures CountSymbols(a + b) == CountSymbols(a) + CountSymbols(b)
  {
    if a != [] {
      assert (a + b)[1..] == a[1..] + b;
      CountSymbolsAppend(a[1..], b);
    } else {
      assert a + b == b;
    }
  }

  lemma {:induction false} NoSymbolCharsCount(s: string)
    requires forall i :: 0 <= i < |s| ==> !IsSymbol(s[i])
    ensures CountSymbols(s) == 0
  {
    if s != [] {
      NoSymbolCharsCount(s[1..]);
    }
  }

  lemma {:induction false} RemoveFirstSymbolCount(s: string)
    ensures CountSymbols(RemoveFirstSymbol(s)) == if CountSymbols(s) == 0 then 0 else CountSymbols(s) - 1
  {
    if s != [] && !IsSymbol(s[0]) {
      RemoveFirstSymbolCount(s[1..]);
      assert ([s[0]] + RemoveFirstSymbol(s[1..]))[1..] == RemoveFirstSymbol(s[1..]);
    }
  }

  /** A matched scheme is made of letters and a colon, never a symbol. */
  lemma {:induction false} SchemeHasNoSymbol(s: string)
    ensures CountSymbols(s[..SchemeAtStart(s)]) == 0
  {
    var n := SchemeAtStart(s);
    if n > 0 {
      var k :| 0 <= k < |DangerousSchemes| && n == |DangerousSchemes[k]| && PrefixCI(s, DangerousSchemes[k]);
      SchemeIsLetters(k);
      NoSymbolWhenFolded(s[..n], DangerousSchemes[k]);
    }
  }

  lemma {:induction false} SchemeIsLetters(k: nat)
    requires k < |DangerousSchemes|
    ensures forall i :: 0 <= i < |DangerousSchemes[k]| ==> ('a' <= DangerousSchemes[k][i] <= 'z' || DangerousSchemes[k][i] == ':')
  {
  }

  lemma {:induction false} NoSymbolWhenFolded(t: string, p: string)
    requires |t| == |p| && forall k :: 0 <= k < |p| ==> FoldAscii(t[k]) == p[k]
    requires forall k :: 0 <= k < |p| ==> ('a' <= p[k] <= 'z' || p[k] == ':')
    ensures CountSymbols(t) == 0
  {
    if t != [] {
      NoSymbolWhenFolded(t[1..], p[1..]);
    }
  }

  lemma {:induction false} RemoveFirstSchemeKeepsSymbols(s: string)
    ensures CountSymbols(RemoveFirstScheme(s)) == CountSymbols(s)
  {
    if s != [] {
      var n := SchemeAtStart(s);
      if n > 0 {
        SchemeHasNoSymbol(s);
        assert s == s[..n] + s[n..];
        CountSymbolsAppend(s[..n], s[n..]);
      } else {
        RemoveFirstSchemeKeepsSymbols(s[1..]);
        assert ([s[0]] + RemoveFirstScheme(s[1..]))[1..] == RemoveFirstScheme(s[1..]);
      }
    }
  }

  /** The symbol pattern has no `g` flag: of the symbols in the truncated text,
      exactly one is removed when there is any. */
  lemma {:induction false} SanitizeTextSymbolCount(text: string, maxLength: nat)
    ensures var t := Take(text, maxLength);
      CountSymbols(SanitizeText(text, maxLength)) == if CountSymbols(t) == 0 then 0 else CountSymbols(t) - 1
  {
    var t := Take(text, maxLength);
    if text != [] {
      RemoveFirstSchemeKeepsSymbols(t);
      RemoveFirstSymbolCount(RemoveFirstScheme(t));
    }
  }

  /** Short text with no symbol and no dangerous scheme comes back unchanged. */
  lemma {:induction false} SanitizeTextOfCleanText(text: string, maxLength: nat)
    requires |text| <= maxLength && CountSymbols(text) == 0 && NoScheme(text)
    ensures SanitizeText(text, maxLength) == text
  {
    if text != [] {
      RemoveFirstSchemeOfNoScheme(text);
      RemoveFirstSymbolOfNoSymbol(text);
    }
  }

  lemma {:induction false} RemoveFirstSymbolOfNoSymbol(s: string)
    requires CountSymbols(s) == 0
    ensures RemoveFirstSymbol(s) == s
  {
    if s != [] {
      RemoveFirstSymbolOfNoSymbol(s[1..]);
      assert [s[0]] + s[1..] == s;
    }
  }

  // ---------------------------------------------------------------------------
  // Tag classes

  /** The characters `/[^a-z0-9-]/` leaves alone. */
  predicate IsTagChar(c: char)
  {
    ('a' <= c <= 'z') || ('0' <= c <= '9') || c == '-'
  }

  predicate IsTagClass(s: string)
  {
    forall i :: 0 <= i < |s| ==> IsTagChar(s[i])
  }

  /** `s.replace(/[^a-z0-9-]/g, '-')`. */
  function ReplaceNonTagChars(s: string): (r: string)
    ensures |r| == |s| && IsTagClass(r)
    ensures forall i :: 0 <= i < |s| ==> (IsTagChar(s[i]) ==> r[i] == s[i]) && (!IsTagChar(s[i]) ==> r[i] == '-')
  {
    seq(|s|, i requires 0 <= i < |s| => if IsTagChar(s[i]) then s[i] else '-')
  }

  /** `_sanitizeTagName(tagName)`: trim, lower-case, then every character outside
      `[a-z0-9-]` becomes a hyphen. */
  function SanitizeTagName(tagName: string): (r: string)
    ensures IsTagClass(r)
  {
    ReplaceNonTagChars(ToLower(Trim(tagName)))
  }

  /** Number of LATIN CAPITAL LETTER I WITH DOT ABOVE, the one character whose
      lower case takes two code units. */
  function CountDottedI(s: string): nat
  {
    if s == [] then 0 else (if s[0] == '\U{130}' then 1 else 0) + CountDottedI(s[1..])
  }

  lemma {:induction false} ToLowerLength(s: string)
    ensures |ToLower(s)| == |s| + CountDottedI(s)
  {
    if s != [] {
      ToLowerLength(s[1..]);
    }
  }

  /** The class is as long as the trimmed text plus one per dotted capital I;
      for ASCII labels, exactly as long as the trimmed text. */
  lemma {:induction false} SanitizeTagNameLength(tagName: string)
    ensures |SanitizeTagName(tagName)| == |Trim(tagName)| + CountDottedI(Trim(tagName))
  {
    ToLowerLength(Trim(tagName));
  }

  lemma {:induction false} ToLowerOfTagClass(s: string)
    requires IsTagClass(s)
    ensures ToLower(s) == s
  {
    if s != [] {
      ToLowerOfTagClass(s[1..]);
      assert [s[0]] + s[1..] == s;
    }
  }

  /** A string of `[a-z0-9-]` (such as a filter id) is its own tag class. */
  lemma {:induction false} SanitizeTagNameOfTagClass(s: string)
    requires IsTagClass(s)
    ensures SanitizeTagName(s) == s
  {
    TrimOfTrimmed(s);
    ToLowerOfTagClass(s);
  }

  /** Normalising twice is normalising once. */
  lemma {:induction false} SanitizeTagNameIdempotent(tagName: string)
    ensures SanitizeTagName(SanitizeTagName(tagName)) == SanitizeTagName(tagName)
  {
    SanitizeTagNameOfTagClass(SanitizeTagName(tagName));
  }

  /** The class given at page load to a post already on the page: the text is
      passed through `sanitizeText` before the same normalisation. */
  function InitialTagClass(text: string): (r: string)
    ensures IsTagClass(r)
  {
    SanitizeTagName(SanitizeText(text, DefaultMaxLength))
  }

  /** For a short text with no symbol and no scheme, page-load posts and loaded
      posts get the same class. */
  lemma {:induction false} InitialTagClassOfCleanLabel(text: string)
    requires |text| <= DefaultMaxLength && CountSymbols(text) == 0 && NoScheme(text)
    ensures InitialTagClass(text) == SanitizeTagName(text)
  {
    SanitizeTextOfCleanText(text, DefaultMaxLength);
  }

  /** Every alternative of `dangerous` ends with a colon, so text without a
      colon has no dangerous scheme. */
  lemma {:induction false} NoColonNoScheme(s: string)
    requires ':' !in s
    ensures NoScheme(s)
  {
    forall i, k | 0 <= i < |s| && 0 <= k < |DangerousSchemes|
      ensures !PrefixCI(s[i..], DangerousSchemes[k])
    {
      var p := DangerousSchemes[k];
      assert |p| >= 1 && p[|p| - 1] == ':';
      if |p| <= |s[i..]| {
        var c := s[i + |p| - 1];
        assert c in s;
        assert s[i..][|p| - 1] == c && FoldAscii(c) != ':';
      }
    }
  }

  /** The same text can give a page-load post and a loaded post different
      classes: with a parenthesis in front of a filter id, only the page-load
      post gets the filter's class. */
  lemma {:induction false} InitialTagClassCanDiffer(id: string)
    requires IsTagClass(id) && |id| < DefaultMaxLength
    ensures InitialTagClass("(" + id) == id
    ensures SanitizeTagName("(" + id) == "-" + id
  {
    var s := "(" + id;
    assert ':' !in s by {
      assert forall i :: 0 <= i < |id| ==> s[i + 1] == id[i];
    }
    NoColonNoScheme(s);
    RemoveFirstSchemeOfNoScheme(s);
    assert s[1..] == id;
    assert SanitizeText(s, DefaultMaxLength) == id;
    SanitizeTagNameOfTagClass(id);
    TrimOfParenthesised(id);
    ToLowerOfParenthesised(id);
    ReplaceOfParenthesised(id);
  }

  lemma {:induction false} TrimOfParenthesised(id: string)
    requires IsTagClass(id)
    ensures Trim("(" + id) == "(" + id
  {
    var s := "(" + id;
    assert !IsSpace(s[0]);
    assert !IsSpace(s[|s| - 1]) by {
      if id != [] {
        assert s[|s| - 1] == id[|id| - 1] && IsTagChar(id[|id| - 1]);
      }
    }
    TrimOfTrimmed(s);
  }

  lemma {:induction false} ToLowerOfParenthesised(id: string)
    requires IsTagClass(id)
    ensures ToLower("(" + id) == "(" + id
  {
    assert ("(" + id)[1..] == id;
    ToLowerOfTagClass(id);
  }

  lemma {:induction false} ReplaceOfParenthesised(id: string)
    requires IsTagClass(id)
    ensures ReplaceNonTagChars("(" + id) == "-" + id
  {
    var s := "(" + id;
    var r := ReplaceNonTagChars(s);
    assert |r| == |"-" + id|;
    forall i | 0 <= i < |r| ensures r[i] == ("-" + id)[i] {
      if i > 0 {
        assert s[i] == id[i - 1];
      }
    }
  }

  // ---------------------------------------------------------------------------
  // Mastodon instance

  /** `.replace(/^https?:\/\//, '')`. */
  function StripScheme(s: string): (r: string)
    ensures |r| <= |s| && r == s[|s| - |r|..]
    ensures r == s <==> !StartsWith(s, "https://") && !StartsWith(s, "http://")
  {
    if StartsWith(s, "https://") then s[8..]
    else if StartsWith(s, "http://") then s[7..]
    else s
  }

  /** A leading `https://` or `http://`, in lower case, is removed and
      nothing else is. */
  lemma {:induction false} StripSchemeOfUrl(rest: string)
    ensures StripScheme("https://" + rest) == rest
    ensures StripScheme("http://" + rest) == rest
  {
    var a := "https://" + rest;
    var b := "http://" + rest;
    assert a[..8] == "https://";
    assert b[..7] == "http://";
    if |b| >= 8 {
      assert b[..8][4] == ':';
    }
  }

  /** `.replace(/\/$/, '')`: one trailing slash. */
  function StripTrailingSlash(s: string): (r: string)
    ensures |r| == (if s != [] && s[|s| - 1] == '/' then |s| - 1 else |s|)
    ensures r == s[..|r|]
  {
    if s != [] && s[|s| - 1] == '/' then s[..|s| - 1] else s
  }

  /** `.replace(/[<>'"`{}()\[\]]/g, '')`: every symbol. */
  function RemoveSymbols(s: string): (r: string)
    ensures |r| == |s| - CountSymbols(s)
    ensures forall i :: 0 <= i < |r| ==> !IsSymbol(r[i])
  {
    if s == [] then []
    else if IsSymbol(s[0]) then RemoveSymbols(s[1..])
    else [s[0]] + RemoveSymbols(s[1..])
  }

  /** The instance name stored and used for sharing to Mastodon. */
  function CleanInstance(instance: string): (r: string)
    ensures |r| <= |instance|
    ensures forall i :: 0 <= i < |r| ==> !IsSymbol(r[i])
  {
    RemoveSymbols(StripTrailingSlash(StripScheme(instance)))
  }

  lemma {:induction false} RemoveSymbolsOfNoSymbol(s: string)
    requires CountSymbols(s) == 0
    ensures RemoveSymbols(s) == s
  {
    if s != [] {
      RemoveSymbolsOfNoSymbol(s[1..]);
      assert [s[0]] + s[1..] == s;
    }
  }

  /** A bare host name without symbols or trailing slash is kept as typed. */
  lemma {:induction false} CleanInstanceOfBareHost(instance: string)
    requires !StartsWith(instance, "http://") && !StartsWith(instance, "https://")
    requires instance == [] || instance[|instance| - 1] != '/'
    requires CountSymbols(instance) == 0
    ensures CleanInstance(instance) == instance
  {
    RemoveSymbolsOfNoSymbol(instance);
  }

  /** A full URL loses its scheme and one trailing slash. */
  lemma {:induction false} CleanInstanceOfUrl(host: string)
    requires CountSymbols(host) == 0
    ensures CleanInstance("https://" + host + "/") == host
  {
    var s := "https://" + host + "/";
    assert StartsWith(s, "https://");
    assert s[8..] == host + "/";
    assert StripTrailingSlash(host + "/") == host;
    RemoveSymbolsOfNoSymbol(host);
  }

  /** The scheme is stripped before the symbols, so a scheme hidden behind a
      symbol survives. */
  lemma {:induction false} CleanInstanceCanKeepScheme(host: string)
    requires CountSymbols(host) == 0 && host != [] && host[|host| - 1] != '/'
    ensures CleanInstance("(https://" + host) == "https://" + host
  {
    var s := "(https://" + host;
    NoSchemeBehindParenthesis(host);
    NoTrailingSlashBehindParenthesis(host);
    SymbolsBehindParenthesis(host);
    assert CleanInstance(s) == RemoveSymbols(StripTrailingSlash(StripScheme(s)));
  }

  lemma {:induction false} NoTrailingSlashBehindParenthesis(host: string)
    requires host != [] && host[|host| - 1] != '/'
    ensures StripTrailingSlash("(https://" + host) == "(https://" + host
  {
    var s := "(https://" + host;
    assert s[|s| - 1] == host[|host| - 1];
  }

  lemma {:induction false} NoSchemeBehindParenthesis(host: string)
    ensures StripScheme("(https://" + host) == "(https://" + host
  {
    var s := "(https://" + host;
    assert s[..8][0] == '(' && s[..7][0] == '(';
  }

  lemma {:induction false} SymbolsBehindParenthesis(host: string)
    requires CountSymbols(host) == 0
    ensures RemoveSymbols("(https://" + host) == "https://" + host
  {
    var s := "(https://" + host;
    assert s[1..] == "https://" + host;
    assert RemoveSymbols(s) == RemoveSymbols(s[1..]);
    CountSymbolsAppend("https://", host);
    RemoveSymbolsOfNoSymbol("https://" + host);
  }


}

=== FILE: testimonials.dfy ===
/** The testimonial rotator: an order of the testimonials drawn by a
    Fisher–Yates shuffle, walked through one at a time and drawn again each
    time it has been shown in full. `Math.random` is replaced by the draws it
    would have made: `js[i]` is the index chosen at step `i`, at most `i`. */
module Testimonials {

  /** Number of entries in the configured testimonial list. */
  const TestimonialCount: nat := 16

  /** `Array.from({ length: n }, (_, i) => i)`. */
  function Range(n: nat): (r: seq<int>)
    ensures |r| == n && forall i :: 0 <= i < n ==> r[i] == i
  {
    seq(n, i => i)
  }

  /** Whether `s` holds each of `0 .. |s| - 1` exactly once. */
  ghost predicate IsPermutationOfRange(s: seq<int>)
  {
    multiset(s) == multiset(Range(|s|))
  }

  /** Draws a shuffle of an array of length `n` may use. */
  predicate ValidDraws(js: seq<nat>, n: nat)
  {
    |js| == n && forall i :: 0 < i < |js| ==> js[i] <= i
  }

  /** `[array[i], array[j]] = [array[j], array[i]]` on a sequence. */
  function Swap(s: seq<int>, i: nat, j: nat): (r: seq<int>)
    requires i < |s| && j < |s|
    ensures |r| == |s| && r[i] == s[j] && r[j] == s[i]
    ensures forall k :: 0 <= k < |s| && k != i && k != j ==> r[k] == s[k]
  {
    s[i := s[j]][j := s[i]]
  }

  /** The steps `i, i - 1, ..., 1` of the shuffle applied to `s`. */
  function ShuffledFrom(s: seq<int>, js: seq<nat>, i: nat): (r: seq<int>)
    requires ValidDraws(js, |s|) && i < |s|
    ensures |r| == |s|
    decreases i
  {
    if i == 0 then s else ShuffledFrom(Swap(s, i, js[i]), js, i - 1)
  }

  /** `shuffleArray(array)` with the draws `js`. */
  function Shuffled(s: seq<int>, js: seq<nat>): (r: seq<int>)
    requires ValidDraws(js, |s|)
    ensures |r| == |s|
    ensures multiset(r) == multiset(s)
  {
    if s == [] then s
    else
      ShuffledFromPermutes(s, js, |s| - 1);
      ShuffledFrom(s, js, |s| - 1)
  }

  lemma {:induction false} ShuffledFromPermutes(s: seq<int>, js: seq<nat>, i: nat)
    requires ValidDraws(js, |s|) && i < |s|
    ensures multiset(ShuffledFrom(s, js, i)) == multiset(s)
    decreases i
  {
    if i > 0 {
      var t := Swap(s, i, js[i]);
      assert multiset(t) == multiset(s) by {
        assert s[i := s[js[i]]][js[i] := s[i]] == t;
      }
      ShuffledFromPermutes(t, js, i - 1);
    }
  }

  /** Whatever the draws, the shuffle only reorders the array. */
  lemma {:induction false} ShuffledPermutes(s: seq<int>, js: seq<nat>)
    requires ValidDraws(js, |s|)
    ensures multiset(Shuffled(s, js)) == multiset(s)
  {
    if s != [] {
      ShuffledFromPermutes(s, js, |s| - 1);
    }
  }

  /** Steps `i` down to 1 leave every position above `i` alone. */
  lemma {:induction false} ShuffledFromKeepsAbove(s: seq<int>, js: seq<nat>, i: nat, k: nat)
    requires ValidDraws(js, |s|) && i < k < |s|
    ensures ShuffledFrom(s, js, i)[k] == s[k]
    decreases i
  {
    if i > 0 {
      ShuffledFromKeepsAbove(Swap(s, i, js[i]), js, i - 1, k);
    }
  }

  /** The last position is settled by the first draw: it receives the
      element the draw picked and keeps it. */
  lemma {:induction false} ShuffledLast(s: seq<int>, js: seq<nat>)
    requires ValidDraws(js, |s|) && |s| >= 2
    ensures Shuffled(s, js)[|s| - 1] == s[js[|s| - 1]]
  {
    var n := |s|;
    ShuffledFromKeepsAbove(Swap(s, n - 1, js[n - 1]), js, n - 2, n - 1);
  }

  /** `shuffleArray`, in place. */
  method Shuffle(a: array<int>, js: seq<nat>)
    requires ValidDraws(js, a.Length)
    modifies a
    ensures a[..] == Shuffled(old(a[..]), js)
  {
    if a.Length == 0 {
      return;
    }
    var i := a.Length - 1;
    while i > 0
      invariant 0 <= i < a.Length
      invariant ShuffledFrom(a[..], js, i) == Shuffled(old(a[..]), js)
    {
      var j := js[i];
      ghost var before := a[..];
      a[i], a[j] := a[j], a[i];
      assert a[..] == Swap(before, i, j);
      i := i - 1;
    }
  }

  lemma {:induction false} RangeCount(n: nat, x: int)
    ensures multiset(Range(n))[x] == if 0 <= x < n then 1 else 0
  {
    if n > 0 {
      assert Range(n) == Range(n - 1) + [n - 1];
      RangeCount(n - 1, x);
    }
  }

  /** Shuffling an order of the testimonials gives an order of them again. */
  lemma {:induction false} ShuffledPermutationOfRange(s: seq<int>, js: seq<nat>)
    requires ValidDraws(js, |s|) && IsPermutationOfRange(s)
    ensures IsPermutationOfRange(Shuffled(s, js))
  {
    ShuffledPermutes(s, js);
  }

  /** In an order of the testimonials every testimonial occurs exactly once
      and every entry names one, so a full round shows each of them once. */
  lemma {:induction false} RoundShowsEachOnce(s: seq<int>)
    requires IsPermutationOfRange(s)
    ensures forall x :: 0 <= x < |s| ==> multiset(s)[x] == 1
    ensures forall k :: 0 <= k < |s| ==> 0 <= s[k] < |s|
  {
    forall x | 0 <= x < |s| ensures multiset(s)[x] == 1 {
      RangeCount(|s|, x);
    }
    forall k | 0 <= k < |s| ensures 0 <= s[k] < |s| {
      assert s[k] in multiset(s);
      RangeCount(|s|, s[k]);
    }
  }

  /** The state kept by `initTestimonials`: the shuffled `indices` and
      `currentIndex`. */
  class Rotator {
    var indices: array<int>
    var current: nat

    ghost predicate Valid()
      reads this, indices
    {
      indices.Length == TestimonialCount && current < indices.Length && IsPermutationOfRange(indices[..])
    }

    /** The initial order and the initial shuffle. */
    constructor(js: seq<nat>)
      requires ValidDraws(js, TestimonialCount)
      ensures Valid() && fresh(indices)
      ensures current == 0 && indices[..] == Shuffled(Range(TestimonialCount), js)
    {
      var a := new int[TestimonialCount](i => i);
      assert a[..] == Range(TestimonialCount);
      Shuffle(a, js);
      ShuffledPermutationOfRange(Range(TestimonialCount), js);
      indices := a;
      current := 0;
    }

    /** The testimonial on show. */
    function Shown(): (t: int)
      reads this, indices
      requires Valid()
      ensures 0 <= t < TestimonialCount
    {
      RoundShowsEachOnce(indices[..]);
      indices[current]
    }

    /** The end of `updateTestimonial`: move to the next position, and shuffle
        again once the whole order has been shown. */
    method Advance(js: seq<nat>)
      requires Valid() && ValidDraws(js, TestimonialCount)
      modifies this, indices
      ensures Valid() && indices == old(indices)
      ensures current == (old(current) + 1) % TestimonialCount
      ensures current == 0 ==> indices[..] == Shuffled(old(indices[..]), js)
      ensures current != 0 ==> indices[..] == old(indices[..])
    {
      current := (current + 1) % indices.Length;
      if current == 0 {
        ShuffledPermutationOfRange(indices[..], js);
        Shuffle(indices, js);
      }
    }
  }
}

=== FILE: weather.dfy ===
/** The weather widget's reading of a WMO weather code: one word for the
    condition, and the icon shown beside the temperature. */
module Weather {
  import opened Base

  /** `weatherMap`, in the order its entries are listed: each word with the
      weather codes it stands for. */
  const WeatherMap: seq<(string, seq<int>)> := [
    ("sunny", [0, 1]),
    ("partly cloudy", [2]),
    ("cloudy", [3]),
    ("foggy", [45, 48]),
    ("drizzle", [51, 53, 55]),
    ("rain", [61, 63, 65, 80, 81, 82]),
    ("snow", [71, 73, 75, 77, 85, 86]),
    ("thunderstorm", [95, 96, 99])
  ]

  /** The keys of `WEATHER_ICONS`; each stands for its SVG template. */
  const IconKeys: set<string> := {"sunny", "cloudy", "partly cloudy", "rainy", "drizzle", "snow", "foggy"}

  /** The word of the first entry whose codes include `code`, if any. */
  function FirstBucket(buckets: seq<(string, seq<int>)>, code: int): (r: Option<string>)
    ensures r.Some? ==> exists i :: 0 <= i < |buckets| && r.value == buckets[i].0
  {
    if buckets == [] then None
    else if code in buckets[0].1 then Some(buckets[0].0)
    else
      var r := FirstBucket(buckets[1..], code);
      if r.Some? then
        var i :| 0 <= i < |buckets[1..]| && r.value == buckets[1..][i].0;
        assert buckets[i + 1].0 == r.value;
        r
      else r
  }

  /** The search stops at the first entry that lists the code. */
  lemma {:induction false} FirstBucketIsFirst(buckets: seq<(string, seq<int>)>, code: int, i: nat)
    requires i < |buckets| && code in buckets[i].1
    requires forall j :: 0 <= j < i ==> code !in buckets[j].1
    ensures FirstBucket(buckets, code) == Some(buckets[i].0)
  {
    if i > 0 {
      assert code !in buckets[0].1;
      forall j | 0 <= j < i - 1 ensures code !in buckets[1..][j].1 {
        assert buckets[1..][j] == buckets[j + 1];
      }
      FirstBucketIsFirst(buckets[1..], code, i - 1);
    }
  }

  /** A code no entry lists is not found. */
  lemma {:induction false} FirstBucketOfUnlisted(buckets: seq<(string, seq<int>)>, code: int)
    requires forall j :: 0 <= j < |buckets| ==> code !in buckets[j].1
    ensures FirstBucket(buckets, code) == None
  {
    if buckets != [] {
      assert code !in buckets[0].1;
      forall j | 0 <= j < |buckets| - 1 ensures code !in buckets[1..][j].1 {
        assert buckets[1..][j] == buckets[j + 1];
      }
      FirstBucketOfUnlisted(buckets[1..], code);
    }
  }

  /** `getOneWordWeather(code)`: the first word whose codes include `code`,
      `cloudy` when none does. */
  function OneWordWeather(code: int): (w: string)
    ensures w == "cloudy" || exists i :: 0 <= i < |WeatherMap| && w == WeatherMap[i].0
  {
    match FirstBucket(WeatherMap, code)
    case Some(w) => w
    case None => "cloudy"
  }

  /** No code is listed under two words, so the order of `weatherMap` does not
      matter: every listed code reads as the word it is listed under. */
  lemma {:induction false} OneWordWeatherOfListed(code: int, i: nat)
    requires i < |WeatherMap| && code in WeatherMap[i].1
    ensures OneWordWeather(code) == WeatherMap[i].0
  {
    forall j | 0 <= j < i ensures code !in WeatherMap[j].1 {
      assert code !in WeatherMap[j].1;
    }
    FirstBucketIsFirst(WeatherMap, code, i);
  }

  /** Every code that no entry lists reads as `cloudy`. */
  lemma {:induction false} OneWordWeatherOfUnlisted(code: int)
    requires forall j :: 0 <= j < |WeatherMap| ==> code !in WeatherMap[j].1
    ensures OneWordWeather(code) == "cloudy"
  {
    FirstBucketOfUnlisted(WeatherMap, code);
  }

  /** `WEATHER_ICONS[condition] || WEATHER_ICONS.cloudy`, naming the template
      chosen by its key. */
  function IconFor(condition: string): (key: string)
    ensures key in IconKeys
    ensures key == condition || key == "cloudy"
    ensures condition in IconKeys <==> key == condition
  {
    if condition in IconKeys then condition else "cloudy"
  }

  /** Rain has no icon of its own under the word `getOneWordWeather` gives
      it (the icon key is `rainy`), so a rain code shows the cloud. */
  lemma {:induction false} RainShowsCloudIcon(code: int)
    requires code in WeatherMap[5].1
    ensures OneWordWeather(code) == "rain"
    ensures IconFor(OneWordWeather(code)) == "cloudy"
  {
    OneWordWeatherOfListed(code, 5);
  }

  /** Likewise a thunderstorm code, for which no icon exists at all. */
  lemma {:induction false} ThunderstormShowsCloudIcon(code: int)
    requires code in WeatherMap[7].1
    ensures OneWordWeather(code) == "thunderstorm"
    ensures IconFor(OneWordWeather(code)) == "cloudy"
  {
    OneWordWeatherOfListed(code, 7);
  }

  /** The icon lookup with the word `rain` read as the key `rainy`. */
  function IntendedIconFor(condition: string): (key: string)
    ensures key in IconKeys
    ensures condition == "rain" ==> key == "rainy"
    ensures condition != "rain" ==> key == IconFor(condition)
  {
    IconFor(if condition == "rain" then "rainy" else condition)
  }

  /** With that reading every word but `thunderstorm` gets an icon of its
      own, and the cloud stands only for cloudy weather and the codes
      without an entry. */
  lemma {:induction false} IntendedIconOfListed(code: int, i: nat)
    requires i < |WeatherMap| && code in WeatherMap[i].1
    ensures WeatherMap[i].0 != "thunderstorm" ==> IntendedIconFor(OneWordWeather(code)) != "cloudy" || WeatherMap[i].0 == "cloudy"
    ensures WeatherMap[i].0 == "rain" ==> IntendedIconFor(OneWordWeather(code)) == "rainy"
  {
    OneWordWeatherOfListed(code, i);
  }
}

=== FILE: widgets.dfy ===
/** Two small widgets that keep their state in the page: the monthly/yearly
    price toggle and the stack of related-article cards. */
module Widgets {
  import opened Base

  /** `['yearly', 'monthly'].includes(priceType)` for a `data-price`
      attribute that may be absent. */
  predicate IsPriceType(price: Option<string>)
  {
    price == Some("yearly") || price == Some("monthly")
  }

  /** The price toggle: the `data-price` attribute of each button, whether
      each button has the class `active` and `aria-checked="true"`, whether
      each yearly and each monthly element is displayed (its `aria-hidden` is
      always the opposite), and the toggle's `data-active-price`. */
  class PriceToggle {
    const prices: seq<Option<string>>
    const active: array<bool>
    const checked: array<bool>
    const yearlyShown: array<bool>
    const monthlyShown: array<bool>
    var activePrice: Option<string>

    ghost predicate Valid()
    {
      active.Length == |prices| && checked.Length == |prices|
      && active != checked && active != yearlyShown && active != monthlyShown
      && checked != yearlyShown && checked != monthlyShown && yearlyShown != monthlyShown
    }

    /** Button `b` alone is active and checked. */
    ghost predicate Selected(b: nat)
      reads active, checked
      requires Valid()
    {
      forall k :: 0 <= k < |prices| ==> active[k] == (k == b) && checked[k] == (k == b)
    }

    /** Every yearly element is displayed exactly when `yearly` holds, and
        every monthly element exactly when it does not. */
    ghost predicate Showing(yearly: bool)
      reads yearlyShown, monthlyShown
    {
      (forall e :: 0 <= e < yearlyShown.Length ==> yearlyShown[e] == yearly)
      && (forall e :: 0 <= e < monthlyShown.Length ==> monthlyShown[e] == !yearly)
    }

    /** The state every accepted click leaves behind: one button selected,
        its price recorded on the toggle and the matching prices displayed. */
    ghost predicate Settled()
      reads this, active, checked, yearlyShown, monthlyShown
      requires Valid()
    {
      exists b :: 0 <= b < |prices| && IsPriceType(prices[b]) && activePrice == prices[b]
        && Selected(b) && Showing(prices[b] == Some("yearly"))
    }

    /** `initPriceToggle`: every button gets `aria-checked="false"`; the
        classes and the displayed prices are whatever the page starts with. */
    constructor(prices: seq<Option<string>>, initialActive: seq<bool>, yearly0: seq<bool>, monthly0: seq<bool>)
      requires |initialActive| == |prices|
      ensures Valid() && this.prices == prices && activePrice == None
      ensures active[..] == initialActive && yearlyShown[..] == yearly0 && monthlyShown[..] == monthly0
      ensures forall k :: 0 <= k < |prices| ==> !checked[k]
    {
      this.prices := prices;
      active := new bool[|prices|](i requires 0 <= i < |initialActive| => initialActive[i]);
      checked := new bool[|prices|](i => false);
      yearlyShown := new bool[|yearly0|](i requires 0 <= i < |yearly0| => yearly0[i]);
      monthlyShown := new bool[|monthly0|](i requires 0 <= i < |monthly0| => monthly0[i]);
      activePrice := None;
    }

    /** The click handler of button `b`. A button whose `data-price` is not
        `yearly` or `monthly` changes nothing; any other makes itself the one
        active and checked button, records its price and displays the
        matching prices. */
    method Click(b: nat)
      requires Valid() && b < |prices|
      modifies this, active, checked, yearlyShown, monthlyShown
      ensures Valid()
      ensures !IsPriceType(prices[b]) ==> unchanged(this, active, checked, yearlyShown, monthlyShown)
      ensures IsPriceType(prices[b]) ==> activePrice == prices[b] && Selected(b)
      ensures IsPriceType(prices[b]) ==> Showing(prices[b] == Some("yearly"))
      ensures IsPriceType(prices[b]) ==> Settled()
      ensures old(Settled()) ==> Settled()
    {
      if !IsPriceType(prices[b]) {
        return;
      }
      var k := 0;
      while k < active.Length
        invariant k <= active.Length
        invariant forall i :: 0 <= i < k ==> !active[i] && !checked[i]
        modifies active, checked
      {
        active[k] := false;
        checked[k] := false;
        k := k + 1;
      }
      active[b] := true;
      checked[b] := true;
      activePrice := prices[b];
      var isYearly := prices[b] == Some("yearly");
      var e := 0;
      while e < yearlyShown.Length
        invariant e <= yearlyShown.Length
        invariant forall i :: 0 <= i < e ==> yearlyShown[i] == isYearly
        modifies yearlyShown
      {
        yearlyShown[e] := isYearly;
        e := e + 1;
      }
      e := 0;
      while e < monthlyShown.Length
        invariant e <= monthlyShown.Length
        invariant forall i :: 0 <= i < e ==> monthlyShown[i] == !isYearly
        modifies monthlyShown
      {
        monthlyShown[e] := !isYearly;
        e := e + 1;
      }
      assert Selected(b) && Showing(isYearly);
    }

    /** The key handler: Enter and Space click the button, any other key is
        ignored. */
    method KeyDown(b: nat, key: string)
      requires Valid() && b < |prices|
      modifies this, active, checked, yearlyShown, monthlyShown
      ensures Valid()
      ensures key != "Enter" && key != " " ==> unchanged(this, active, checked, yearlyShown, monthlyShown)
      ensures (key == "Enter" || key == " ") && IsPriceType(prices[b]) ==> activePrice == prices[b] && Selected(b)
      ensures (key == "Enter" || key == " ") && IsPriceType(prices[b]) ==> Showing(prices[b] == Some("yearly"))
      ensures (key == "Enter" || key == " ") && !IsPriceType(prices[b]) ==> unchanged(this, active, checked, yearlyShown, monthlyShown)
      ensures old(Settled()) ==> Settled()
    {
      if key == "Enter" || key == " " {
        Click(b);
      }
    }
  }

  /** The `z-index` a card is given when the page loads, by its position in
      its stack. */
  function InitialZ(index: nat): (z: string)
    ensures index < 3 ==> z != ""
    ensures index >= 3 ==> z == ""
  {
    if index == 0 then "3" else if index == 1 then "2" else if index == 2 then "1" else ""
  }

  /** A click on card `c`: unless it is the first card, its `z-index` and the
      first card's are exchanged. */
  function SwapWithFirst(z: seq<string>, c: nat): (r: seq<string>)
    requires c < |z|
    ensures |r| == |z|
  {
    if c == 0 then z else z[c := z[0]][0 := z[c]]
  }

  /** A click only exchanges values: the stack's `z-index` values stay the
      same ones. */
  lemma {:induction false} SwapWithFirstPermutes(z: seq<string>, c: nat)
    requires c < |z|
    ensures multiset(SwapWithFirst(z, c)) == multiset(z)
    ensures forall k :: 0 <= k < |z| && k != 0 && k != c ==> SwapWithFirst(z, c)[k] == z[k]
  {
    if c != 0 {
      assert z[c := z[0]][0 := z[c]] == SwapWithFirst(z, c);
    }
  }

  /** Clicking the same card twice restores the stack. */
  lemma {:induction false} SwapWithFirstTwice(z: seq<string>, c: nat)
    requires c < |z|
    ensures SwapWithFirst(SwapWithFirst(z, c), c) == z
  {
  }

  /** The initial `z-index` values of a stack of `n` cards. */
  function InitialStack(n: nat): (z: seq<string>)
    ensures |z| == n && forall i :: 0 <= i < n ==> z[i] == InitialZ(i)
  {
    seq(n, i requires 0 <= i < n => InitialZ(i))
  }

  /** On a fresh stack a click lifts the clicked card to the top. */
  lemma {:induction false} FirstClickLifts(n: nat, c: nat)
    requires c < n
    ensures SwapWithFirst(InitialStack(n), c)[c] == "3"
  {
  }

  /** A second click is measured against the first card, which may no longer
      be on top: on three cards, clicking the third and then the second card
      leaves the second card at the bottom and the third on top. */
  lemma {:induction false} SecondClickSinks()
    ensures SwapWithFirst(SwapWithFirst(InitialStack(3), 2), 1) == ["2", "1", "3"]
  {
    assert InitialStack(3) == ["3", "2", "1"];
    assert SwapWithFirst(["3", "2", "1"], 2) == ["1", "2", "3"];
  }

  /** The card holding the highest `z-index`, `3`, or the first card when no
      card holds it. */
  function TopIndex(z: seq<string>): (t: nat)
    requires |z| > 0
    ensures t < |z|
    ensures "3" in z ==> z[t] == "3"
    ensures "3" !in z ==> t == 0
  {
    if "3" !in z || z[0] == "3" then 0
    else 1 + TopIndex(z[1..])
  }

  /** A click that exchanges `z-index` values with the card actually on
      top. */
  function BringToFront(z: seq<string>, c: nat): (r: seq<string>)
    requires c < |z|
    ensures |r| == |z|
  {
    var t := TopIndex(z);
    z[c := z[t]][t := z[c]]
  }

  /** Every click then lifts the clicked card to the top, and the stack's
      values stay the same ones. */
  lemma {:induction false} BringToFrontLifts(z: seq<string>, c: nat)
    requires c < |z| && "3" in z
    ensures BringToFront(z, c)[c] == "3"
    ensures multiset(BringToFront(z, c)) == multiset(z)
  {
    var t := TopIndex(z);
    assert z[c := z[t]][t := z[c]] == BringToFront(z, c);
  }

  /** The cards of one stack and their `z-index` styles. */
  class CardStack {
    const z: array<string>

    constructor(n: nat)
      ensures z.Length == n && z[..] == InitialStack(n)
    {
      z := new string[n](i => InitialZ(i));
    }

    /** The click handler of card `c`, as written. */
    method Click(c: nat)
      requires c < z.Length
      modifies z
      ensures z[..] == SwapWithFirst(old(z[..]), c)
    {
      if c != 0 {
        var clicked := z[c];
        z[c] := z[0];
        z[0] := clicked;
      }
    }
  }
}
